=== FILE: README.md ===
# WP Marketing Plugin — a verified model of its campaign engine

WP Marketing Plugin is a WordPress plugin. It sends WhatsApp marketing campaigns through an n8n automation server.

- An administrator builds contact lists and message templates, then creates campaigns that pair a list with a template. The campaign is started from the admin pages.
- n8n sends the messages. It reports back over REST endpoints:
  - per-contact delivery statuses, kept in a messages table (the "ledger") that the campaign counters are recounted from;
  - workflow-level statuses;
  - typed webhooks, which change campaign status, upsert contacts by external id and mark QR codes as generated.

This project models that core in Dafny and proves what the code promises.

The files:

- `php.dfy`: the PHP values the handlers see (`null`, strings, integers, booleans, arrays) and PHP's `empty()`/truthiness. It also holds PHP 8's `is_numeric` and `intval` on strings:
  - surrounding white space;
  - a sign, then digits with an optional fraction and an optional exponent;
  - truncation toward zero, and capping to the 64-bit range.
- `wp.dfy`: the WordPress store as one `Database` object. It holds:
  - posts and post meta, and the options;
  - the messages ledger, the list/contact relation, the contact custom fields and the QR-code table;
  - a log of fired actions.

  Its methods mirror `update_post_meta`, `wp_insert_post`, `wp_update_post`, `wp_delete_post` and `update_option`.
- `rest.dfy`, `ledger.dfy`, `api.dfy`: the REST API key check, the ledger upsert and recount, and the three API callbacks.
- `n8n.dfy`: the n8n integrator.
  - It is an object whose configuration is read in its constructor.
  - It covers webhook authorisation, the typed dispatcher and its three handlers, the workflow-status callback, triggering a campaign, the contact upsert and webhook registration.
- `campaigns.dfy`, `qr.dfy`, `templates.dfy`, `contact_lists.dfy`: the request handlers and the client-side string transforms of the four admin pages.
- `post_types.dfy`: the per-user query filter.
- `activator.dfy`: the default options seeded on activation.

Handlers that change the store are methods. Each one's `ensures` gives the new state as a function of the old one, and lemmas prove what the plugin promises about those functions:

- one ledger row per (campaign, contact);
- the counter bounds and the completion rule;
- the lifecycle of the offered actions;
- the placeholder round trip;
- idempotent option seeding;
- and more.

Two consequences of the code worth stating up front:

- The messages table has no unique key on (campaign, contact) (`includes/class-wp-marketing-plugin-activator.php`, lines 84-97). Only the check-then-write upsert keeps the pairs apart. It keeps a table with at most one row per pair in that state (`Ledger.UpsertKeepsOneRowPerPair`). It cannot repair a table that already has duplicates: every duplicate is updated together.
- The recount tallies `pending` rows, but the status route only accepts sent, delivered and failed (`includes/class-wp-marketing-plugin-api.php`, lines 90-94). The endpoint itself therefore never writes `pending`.

## Model

| member | source | states |
|---|---|---|
| Rest.ValidateApiKey | includes/class-wp-marketing-plugin-api.php:141-164 | Access is granted iff the header is present, not empty, and strictly equal to the stored key. Every refusal is a 403 `rest_forbidden`. An empty stored key refuses every request. The integrator's own copy of the check (`class-wp-marketing-n8n-integrator.php`, lines 206-229) makes the same decision and is modelled by this member too. |
| Api.ParseStatusUpdate | includes/class-wp-marketing-plugin-api.php:73-103 | Any failure gives 400. The request is accepted exactly when campaign_id, contact_id and status are all set, both ids pass `is_numeric`, and the status is loosely one of sent/delivered/failed. An accepted status is never `pending`. The ids go through `intval`, and the absent optional texts become '', as the callback's coercions at lines 176-180 do. |
| Api.DecimalIdsAccepted | includes/class-wp-marketing-plugin-api.php:78-89 | Ids sent as the decimal text of 64-bit integers pass the `is_numeric` checks, with or without white space around them. `intval` then reads back exactly those integers. |
| Ledger.UpsertPair | includes/class-wp-marketing-plugin-api.php:203-238 | From at most one row, the pair ends with exactly one row carrying the update's status, message id and error message. An existing row keeps created_at, and keeps sent_at unless the status is sent or delivered. A new row gets created_at. |
| Ledger.UpsertOtherRows | includes/class-wp-marketing-plugin-api.php:221-238 | The rows of every other pair are unchanged and stay in order. |
| Ledger.UpsertKeepsOneRowPerPair | includes/class-wp-marketing-plugin-api.php:203-238 | The check-then-write upsert preserves "at most one row per (campaign, contact)". |
| Ledger.HasPairIff | includes/class-wp-marketing-plugin-api.php:204-208 | The existence SELECT finds a row iff the pair has one. |
| Ledger.PairRowsOfUpdate | includes/class-wp-marketing-plugin-api.php:223-230 | The UPDATE rewrites exactly the pair's rows: selecting a pair commutes with it. |
| Ledger.OtherRowsOfUpdate | includes/class-wp-marketing-plugin-api.php:223-230 | The UPDATE leaves other pairs' rows unchanged. |
| Ledger.UpdateRowsAt | includes/class-wp-marketing-plugin-api.php:223-230 | The UPDATE keeps the table's length and rewrites row i only when it belongs to the pair. |
| Ledger.LastWriteWins | includes/class-wp-marketing-plugin-api.php:203-238 | After a non-empty series of updates to one pair, that pair has one row, and its status is the last update's status. |
| Ledger.TallyBounds | includes/class-wp-marketing-plugin-api.php:381-402 | The recount gives delivered ≤ sent ≤ total and sent + failed + pending ≤ total. |
| Ledger.TallyPartition | includes/class-wp-marketing-plugin-api.php:381-414 | When every row holds one of the four statuses, sent + failed + pending = total. |
| Ledger.NoPendingIff | includes/class-wp-marketing-plugin-api.php:411-414 | The pending count is 0 iff no row of the campaign is pending. |
| Ledger.TotalPositiveIff | includes/class-wp-marketing-plugin-api.php:381-384 | The total is positive iff the campaign has a row. |
| Ledger.UpsertCompletes | includes/class-wp-marketing-plugin-api.php:203-241 | After a non-pending update to a campaign with no pending rows, the pending count is 0 and the total is positive. |
| Api.StatsMetaStatus | includes/class-wp-marketing-plugin-api.php:405-418 | The four counters are written from the recount, with their bounds. The status becomes `completed` iff pending = 0 and total > 0; otherwise it is left as it was. |
| Api.UpdateLeavesCampaignCompleted | includes/class-wp-marketing-plugin-api.php:411-418 | A successful update to a campaign with no pending rows always leaves it `completed`. |
| Api.CountCampaignMessages | includes/class-wp-marketing-plugin-api.php:381-414 | The counting scan equals the recount and satisfies its bounds. |
| Api.UpdateCampaignStats | includes/class-wp-marketing-plugin-api.php:375-419 | Only the campaign's meta changes, and it becomes the recount's counters plus the completion rule. |
| Api.FindMessageRow | includes/class-wp-marketing-plugin-api.php:204-208 | The lookup finds a row iff the pair has one. |
| Api.UpdateCampaignMessageStatus | includes/class-wp-marketing-plugin-api.php:173-247 | An unknown campaign (checked first) or an unknown contact gives its 404 and writes nothing. Otherwise the ledger becomes the upsert, the campaign's meta the recount, and the reply the success message. |
| Api.GetCampaignDetails | includes/class-wp-marketing-plugin-api.php:256-297 | Returns 404 iff the id is not a campaign. Otherwise it returns the title, author and four meta values. The template content is the referenced template's, exactly when the reference is truthy and names a template; otherwise it is ''. |
| Api.RelatedIds | includes/class-wp-marketing-plugin-api.php:325-328 | An id is listed iff a relation row links it to the list. |
| Api.KnownContactIds | includes/class-wp-marketing-plugin-api.php:332-335 | Keeps exactly the related ids that are existing contacts, and never adds any. |
| Api.FieldMapKeys | includes/class-wp-marketing-plugin-api.php:343-360 | A key is a custom field iff some row of the contact carries it. |
| Api.FieldMapLastWins | includes/class-wp-marketing-plugin-api.php:358-360 | A key's value is the one from its last row. |
| Api.CollectRelatedIds | includes/class-wp-marketing-plugin-api.php:325-328 | The relation scan returns the related ids in table order. |
| Api.CollectFields | includes/class-wp-marketing-plugin-api.php:343-360 | The loop builds the folded custom-field map. |
| Api.ContactEntry | includes/class-wp-marketing-plugin-api.php:337-360 | A contact's entry holds its title, its four standard meta values ('' when absent) and its folded custom fields. |
| Api.CollectContacts | includes/class-wp-marketing-plugin-api.php:332-364 | The loop yields one entry per id that names an existing contact, in order, each that contact's record. |
| Api.GetListContacts | includes/class-wp-marketing-plugin-api.php:306-367 | Returns 404 iff the id is not a list. Otherwise it returns one entry per related id that is an existing contact, in relation-table order. |
| Php.Cap64 | includes/class-wp-marketing-plugin-api.php:176-177 | `intval` caps a value outside PHP's 64-bit integers at the nearer end. The result is always in range, and a value already in range is kept. |
| Php.IntOfDecimalString | includes/class-wp-marketing-plugin-api.php:176-177 | `intval` reads back the decimal text `(string)` gives every 64-bit integer, and `is_numeric` accepts that text. |
| Php.SpacesAfterDecimal | includes/class-wp-marketing-plugin-api.php:81-87 | White space after the decimal text of an integer keeps it numeric, and `intval` still reads the integer. |
| Php.SpacesBeforeNumber | includes/class-wp-marketing-plugin-api.php:81-87 | White space before any string changes neither `is_numeric` nor `intval`. |
| Php.PaddedDecimal | includes/class-wp-marketing-plugin-api.php:81-87 | An integer's decimal text with white space on both sides is numeric and is read back as that integer. |
| Php.FractionIsTruncated | includes/class-wp-marketing-plugin-api.php:176-177 | Digits, a fraction and then white space form a numeric string. `intval` drops the fraction: truncation toward zero. |
| Php.ExponentIsApplied | includes/class-wp-marketing-plugin-api.php:176-177 | Digits and an exponent form a numeric string. `intval` scales the digits by that power of ten, capped to 64 bits. |
| Php.TrailingTextIsIgnored | includes/class-wp-marketing-plugin-api.php:81-87 | Text after the digits that cannot continue a number makes the string non-numeric. `intval` still reads the digits before it. |
| Wp.SanitizeKey | wp-marketing-plugin/includes/class-wp-marketing-n8n-integrator.php:629-630 | WordPress's `sanitize_key`: lower-cases ASCII letters and drops every character other than a-z, 0-9, `_` and `-`. The result is no longer than the key and holds only those characters. |
| Wp.SanitizeKeyByCharacter | wp-marketing-plugin/includes/class-wp-marketing-n8n-integrator.php:629-630 | Sanitising distributes over concatenation. A single character is kept, lowered, exactly when its lowered form is a-z, 0-9, `_` or `-`. Together these fix the result on every key. |
| Wp.SanitizeKeyOfClean | wp-marketing-plugin/includes/class-wp-marketing-n8n-integrator.php:629-630 | A key already made of those characters is left unchanged. |
| Wp.SanitizeKeyIdempotent | wp-marketing-plugin/includes/class-wp-marketing-n8n-integrator.php:629-630 | Sanitising twice is the same as sanitising once. |
| Wp.SanitizeKeyExamples | wp-marketing-plugin/includes/class-wp-marketing-n8n-integrator.php:629-630 | `Phone` becomes `phone`, and `!!` becomes '', which `update_post_meta` refuses. |
| N8n.Integrator.constructor | wp-marketing-plugin/includes/class-wp-marketing-n8n-integrator.php:80-91 | The URL and key are read from the options (default ''). The integrator is configured iff both are non-empty. |
| N8n.ValidateWebhookRequest | wp-marketing-plugin/includes/class-wp-marketing-n8n-integrator.php:158-197 | Authorised iff the webhook has a stored secret, the signature header is present and non-empty, and the header equals the HMAC of the body. Every refusal is a 403 `rest_forbidden`. |
| N8n.SecretKeyIsNotTypeKey | wp-marketing-plugin/includes/class-wp-marketing-n8n-integrator.php:695-696 | A webhook's secret option and type option are different keys. |
| N8n.TypePrefixedIdOverwritesType | wp-marketing-plugin/includes/class-wp-marketing-n8n-integrator.php:695-696 | The route (line 109) accepts `_` in an id, and the secret option of webhook `type_x` is the type option of webhook `x`. Registering `type_x` after `x` replaces x's type with the new secret, and x's requests then route to the 400 unsupported-type reply. |
| N8n.SeparateKeysKeepOtherWebhooks | wp-marketing-plugin/includes/class-wp-marketing-n8n-integrator.php:695-696 | With the secret stored under a separate `wp_marketing_webhook_secret_` key, no secret key equals a type key, and registering another webhook keeps a webhook's secret and type. |
| N8n.RegisteredWebhookAuthorises | wp-marketing-plugin/includes/class-wp-marketing-n8n-integrator.php:683-708 | At the permission callback, after registration, a request signed with the issued secret is authorised and any other signature is refused. |
| N8n.WebhookIdCheck | wp-marketing-plugin/includes/class-wp-marketing-n8n-integrator.php:109-118 | The route's own id check passes exactly for ids that match `\w+` and are not "0". "0" gets a 400, and any other failing id a 404 (no route). |
| N8n.RegisteredWebhookServed | wp-marketing-plugin/includes/class-wp-marketing-n8n-integrator.php:683-708 | End to end (route check, then permission callback), a registered webhook is served exactly when its id is routable and the signature is the HMAC under the issued secret. An id `register_webhook` accepts but the route refuses, such as "0" or "a-b", never gets through. |
| N8n.Integrator.RegisterWebhook | wp-marketing-plugin/includes/class-wp-marketing-n8n-integrator.php:683-708 | Unconfigured: fails and writes nothing. Otherwise it stores the secret and the type under the webhook id and succeeds. |
| N8n.WebhookRoute | wp-marketing-plugin/includes/class-wp-marketing-n8n-integrator.php:243-273 | An empty type gives 404 and an unmatched type gives 400. Each handler is chosen only when PHP's loose `switch` matches its name. |
| N8n.RegisteredTypeRoutes | wp-marketing-plugin/includes/class-wp-marketing-n8n-integrator.php:257-273 | A non-empty string type routes to a handler iff it is that handler's name; any other string gives 400. |
| N8n.Integrator.HandleWebhook | wp-marketing-plugin/includes/class-wp-marketing-n8n-integrator.php:238-274 | A route error changes nothing. Otherwise the chosen handler's effect holds on posts, meta, actions and the next post id, and the stores it does not touch are unchanged. |
| N8n.Integrator.Dispatch | wp-marketing-plugin/includes/class-wp-marketing-n8n-integrator.php:257-266 | Only the routed kind's handler runs, and its effect holds. The campaign-status and QR handlers leave posts and the next post id alone. The contact handler's effect covers posts, meta and the next post id, and it fires no actions. |
| N8n.CampaignStatusOf | wp-marketing-plugin/includes/class-wp-marketing-n8n-integrator.php:285-296 | The reply is 400 exactly when campaign_id or status is missing. An accepted payload parses to `intval(campaign_id)`, the status as text, and the message as text defaulting to ''. |
| N8n.CampaignStatusEffects | wp-marketing-plugin/includes/class-wp-marketing-n8n-integrator.php:307-327 | The status, message and time are written. sent_at is written only for sent, and completed_at only for completed; no other key changes. The completion action fires iff completed, and the failure action iff failed. |
| N8n.Integrator.WriteCampaignStatus | wp-marketing-plugin/includes/class-wp-marketing-n8n-integrator.php:307-327 | On an existing campaign, the campaign's meta becomes `CampaignStatusMeta` of the old meta and no other post's meta changes. The fired actions are `CampaignStatusEvents`. |
| N8n.Integrator.ProcessCampaignStatus | wp-marketing-plugin/includes/class-wp-marketing-n8n-integrator.php:283-334 | A parse error gives 400, and an unknown campaign gives 404; neither writes anything. Otherwise the campaign's meta and the fired actions are as stated and the reply is the success message. |
| N8n.QrUpdateOf | wp-marketing-plugin/includes/class-wp-marketing-n8n-integrator.php:387-396 | The reply is 400 exactly when qr_code_id or qr_code_url is missing. An accepted payload parses to `intval(qr_code_id)` and the URL as text. |
| N8n.Integrator.ProcessQrCode | wp-marketing-plugin/includes/class-wp-marketing-n8n-integrator.php:385-410 | Sets the url, status `generated` and generated_at without checking that the record exists, and fires the generated action. |
| N8n.Integrator.FindContactByExternalId | wp-marketing-plugin/includes/class-wp-marketing-n8n-integrator.php:576-596 | Returns a contact carrying the external id, and no such contact has a higher id; returns none iff no contact carries it. |
| N8n.Integrator.WriteExtraField | wp-marketing-plugin/includes/class-wp-marketing-n8n-integrator.php:629-631 | A key other than name, phone and email is stored as text, under its `sanitize_key` form, on that contact and nowhere else. Those three keys, and a key that sanitises to '' (refused by `update_post_meta`), change nothing. |
| N8n.Integrator.WriteCreatedFields | wp-marketing-plugin/includes/class-wp-marketing-n8n-integrator.php:623-625 | Only the new contact's meta changes: it gets the external id, the phone and the e-mail, with '' for a missing phone or e-mail. |
| N8n.Integrator.WriteExtraFields | wp-marketing-plugin/includes/class-wp-marketing-n8n-integrator.php:628-632 | The loop writes the further payload keys in the payload's key order, each under its sanitised key, on that contact only: the result is the left fold `WithExtraFields`. |
| N8n.WithExtraFieldsFacts | wp-marketing-plugin/includes/class-wp-marketing-n8n-integrator.php:628-632 | The fold keeps every key it starts with, touches only the sanitised keys of the further payload keys, and a sanitised key ends with the value of the last payload key written to it. |
| N8n.WithExtraFieldsOwnKey | wp-marketing-plugin/includes/class-wp-marketing-n8n-integrator.php:628-632 | A further payload key that no other written key sanitises onto is stored with its own value as text. |
| N8n.CreatedContactFields | wp-marketing-plugin/includes/class-wp-marketing-n8n-integrator.php:606-635 | A created contact has external_id, phone and email meta. Each holds the external id, the phone or the e-mail ('' when absent) unless a further key sanitises onto it. Every other key, `name` included, is left alone unless a further key sanitises onto it. A further key with no rival writer is stored with its own value. |
| N8n.Integrator.CreateContact | wp-marketing-plugin/includes/class-wp-marketing-n8n-integrator.php:606-635 | A new contact post (title from name, default 'Unknown') with the next id, which advances by one, plus its meta. |
| N8n.UpdatedContactKeepsAbsentKeys | wp-marketing-plugin/includes/class-wp-marketing-n8n-integrator.php:645-673 | `update_contact` changes only phone and email when the payload sets them, and the sanitised keys of the further payload keys. A set phone or e-mail is stored unless a further key sanitises onto it. A further key with no rival writer is stored with its own value. |
| N8n.CapitalisedKeyReplacesPhone | wp-marketing-plugin/includes/class-wp-marketing-n8n-integrator.php:666-670 | A payload holding only `Phone` does not set phone, yet the update replaces the stored phone, because `Phone` sanitises to `phone`. |
| N8n.Integrator.WriteStandardFields | wp-marketing-plugin/includes/class-wp-marketing-n8n-integrator.php:657-663 | Phone and e-mail are written only when the payload sets them. |
| N8n.Integrator.UpdateContact | wp-marketing-plugin/includes/class-wp-marketing-n8n-integrator.php:645-673 | The title changes only when a name is given, and the meta becomes the updated contact meta. |
| N8n.CreatedContactIsFound | wp-marketing-plugin/includes/class-wp-marketing-n8n-integrator.php:357-365 | Once a contact has been created for an external id, and no further payload key sanitised onto `external_id`, the lookup finds it: it carries the id and has the highest post id among those that do. |
| N8n.ExternalIdKeyHidesContact | wp-marketing-plugin/includes/class-wp-marketing-n8n-integrator.php:623-632 | As written, a further key that sanitises to `external_id` with another value replaces the stored id, and the created contact no longer carries the id it was created for. |
| N8n.SingleExtraKey | wp-marketing-plugin/includes/class-wp-marketing-n8n-integrator.php:628-632 | A payload of one further key writes its value under the sanitised key and changes nothing else. |
| N8n.GuardedContactIsFound | wp-marketing-plugin/includes/class-wp-marketing-n8n-integrator.php:623-632 | With the external id written after the foreach (`GuardedContactMeta`), the created contact is found whatever the payload holds. |
| N8n.Integrator.ProcessContactUpdate | wp-marketing-plugin/includes/class-wp-marketing-n8n-integrator.php:343-376 | Missing fields give 400 and write nothing. Otherwise it updates the contact found (retitled only when a name is given, the next post id unchanged), or creates one with the next id (the id advances by one), and the reply carries the contact's id. |
| N8n.Integrator.SavedContactIsFound | wp-marketing-plugin/includes/class-wp-marketing-n8n-integrator.php:343-376 | After a contact update with no further key on `external_id`, the contact saved carries the contact id and has the highest post id among those that do. |
| N8n.Integrator.RepeatedContactUpdateHitsSameContact | wp-marketing-plugin/includes/class-wp-marketing-n8n-integrator.php:343-376 | Of two contact updates with the same contact id, the first with no further key on `external_id`, the second updates the contact the first one saved and creates no post. |
| N8n.WorkflowUpdateOf | wp-marketing-plugin/includes/class-wp-marketing-n8n-integrator.php:124-148 | Any failure gives 400, and a missing execution_id, campaign_id or status is one. With all three set, the request is accepted exactly when campaign_id passes `is_numeric` and the status is loosely one of the four workflow statuses. A string status that is accepted is one of those four. The callback's coercions follow (lines 420-423). |
| N8n.WorkflowStatusMapping | wp-marketing-plugin/includes/class-wp-marketing-n8n-integrator.php:436-449 | The four workflow fields are always written. error → `failed` plus the message, success → `queued`, started → `processing`, and warning leaves the status alone. |
| N8n.Integrator.HandleWorkflowStatus | wp-marketing-plugin/includes/class-wp-marketing-n8n-integrator.php:419-455 | An unknown campaign gives 404 and writes nothing. Otherwise the campaign's meta is updated by the mapping. |
| N8n.TriggerUrl | wp-marketing-plugin/includes/class-wp-marketing-n8n-integrator.php:492 | The trigger URL always ends in `/webhook/marketing-campaign-trigger`. |
| N8n.Untrailed | wp-marketing-plugin/includes/class-wp-marketing-n8n-integrator.php:492 | Removes exactly the trailing slashes and backslashes. |
| N8n.TriggerUrlIgnoresTrailingSlash | wp-marketing-plugin/includes/class-wp-marketing-n8n-integrator.php:492 | A configured URL gives the same trigger URL with or without a trailing slash. |
| N8n.TriggerEffects | wp-marketing-plugin/includes/class-wp-marketing-n8n-integrator.php:515-556 | Success iff HTTP 200, which sets `processing` plus started_at, and the execution id only when one is present. A transport error or any other code sets `failed` plus the message. |
| N8n.Integrator.TriggerCampaign | wp-marketing-plugin/includes/class-wp-marketing-n8n-integrator.php:464-557 | Refuses, in order and without writing, when it is unconfigured, the campaign is unknown, or the list or template is empty. Otherwise the outcome sets the status as stated. |
| Campaigns.NewCampaignDefaults | admin/partials/wp-marketing-plugin-admin-campaigns.php:69-105 | A new campaign is a `draft` with the four counters at 0 and list and template as submitted integers. It is scheduled iff asked, and scheduled_time = date + ' ' + time + ':00' is written only then. |
| Campaigns.CreateCampaign | admin/partials/wp-marketing-plugin-admin-campaigns.php:69-114 | Without a valid submission nothing changes. Otherwise a campaign owned by the user gets the next id and the new-campaign meta. |
| Campaigns.WriteDraftMeta | admin/partials/wp-marketing-plugin-admin-campaigns.php:88-94 | The seven unconditional meta writes, on that campaign only. |
| Campaigns.WriteSchedule | admin/partials/wp-marketing-plugin-admin-campaigns.php:97-105 | The scheduling writes, on that campaign only. |
| Campaigns.HandleCampaignAction | admin/partials/wp-marketing-plugin-admin-campaigns.php:117-158 | Without a valid nonce, or when the user is neither the author nor an administrator, nothing changes. Otherwise start → `pending`, pause → `paused`, resume → `pending` (whatever the current status), delete removes the post and its meta, and any other action changes nothing. |
| Campaigns.StatusLabel | admin/partials/wp-marketing-plugin-admin-campaigns.php:224-238 | The label map's entry, or the raw status when it has none. |
| Campaigns.StatusLabelsDistinct | admin/partials/wp-marketing-plugin-admin-campaigns.php:224-229 | The four statuses have distinct labels. |
| Campaigns.OfferedActionsFollowLifecycle | admin/partials/wp-marketing-plugin-admin-campaigns.php:281-287 | Only draft, pending and paused offer a button (Start, Pause, Resume). Each offered action moves to a different status that again offers one. A completed campaign is offered nothing. |
| Qr.CleanPhone | admin/partials/wp-marketing-plugin-admin-qr-code.php:53 | The result is no longer than the input and holds only digits and '+'. |
| Qr.CleanPhoneByCharacter | admin/partials/wp-marketing-plugin-admin-qr-code.php:53 | Cleaning distributes over concatenation, and a single character is kept exactly when it is a digit or '+'. Together these fix the result on every input. |
| Qr.CleanPhoneOfClean | admin/partials/wp-marketing-plugin-admin-qr-code.php:53 | A number already made of digits and '+' is left unchanged. |
| Qr.CleanPhoneIdempotent | admin/partials/wp-marketing-plugin-admin-qr-code.php:53 | Cleaning twice is the same as cleaning once. |
| Qr.ValidatePhoneNumber | admin/partials/wp-marketing-plugin-admin-qr-code.php:51-61 | Returns the cleaned number iff it is '+' followed by 10–15 digits, and false otherwise. |
| Qr.ValidatedNumberIsStable | admin/partials/wp-marketing-plugin-admin-qr-code.php:53-58 | An accepted number is 11–16 long, starts with '+' and has only digits after it; validating it again returns it unchanged. |
| Qr.ValidationSeesOnlyCleanedForm | admin/partials/wp-marketing-plugin-admin-qr-code.php:53-56 | Inputs with the same cleaned form validate alike. |
| Qr.WhatsAppUrl | admin/partials/wp-marketing-plugin-admin-qr-code.php:75-79 | The link starts with `https://wa.me/`. |
| Qr.WhatsAppUrlNamesNumber | admin/partials/wp-marketing-plugin-admin-qr-code.php:75-79 | The link names exactly the number without its '+', and carries `?text=` iff the message is non-empty. |
| Qr.GenerateQrCode | admin/partials/wp-marketing-plugin-admin-qr-code.php:64-112 | An invalid phone gives the error notice and inserts nothing. A valid one appends a row with the next id, the user, the cleaned number, the message and the link. |
| Qr.RowsWithout | admin/partials/wp-marketing-plugin-admin-qr-code.php:125 | Keeps exactly the rows with another id. |
| Qr.RowsWithoutAbsent | admin/partials/wp-marketing-plugin-admin-qr-code.php:125 | Deleting an id no row has changes nothing. |
| Qr.RowsWithoutIncreasing | admin/partials/wp-marketing-plugin-admin-qr-code.php:125 | Deleting keeps the ids increasing. |
| Qr.RowsWithoutPresent | admin/partials/wp-marketing-plugin-admin-qr-code.php:125 | Deleting a present id removes exactly one row. |
| Qr.DeleteOwnedRow | admin/partials/wp-marketing-plugin-admin-qr-code.php:118-125 | After an owned row is deleted, ids stay positive, below the next id and increasing. Exactly one row goes, and it is the user's. |
| Qr.DeleteQrCode | admin/partials/wp-marketing-plugin-admin-qr-code.php:115-134 | Deletes iff the request is valid and the user owns a row with that id. Then exactly that row is removed; otherwise the table is unchanged. Every removed row belongs to the user. |
| Templates.SaveTemplate | admin/partials/wp-marketing-plugin-admin-message-templates.php:22-84 | An empty title is refused first, then an empty content, and neither writes anything. A positive id updates that post and its type; otherwise a new template with its type is inserted. |
| Templates.TemplateTypeOf | admin/partials/wp-marketing-plugin-admin-message-templates.php:144 | The stored type, or 'text' when it is empty. |
| Templates.TypeLabelCases | admin/partials/wp-marketing-plugin-admin-message-templates.php:405-418 | image → Image, document → Document, and anything else (empty included) → Text. |
| Templates.RunLength | admin/partials/wp-marketing-plugin-admin-message-templates.php:426 | The longest run of non-'}' characters at the start of the text. |
| Templates.PlaceholderAt | admin/partials/wp-marketing-plugin-admin-message-templates.php:426 | A match at the start is `{{name}}` with a valid name. |
| Templates.Segments | admin/partials/wp-marketing-plugin-admin-message-templates.php:426 | Every placeholder found has a non-empty name without '}'. |
| Templates.SegmentsRoundTrip | admin/partials/wp-marketing-plugin-admin-message-templates.php:426 | Splitting into placeholders and writing each back as `{{name}}` gives the text back. |
| Templates.ReplacePlaceholdersPlain | admin/partials/wp-marketing-plugin-admin-message-templates.php:287-289 | Text without '{' has no placeholders, and replacement leaves it as it is. |
| Templates.RunLengthOfName | admin/partials/wp-marketing-plugin-admin-message-templates.php:426 | After a valid name, the run stops at its '}'. |
| Templates.SegmentsOfBraced | admin/partials/wp-marketing-plugin-admin-message-templates.php:426 | `{{name}}` is one placeholder. |
| Templates.Names | admin/partials/wp-marketing-plugin-admin-message-templates.php:426 | The names are exactly those of the placeholders. |
| Templates.Captures | admin/partials/wp-marketing-plugin-admin-message-templates.php:426 | Every captured name is non-empty and has no '}'. |
| Templates.Unique | admin/partials/wp-marketing-plugin-admin-message-templates.php:430 | The same names, each listed once. |
| Templates.VariablesShownFacts | admin/partials/wp-marketing-plugin-admin-message-templates.php:426-431 | The variables shown are exactly the captured names, valid and de-duplicated. There are none without '{', and `{{n}}` shows `n`. |
| Templates.ReplaceLiteralAbsent | admin/partials/wp-marketing-plugin-admin-message-templates.php:281-285 | A literal pattern whose first character never occurs changes nothing. |
| Templates.ReplaceLiteralOtherName | admin/partials/wp-marketing-plugin-admin-message-templates.php:281-285 | Replacing `{{k}}` leaves `{{n}}` alone for n ≠ k. |
| Templates.ReplaceKnownPlain | admin/partials/wp-marketing-plugin-admin-message-templates.php:280-285 | The five known replacements leave text without '{' unchanged. |
| Templates.ReplaceKnownOther | admin/partials/wp-marketing-plugin-admin-message-templates.php:280-285 | They leave any other placeholder alone. |
| Templates.ReplaceKnownHit | admin/partials/wp-marketing-plugin-admin-message-templates.php:280-285 | A known placeholder becomes its sample value. |
| Templates.SubstituteBraced | admin/partials/wp-marketing-plugin-admin-message-templates.php:287-289 | The generic replacement maps `{{n}}` to f(n). |
| Templates.SamplePreviewKnown | admin/partials/wp-marketing-plugin-admin-message-templates.php:280-289 | The sample preview of each of the five known placeholders is its fixed value. |
| Templates.SamplePreviewOther | admin/partials/wp-marketing-plugin-admin-message-templates.php:286-289 | Any other placeholder becomes `<em>name value</em>`. |
| Templates.SamplePreviewPlain | admin/partials/wp-marketing-plugin-admin-message-templates.php:280-289 | Text without '{' is previewed unchanged. |
| Templates.LivePreviewOfBraced | admin/partials/wp-marketing-plugin-admin-message-templates.php:297 | The live preview wraps a placeholder in the highlight span, keeping the placeholder's text inside it. |
| Templates.Clamp | admin/partials/wp-marketing-plugin-admin-message-templates.php:231-233 | The cursor is clamped into the text, as JavaScript's `substring` does. A cursor inside the text is kept, one before it becomes 0, and one past it becomes the length. |
| Templates.InsertVariableFacts | admin/partials/wp-marketing-plugin-admin-message-templates.php:230-235 | The result is text[..c] + variable + text[c..]: its length adds up, the variable sits at the cursor, and removing it gives the text back. |
| Templates.OnVariableChosen | admin/partials/wp-marketing-plugin-admin-message-templates.php:225-243 | An empty choice, or the custom-field choice, leaves the text unchanged. Any other choice inserts the variable at the cursor. |
| ContactLists.SaveList | admin/partials/wp-marketing-plugin-admin-contact-lists.php:22-73 | An empty title is refused and nothing is written. A positive list id updates that list; otherwise a new list is inserted. |
| ContactLists.AfterLast | admin/partials/wp-marketing-plugin-admin-contact-lists.php:80 | The part after the last separator, which contains no separator. |
| ContactLists.AfterLastAppend | admin/partials/wp-marketing-plugin-admin-contact-lists.php:80 | A separator-free suffix is carried through. |
| ContactLists.AfterLastOfSeparator | admin/partials/wp-marketing-plugin-admin-contact-lists.php:80 | The text after the last separator is exactly what follows it. |
| ContactLists.Extension | admin/partials/wp-marketing-plugin-admin-contact-lists.php:80 | `pathinfo` extension: contains neither '.' nor '/'. |
| ContactLists.ExtensionOf | admin/partials/wp-marketing-plugin-admin-contact-lists.php:80 | The extension of stem.ext is ext. |
| ContactLists.ImportDecision | admin/partials/wp-marketing-plugin-admin-contact-lists.php:76-118 | The import runs iff it is submitted for a positive list id with a valid nonce, an uploaded file and the extension exactly `csv`. Otherwise the missing file or the wrong type is reported. |
| ContactLists.CsvExtensionIsExact | admin/partials/wp-marketing-plugin-admin-contact-lists.php:80-88 | `.csv` passes; `.CSV` and `.csv.txt` do not. |
| ContactLists.WithoutMembership | admin/partials/wp-marketing-plugin-admin-contact-lists.php:127-133 | Removes exactly the (list, contact) rows. |
| ContactLists.WithoutList | admin/partials/wp-marketing-plugin-admin-contact-lists.php:155 | Removes exactly the list's rows. |
| ContactLists.RemoveContactFromList | admin/partials/wp-marketing-plugin-admin-contact-lists.php:121-145 | With a valid request, only the matching relation rows are removed. The contact itself and the other tables are untouched. |
| ContactLists.DeleteList | admin/partials/wp-marketing-plugin-admin-contact-lists.php:147-167 | With a valid request, every relation row of the list is removed, and so are the list post and its meta when a post has that id. Otherwise nothing changes. |
| ContactLists.RelationDeletes | admin/partials/wp-marketing-plugin-admin-contact-lists.php:121-155 | Removing a contact removes its membership of this list only, and removing it twice is the same as once. Deleting a list keeps every other list's rows. |
| ContactLists.Split | admin/partials/wp-marketing-plugin-admin-contact-lists.php:417 | JavaScript `split`: at least one piece, and no piece contains the separator. |
| ContactLists.SplitThenJoin | admin/partials/wp-marketing-plugin-admin-contact-lists.php:417 | Joining the pieces gives the text back. |
| ContactLists.JoinThenSplit | admin/partials/wp-marketing-plugin-admin-contact-lists.php:425 | Splitting separator-free pieces joined together gives the pieces back. |
| ContactLists.SplitOfPlain | admin/partials/wp-marketing-plugin-admin-contact-lists.php:417 | A separator-free prefix stays in the first piece. |
| ContactLists.SplitCount | admin/partials/wp-marketing-plugin-admin-contact-lists.php:417-419 | There are at least two pieces iff the separator occurs. |
| ContactLists.TrimStart | admin/partials/wp-marketing-plugin-admin-contact-lists.php:426 | A suffix of the text that starts with a non-whitespace character. Everything removed before it is whitespace. |
| ContactLists.TrimEnd | admin/partials/wp-marketing-plugin-admin-contact-lists.php:426 | A prefix of the text that ends with a non-whitespace character. Everything removed after it is whitespace. |
| ContactLists.StripQuotes | admin/partials/wp-marketing-plugin-admin-contact-lists.php:426 | Removes one leading and one trailing quote when both are present, and nothing when neither is. With a quote at one end only, only that quote goes. A lone quote counts as the leading one. |
| ContactLists.ParseCsvHeaders | admin/partials/wp-marketing-plugin-admin-contact-lists.php:416-427 | Gives the error iff the file has fewer than two lines. Otherwise there is one header per comma-separated field of the first line. |
| ContactLists.CleanPlainHeader | admin/partials/wp-marketing-plugin-admin-contact-lists.php:426 | A header without surrounding spaces or quotes is kept as it is. |
| ContactLists.FirstLine | admin/partials/wp-marketing-plugin-admin-contact-lists.php:417-425 | The first line is everything before the first newline. |
| ContactLists.ParseOfCleanFields | admin/partials/wp-marketing-plugin-admin-contact-lists.php:416-427 | When the first line's fields are already clean, they are the headers. |
| ContactLists.HeaderLineRoundTrip | admin/partials/wp-marketing-plugin-admin-contact-lists.php:416-427 | A header line written from plain headers parses back to those headers. |
| ContactLists.JoinHasNo | admin/partials/wp-marketing-plugin-admin-contact-lists.php:425 | Joining introduces no character other than the separator. |
| ContactLists.ToLower | admin/partials/wp-marketing-plugin-admin-contact-lists.php:436-440 | Lower-cases character by character, keeping the length. |
| ContactLists.AutoMapping | admin/partials/wp-marketing-plugin-admin-contact-lists.php:435-441 | The pre-selected option is one of the six values of the select. |
| ContactLists.AutoMappingFacts | admin/partials/wp-marketing-plugin-admin-contact-lists.php:436-440 | Matching is case-insensitive: phone and phone_number map to phone_number, and the other four names map to themselves. Everything else is "Do not import". |
| ContactLists.HeaderMappings | admin/partials/wp-marketing-plugin-admin-contact-lists.php:416-441 | Fails exactly when parsing fails. Otherwise there is one mapping per header. |
| PostTypes.Query.constructor | includes/class-wp-marketing-plugin-post-types.php:176 | The query object with its flags and variables. |
| PostTypes.Query.Set | includes/class-wp-marketing-plugin-post-types.php:199 | `$query->set` changes exactly one variable. |
| PostTypes.FilterUserPosts | includes/class-wp-marketing-plugin-post-types.php:176-202 | Sets `author` to the current user iff the rule restricts the query, and changes no other variable. |
| PostTypes.RestrictsOnlyPluginTypes | includes/class-wp-marketing-plugin-post-types.php:178-200 | Only main queries for the four plugin post types are restricted. An administrator in admin screens, and user 0, leave every query untouched. |
| Activator.SetDefaultOptions | includes/class-wp-marketing-plugin-activator.php:108-122 | The loop leaves the options equal to the seeding of the five defaults. |
| Activator.SeededAt | includes/class-wp-marketing-plugin-activator.php:117-121 | Each default's key holds the default when the stored value was falsy, and the stored value otherwise. Every other key is untouched. |
| Activator.DefaultNamesDistinct | includes/class-wp-marketing-plugin-activator.php:109-115 | The five option names are distinct. |
| Activator.SeedingIdempotent | includes/class-wp-marketing-plugin-activator.php:117-121 | Seeding twice gives the same options as seeding once. |
| Activator.SeedingExamples | includes/class-wp-marketing-plugin-activator.php:117-121 | A stored enable_qr_code of 0 becomes 1. A set n8n URL is kept. A foreign option is neither changed nor created. |

## Left out

- The `sanitize_text_field`, `sanitize_email`, `sanitize_textarea_field`, `wp_kses_post` and `esc_url_raw` calls are taken as the identity. `sanitize_key` is modelled (`Wp.SanitizeKey`).
- A decoded payload is a map, so the order of its keys is a parameter (`order`) that lists each key once. `foreach` follows that order.
- Api.ParseStatusUpdate: a JSON number with a fraction or an exponent decodes to a PHP float, and `Value` has no float case. Ids sent as such numbers are not modelled. Ids sent as strings are, fraction, exponent and white space included.
- N8n.WorkflowUpdateOf: the same float gap as Api.ParseStatusUpdate, for campaign_id.
- N8n.CampaignStatusOf: the same float gap as Api.ParseStatusUpdate, for campaign_id.
- N8n.QrUpdateOf: the same float gap as Api.ParseStatusUpdate, for qr_code_id.
- Php.IntOfString: PHP converts a string with a fraction, an exponent or too many digits through a double. The model computes exactly instead, so two effects are missing:
  - rounding beyond 53 bits of precision;
  - an exponent large enough to overflow the double, which PHP turns into 0, whereas the model caps it to the 64-bit maximum.
- N8n.WithExtraFieldsOwnKey: `update_post_meta` unslashes the value it stores (`wp_unslash`), so a value with a backslash is stored without it. The model stores the text as given.
- N8n.Integrator.WriteStandardFields, N8n.Integrator.WriteExtraFields, N8n.Integrator.CreateContact and N8n.Integrator.UpdateContact: the same unslashing by `update_post_meta` and `wp_insert_post` (titles included) is not modelled.
- Numeric keys of a decoded JSON object are taken as strings. PHP 8 compares an integer key loosely with `name`, `phone` and `email` as false, so `in_array` decides the same way.
- `urlencode` and the HMAC-SHA256 are function parameters, and `hash_equals` is plain equality.
- `current_time`, the random `wp_generate_password` secret and the HTTP outcome of `wp_remote_post` are inputs.
- The request body is already decoded.
- Meta values are stored as typed PHP values rather than as the strings the database would hold.
- Failures of `wp_insert_post` and of `$wpdb->insert` are not modelled: inserts always succeed.
- Post dates are not modelled.
- N8n.Integrator.FindContactByExternalId: the comparison is exact string equality. The meta query runs in MySQL under the `utf8mb4_unicode_ci` collation, which also matches ids that differ in letter case or in trailing spaces; that folding is not modelled.
- N8n.Integrator.FindContactByExternalId: the query's newest-first date order is taken to be the highest post id, on the assumption that posts are created in id order.
- N8n.WebhookIdCheck: `\w` is taken as ASCII letters, digits and '_'; locale-dependent word characters and the URL decoding of the path are not modelled. `N8n.Integrator.HandleWebhook` is the callback that runs after this check and `validate_webhook_request` (`N8n.WebhookGate`).
- N8n.Integrator.HandleWebhook: the `error_log` call and the payload dump are not modelled.
- N8n.Integrator.TriggerCampaign: the JSON request body and the callback URL sent to n8n are not modelled; only the outcome is.
- `is_configured()` is the `isConfigured` field itself.
- The QR table's chart-service URLs (`qr_url`, `qr_svg_url`) are represented by the wa.me link they encode.
- The page refreshes after each handler are not modelled.
- Concurrency: the handlers run one at a time. The races between simultaneous callbacks that a missing unique key allows are out of scope.
- Handlers on one admin page are modelled separately. In one request PHP runs them one after another.
- Rendering, notices, redirects and `exit` are not modelled.
- The message-templates page's template delete handler and its "custom field" variable button are not modelled.
- Templates.OnVariableChosen: the custom-field choice only reveals an input box; its insertion is not modelled.
- ContactLists.TrimStart: the whitespace set is exactly ECMAScript's WhiteSpace and LineTerminator characters, all Unicode space separators included. A character Unicode adds to that category later is not tracked.
- Templates.Clamp: the cursor and the text length count code points. JavaScript's `selectionStart` and `substring` count UTF-16 code units, so text with a character outside the Basic Multilingual Plane gives other positions. For example, with text "😀a" and cursor 2 the browser inserts after the emoji, while the model inserts after the `a`.
- Templates.InsertVariable: the same code point versus UTF-16 difference as Templates.Clamp; a cursor between the two halves of a surrogate pair cannot be expressed.
- ContactLists.ToLower: only ASCII letters are lowered; JavaScript's full Unicode case mapping is not modelled.
- ContactLists.Extension: `pathinfo` is taken on '/'-separated names. Backslash separators and trailing slashes are not modelled.
- The CSV import function `wp_marketing_process_contact_import` is not part of this model. Its source is not in the repository's core.
- `create_tables`/`dbDelta`, `register_post_types`, `flush_rewrite_rules` and the activation wiring are not modelled.
- `wp_update_post` on an existing id of another post type replaces that post; this is modelled as written.
- The settings page, the dashboard, the plugin bootstrap and the admin JavaScript file are not modelled (plumbing and display).

## Findings

The handlers keep the code's behaviour as written. The corrected definitions stand beside them, with the intended property proved.

| source | as written | input that shows it | evidently intended | confidence | as-written member | corrected member |
|---|---|---|---|---|---|---|
| wp-marketing-plugin/includes/class-wp-marketing-n8n-integrator.php:623-632 | `create_contact` stores external_id before the foreach. The foreach writes every further payload key under its `sanitize_key` form, so a key `external_id` or `External_ID` replaces the stored id. | contact_id `c-1` with data `{"external_id": "other"}` | The contact keeps the id it was created for, and the next webhook for `c-1` finds and updates it. | not executed; follows from the code as read | N8n.ExternalIdKeyHidesContact | N8n.GuardedContactIsFound |
| wp-marketing-plugin/includes/class-wp-marketing-n8n-integrator.php:695-696 | The secret option is `wp_marketing_webhook_` + id and the type option `wp_marketing_webhook_type_` + id. The route (line 109) accepts `_` in an id. | register `x` as `contact_update`, then register `type_x` | Each webhook has its own secret and type options. | not executed; follows from the code as read | N8n.TypePrefixedIdOverwritesType | N8n.SeparateKeysKeepOtherWebhooks |

=== FILE: activator.dfy ===
/**
 * Activation-time seeding of the plugin's options: each default is written
 * under the `wp_marketing_` prefix unless the option already holds a truthy
 * value.
 */
module Activator {
  import opened Php
  import opened Wp

  const OptionPrefix := "wp_marketing_"

  /** The defaults, in the order they are seeded. */
  const Defaults: seq<(string, Value)> := [
    ("n8n_url", Str("")), ("api_key", Str("")), ("enable_qr_code", Int(1)),
    ("max_contacts_per_import", Int(1000)), ("max_contacts_per_campaign", Int(500))]

  /** `get_option($key)`: false when the option is missing. */
  function OptionIn(options: map<string, Value>, key: string): Value {
    if key in options then options[key] else Bool(false)
  }

  /** One step of the loop: write the default unless the stored option is truthy. */
  function SeedOne(options: map<string, Value>, key: string, v: Value): map<string, Value> {
    if Truthy(OptionIn(options, OptionPrefix + key)) then options else options[OptionPrefix + key := v]
  }

  /** The options after seeding the defaults `ds` one after the other. */
  function Seeded(options: map<string, Value>, ds: seq<(string, Value)>): map<string, Value>
    decreases |ds|
  {
    if ds == [] then options
    else SeedOne(Seeded(options, ds[..|ds| - 1]), ds[|ds| - 1].0, ds[|ds| - 1].1)
  }

  /** `set_default_options`. */
  method SetDefaultOptions(db: Database)
    modifies db`options
    ensures db.options == Seeded(old(db.options), Defaults)
  {
    for i := 0 to |Defaults|
      invariant db.options == Seeded(old(db.options), Defaults[..i])
    {
      var (key, v) := Defaults[i];
      assert Defaults[..i + 1][..i] == Defaults[..i];
      if !Truthy(db.GetOption(OptionPrefix + key, Bool(false))) {
        db.UpdateOption(OptionPrefix + key, v);
      }
    }
    assert Defaults[..|Defaults|] == Defaults;
  }

  /** The option names of `ds` are pairwise different. */
  predicate DistinctNames(ds: seq<(string, Value)>) {
    forall i, j :: 0 <= i < j < |ds| ==> OptionPrefix + ds[i].0 != OptionPrefix + ds[j].0
  }

  /**
   * What seeding does to one option: the option of a default keeps a
   * truthy value and otherwise gets the default; every other option is
   * untouched (present or absent as before).
   */
  lemma {:induction false} SeededAt(options: map<string, Value>, ds: seq<(string, Value)>, key: string)
    requires DistinctNames(ds)
    ensures forall i :: 0 <= i < |ds| && key == OptionPrefix + ds[i].0 ==>
              key in Seeded(options, ds)
              && Seeded(options, ds)[key] == (if Truthy(OptionIn(options, key)) then options[key] else ds[i].1)
    ensures (forall i :: 0 <= i < |ds| ==> key != OptionPrefix + ds[i].0) ==>
              (key in Seeded(options, ds) <==> key in options)
              && (key in options ==> Seeded(options, ds)[key] == options[key])
    decreases |ds|
  {
    if ds != [] {
      var init := ds[..|ds| - 1];
      SeededAt(options, init, key);
      assert forall i :: 0 <= i < |init| ==> init[i] == ds[i];
    }
  }

  /** The five default option names are different. */
  lemma DefaultNamesDistinct()
    ensures DistinctNames(Defaults)
  {
    forall i, j | 0 <= i < j < |Defaults|
      ensures OptionPrefix + Defaults[i].0 != OptionPrefix + Defaults[j].0
    {
      var a, b := Defaults[i].0, Defaults[j].0;
      assert (OptionPrefix + a)[|OptionPrefix|..] == a;
      assert (OptionPrefix + b)[|OptionPrefix|..] == b;
    }
  }

  /**
   * Activating again gives the same options as activating once: a kept
   * truthy value stays truthy, and a default that was written is written
   * again.
   */
  lemma SeedingIdempotent(options: map<string, Value>)
    ensures Seeded(Seeded(options, Defaults), Defaults) == Seeded(options, Defaults)
  {
    DefaultNamesDistinct();
    var once := Seeded(options, Defaults);
    var twice := Seeded(once, Defaults);
    forall key
      ensures key in twice <==> key in once
      ensures key in twice ==> twice[key] == once[key]
    {
      SeededAt(options, Defaults, key);
      SeededAt(once, Defaults, key);
    }
    assert twice == once;
  }

  /**
   * A stored `enable_qr_code` of 0 is falsy and becomes 1; a stored n8n URL
   * is kept; options outside the defaults are never touched.
   */
  lemma SeedingExamples(options: map<string, Value>, url: string, other: string)
    requires !EmptyString(url)
    requires forall i :: 0 <= i < |Defaults| ==> other != OptionPrefix + Defaults[i].0
    ensures OptionIn(options, "wp_marketing_enable_qr_code") == Int(0) ==>
              "wp_marketing_enable_qr_code" in Seeded(options, Defaults)
              && Seeded(options, Defaults)["wp_marketing_enable_qr_code"] == Int(1)
    ensures OptionIn(options, "wp_marketing_n8n_url") == Str(url) ==>
              "wp_marketing_n8n_url" in Seeded(options, Defaults)
              && Seeded(options, Defaults)["wp_marketing_n8n_url"] == Str(url)
    ensures other in options ==> other in Seeded(options, Defaults) && Seeded(options, Defaults)[other] == options[other]
    ensures other !in options ==> other !in Seeded(options, Defaults)
  {
    DefaultNamesDistinct();
    assert OptionPrefix + Defaults[2].0 == "wp_marketing_enable_qr_code";
    assert OptionPrefix + Defaults[0].0 == "wp_marketing_n8n_url";
    SeededAt(options, Defaults, "wp_marketing_enable_qr_code");
    SeededAt(options, Defaults, "wp_marketing_n8n_url");
    SeededAt(options, Defaults, other);
  }
}

=== FILE: api.dfy ===
/**
 * The REST endpoints the automation service calls back on: the per-contact
 * message-status update with its statistics recount, campaign details and a
 * list's contacts. The API-key permission check is `Rest.ValidateApiKey`.
 */
module Api {
  import opened Php
  import opened Wrappers
  import opened Wp
  import opened Rest
  import opened Ledger

  const NotFoundCampaign := RestError("rest_not_found", "Campaign not found.", 404)
  const NotFoundContact := RestError("rest_not_found", "Contact not found.", 404)
  const NotFoundList := RestError("rest_not_found", "List not found.", 404)

  /** The route's `validate_callback` for status: a loose `in_array` over the three statuses. */
  predicate StatusAccepted(v: Value) {
    LooseEqualsLiteral(v, "sent") || LooseEqualsLiteral(v, "delivered") || LooseEqualsLiteral(v, "failed")
  }

  /**
   * The update-message route's argument checks (required and validated
   * parameters) followed by the callback's coercions: ids through `intval`,
   * status through `sanitize_text_field`, and the two optional texts
   * defaulting to ''.
   */
  function ParseStatusUpdate(params: map<string, Value>): (r: RestResult<StatusUpdate>)
    ensures r.Err? ==> r.error.status == 400
    ensures r.Ok? <==> && IsSet(params, "campaign_id") && IsSet(params, "contact_id") && IsSet(params, "status")
                       && IsNumeric(params["campaign_id"]) && IsNumeric(params["contact_id"]) && StatusAccepted(params["status"])
    ensures r.Ok? ==> r.value.status != "pending"
    ensures r.Ok? ==> r.value.campaignId == IntVal(params["campaign_id"]) && r.value.contactId == IntVal(params["contact_id"])
    ensures r.Ok? ==> r.value.messageId == (if IsSet(params, "message_id") then TextOf(params["message_id"]) else "")
    ensures r.Ok? ==> r.value.errorMessage == (if IsSet(params, "error_message") then TextOf(params["error_message"]) else "")
  {
    if !IsSet(params, "campaign_id") || !IsSet(params, "contact_id") || !IsSet(params, "status") then
      Err(RestError("rest_missing_callback_param", "Missing parameter(s).", 400))
    else if !IsNumeric(params["campaign_id"]) || !IsNumeric(params["contact_id"]) || !StatusAccepted(params["status"]) then
      Err(RestError("rest_invalid_param", "Invalid parameter(s).", 400))
    else
      Ok(StatusUpdate(
        IntVal(params["campaign_id"]), IntVal(params["contact_id"]), TextOf(params["status"]),
        if IsSet(params, "message_id") then TextOf(params["message_id"]) else "",
        if IsSet(params, "error_message") then TextOf(params["error_message"]) else ""))
  }

  /**
   * Ids sent as the decimal text of PHP integers, with white space around
   * them or not, pass the route's `is_numeric` check and are read back by
   * `intval` as those integers.
   */
  lemma {:induction false} DecimalIdsAccepted(params: map<string, Value>, c: int, k: int, a: string, b: string)
    requires Int64Min <= c <= Int64Max && Int64Min <= k <= Int64Max && AllSpaces(a) && AllSpaces(b)
    requires "campaign_id" in params && params["campaign_id"] == Str(a + (DecimalString(c) + b))
    requires "contact_id" in params && params["contact_id"] == Str(a + (DecimalString(k) + b))
    requires IsSet(params, "status") && StatusAccepted(params["status"])
    ensures var r := ParseStatusUpdate(params);
            r.Ok? && r.value.campaignId == c && r.value.contactId == k
  {
    PaddedDecimal(c, a, b);
    PaddedDecimal(k, a, b);
    var r := ParseStatusUpdate(params);
    assert IsSet(params, "campaign_id") && IsSet(params, "contact_id");
    assert r.Ok?;
  }

  /** The completion rule of the recount. */
  predicate Completes(t: Stats) {
    t.pending == 0 && t.total > 0
  }

  /** A campaign's meta after the recount: the four counters, and `completed` when the rule fires. */
  function StatsMeta(m: map<string, Value>, t: Stats): map<string, Value> {
    var counted := m["total_messages" := Int(t.total)]["total_sent" := Int(t.sent)]
                    ["total_delivered" := Int(t.delivered)]["total_failed" := Int(t.failed)];
    if Completes(t) then counted["status" := Str("completed")] else counted
  }

  /**
   * The recount sets `completed` exactly when the rule fires and otherwise
   * leaves the status as it was; the stored counters obey the ledger bounds.
   */
  lemma StatsMetaStatus(m: map<string, Value>, rows: seq<MessageRow>, c: int)
    ensures var t := Tally(rows, c);
            var m' := StatsMeta(m, t);
            && ("status" in m' && m'["status"] == Str("completed") <==> Completes(t) || ("status" in m && m["status"] == Str("completed")))
            && (!Completes(t) ==> ("status" in m' <==> "status" in m) && ("status" in m ==> m'["status"] == m["status"]))
            && m'["total_delivered"].i <= m'["total_sent"].i <= m'["total_messages"].i
            && m'["total_sent"].i + m'["total_failed"].i <= m'["total_messages"].i
  {
    TallyBounds(rows, c);
  }

  /**
   * A successful status update on a campaign none of whose rows is pending
   * always leaves it `completed`: the endpoint never writes `pending`.
   */
  lemma UpdateLeavesCampaignCompleted(rows: seq<MessageRow>, m: map<string, Value>, u: StatusUpdate, now: string)
    requires u.status != "pending"
    requires forall i :: 0 <= i < |rows| && rows[i].campaignId == u.campaignId ==> rows[i].status != "pending"
    ensures var t := Tally(Upsert(rows, u, now), u.campaignId);
            Completes(t) && "status" in StatsMeta(m, t) && StatsMeta(m, t)["status"] == Str("completed")
  {
    UpsertCompletes(rows, u, now);
  }

  /** The four COUNT queries (and the pending one) of `update_campaign_stats`, as one scan. */
  method CountCampaignMessages(rows: seq<MessageRow>, c: int) returns (t: Stats)
    ensures t == Tally(rows, c)
    ensures t.delivered <= t.sent <= t.total && t.sent + t.failed + t.pending <= t.total
  {
    t := Stats(0, 0, 0, 0, 0);
    var i := 0;
    while i < |rows|
      invariant 0 <= i <= |rows|
      invariant t == Tally(rows[..i], c)
    {
      assert rows[..i + 1][..i] == rows[..i];
      t := CountRow(t, rows[i], c);
      i := i + 1;
    }
    assert rows[..i] == rows;
    TallyBounds(rows, c);
  }

  /** `update_campaign_stats`: recount from scratch and write the counters and the status. */
  method UpdateCampaignStats(db: Database, c: int)
    requires db.Valid() && c in db.posts
    modifies db`meta
    ensures db.Valid()
    ensures db.meta == old(db.meta)[c := StatsMeta(old(db.MetaOf(c)), Tally(db.messages, c))]
  {
    var t := CountCampaignMessages(db.messages, c);
    ghost var m0, m := db.meta, db.MetaOf(c);
    db.UpdatePostMeta(c, "total_messages", Int(t.total));
    m := m["total_messages" := Int(t.total)];
    db.UpdatePostMeta(c, "total_sent", Int(t.sent));
    MetaWriteAt(m0, c, m, "total_sent", Int(t.sent));
    m := m["total_sent" := Int(t.sent)];
    db.UpdatePostMeta(c, "total_delivered", Int(t.delivered));
    MetaWriteAt(m0, c, m, "total_delivered", Int(t.delivered));
    m := m["total_delivered" := Int(t.delivered)];
    db.UpdatePostMeta(c, "total_failed", Int(t.failed));
    MetaWriteAt(m0, c, m, "total_failed", Int(t.failed));
    m := m["total_failed" := Int(t.failed)];
    if t.pending == 0 && t.total > 0 {
      db.UpdatePostMeta(c, "status", Str("completed"));
      MetaWriteAt(m0, c, m, "status", Str("completed"));
    }
  }

  /** The SELECT of an existing row for the pair. */
  method FindMessageRow(rows: seq<MessageRow>, c: int, k: int) returns (found: bool)
    ensures found <==> HasPair(rows, c, k)
  {
    found := false;
    var i := 0;
    while i < |rows| && !found
      invariant 0 <= i <= |rows|
      invariant found ==> HasPair(rows, c, k)
      invariant !found ==> forall j :: 0 <= j < i ==> !IsPair(rows[j], c, k)
    {
      found := IsPair(rows[i], c, k);
      i := i + 1;
    }
  }

  /**
   * `update_campaign_message_status`: the campaign is checked first, then the
   * contact, and either missing gives 404 with nothing written; otherwise the
   * pair's row is updated or inserted and the campaign is recounted.
   */
  method UpdateCampaignMessageStatus(db: Database, u: StatusUpdate, now: string) returns (r: RestResult<string>)
    requires db.Valid()
    modifies db`messages, db`meta
    ensures db.Valid()
    ensures !old(db.HasPostOfType(u.campaignId, CampaignType)) ==>
              r == Err(NotFoundCampaign) && db.messages == old(db.messages) && db.meta == old(db.meta)
    ensures old(db.HasPostOfType(u.campaignId, CampaignType)) && !old(db.HasPostOfType(u.contactId, ContactType)) ==>
              r == Err(NotFoundContact) && db.messages == old(db.messages) && db.meta == old(db.meta)
    ensures old(db.HasPostOfType(u.campaignId, CampaignType)) && old(db.HasPostOfType(u.contactId, ContactType)) ==>
              && r == Ok("Message status updated successfully.")
              && db.messages == Upsert(old(db.messages), u, now)
              && db.meta == old(db.meta)[u.campaignId := StatsMeta(old(db.MetaOf(u.campaignId)), Tally(db.messages, u.campaignId))]
  {
    if !db.HasPostOfType(u.campaignId, CampaignType) {
      return Err(NotFoundCampaign);
    }
    if !db.HasPostOfType(u.contactId, ContactType) {
      return Err(NotFoundContact);
    }
    var rows := db.messages;
    var exists_ := FindMessageRow(rows, u.campaignId, u.contactId);
    if exists_ {
      var out: seq<MessageRow> := [];
      var j := 0;
      while j < |rows|
        invariant 0 <= j <= |rows| && |out| == j
        invariant forall t :: 0 <= t < j ==>
          out[t] == if IsPair(rows[t], u.campaignId, u.contactId) then Updated(rows[t], u, now) else rows[t]
      {
        out := out + [if IsPair(rows[j], u.campaignId, u.contactId) then Updated(rows[j], u, now) else rows[j]];
        j := j + 1;
      }
      UpdateRowsAt(rows, u, now, 0);
      forall t | 0 <= t < |rows| ensures out[t] == UpdateRows(rows, u, now)[t] {
        UpdateRowsAt(rows, u, now, t);
      }
      db.messages := out;
    } else {
      db.messages := rows + [Inserted(u, now)];
    }
    UpdateCampaignStats(db, u.campaignId);
    return Ok("Message status updated successfully.");
  }

  /** What `get_campaign_details` returns (the post date is not modelled). */
  datatype CampaignDetails = CampaignDetails(
    id: int, title: string, status: Value, scheduledTime: Value,
    listId: Value, templateId: Value, templateContent: string, authorId: int)

  /**
   * `get_campaign_details`: 404 unless the id is a campaign; the template
   * content is that of the referenced post only when the reference is
   * truthy and names a message template, and '' otherwise.
   */
  method GetCampaignDetails(db: Database, id: int) returns (r: RestResult<CampaignDetails>)
    ensures r.Err? <==> !db.HasPostOfType(id, CampaignType)
    ensures r.Err? ==> r.error == NotFoundCampaign
    ensures r.Ok? ==>
      && r.value.id == id && r.value.title == db.posts[id].title && r.value.authorId == db.posts[id].author
      && r.value.status == db.GetMeta(id, "status") && r.value.scheduledTime == db.GetMeta(id, "scheduled_time")
      && r.value.listId == db.GetMeta(id, "list_id") && r.value.templateId == db.GetMeta(id, "template_id")
    ensures r.Ok? && r.value.templateContent != "" ==>
      Truthy(r.value.templateId) && db.HasPostOfType(IntVal(r.value.templateId), TemplateType)
      && r.value.templateContent == db.posts[IntVal(r.value.templateId)].content
    ensures r.Ok? && Truthy(r.value.templateId) && db.HasPostOfType(IntVal(r.value.templateId), TemplateType) ==>
      r.value.templateContent == db.posts[IntVal(r.value.templateId)].content
  {
    if !db.HasPostOfType(id, CampaignType) {
      return Err(NotFoundCampaign);
    }
    var listId := db.GetMeta(id, "list_id");
    var templateId := db.GetMeta(id, "template_id");
    var status := db.GetMeta(id, "status");
    var scheduled := db.GetMeta(id, "scheduled_time");
    var content := "";
    if Truthy(templateId) {
      var tid := IntVal(templateId);
      if db.HasPostOfType(tid, TemplateType) {
        content := db.posts[tid].content;
      }
    }
    var campaign := db.posts[id];
    return Ok(CampaignDetails(id, campaign.title, status, scheduled, listId, templateId, content, campaign.author));
  }

  /** One entry of the list-contacts response. */
  datatype ContactData = ContactData(
    id: int, name: string, phoneNumber: Value, firstName: Value, lastName: Value,
    email: Value, customFields: map<string, string>)

  /** The related contact ids of a list, in relation-table order. */
  function RelatedIds(rel: seq<ListContactRow>, listId: int): (r: seq<int>)
    ensures forall x :: x in r <==> exists i :: 0 <= i < |rel| && rel[i].listId == listId && rel[i].contactId == x
  {
    if rel == [] then []
    else
      var init := rel[..|rel| - 1];
      var last := rel[|rel| - 1];
      assert forall i :: 0 <= i < |init| ==> init[i] == rel[i];
      RelatedIds(init, listId) + (if last.listId == listId then [last.contactId] else [])
  }

  /** The ids that name an existing contact post, kept in order. */
  function KnownContactIds(posts: map<int, Post>, ids: seq<int>): (r: seq<int>)
    ensures forall x :: x in r <==> x in ids && x in posts && posts[x].postType == ContactType
    ensures |r| <= |ids|
  {
    if ids == [] then []
    else
      var init := ids[..|ids| - 1];
      var last := ids[|ids| - 1];
      assert ids == init + [last];
      KnownContactIds(posts, init)
      + (if last in posts && posts[last].postType == ContactType then [last] else [])
  }

  /** Filtering one more id appends it when it names a contact. */
  lemma KnownContactIdsSnoc(posts: map<int, Post>, ids: seq<int>, x: int)
    ensures KnownContactIds(posts, ids + [x]) ==
            KnownContactIds(posts, ids) + (if x in posts && posts[x].postType == ContactType then [x] else [])
  {
    assert (ids + [x])[..|ids + [x]| - 1] == ids;
  }

  /** A contact's custom fields folded into a map: a later row overwrites an earlier one with the same key. */
  function FieldMap(fields: seq<FieldRow>, id: int): map<string, string> {
    if fields == [] then map[]
    else
      var last := fields[|fields| - 1];
      var m := FieldMap(fields[..|fields| - 1], id);
      if last.contactId == id then m[last.key := last.value] else m
  }

  /** A key is in the folded map exactly when some row of the contact carries it. */
  lemma {:induction false} FieldMapKeys(fields: seq<FieldRow>, id: int, key: string)
    ensures key in FieldMap(fields, id) <==>
            exists i :: 0 <= i < |fields| && fields[i].contactId == id && fields[i].key == key
  {
    if fields != [] {
      var init := fields[..|fields| - 1];
      FieldMapKeys(init, id, key);
      assert forall i :: 0 <= i < |init| ==> init[i] == fields[i];
    }
  }

  /** The folded value of a key is the one of its last row. */
  lemma {:induction false} FieldMapLastWins(fields: seq<FieldRow>, id: int, i: int)
    requires 0 <= i < |fields| && fields[i].contactId == id
    requires forall j :: i < j < |fields| ==> !(fields[j].contactId == id && fields[j].key == fields[i].key)
    ensures fields[i].key in FieldMap(fields, id) && FieldMap(fields, id)[fields[i].key] == fields[i].value
  {
    if i < |fields| - 1 {
      var init := fields[..|fields| - 1];
      FieldMapLastWins(init, id, i);
    }
  }

  /** The response entry of one contact. */
  function ContactRecord(posts: map<int, Post>, meta: map<int, map<string, Value>>, fields: seq<FieldRow>, id: int): ContactData
    requires id in posts
  {
    ContactData(id, posts[id].title, MetaValue(meta, id, "phone_number"), MetaValue(meta, id, "first_name"),
                MetaValue(meta, id, "last_name"), MetaValue(meta, id, "email"), FieldMap(fields, id))
  }

  /** The relation-table query of `get_list_contacts`. */
  method CollectRelatedIds(rel: seq<ListContactRow>, listId: int) returns (ids: seq<int>)
    ensures ids == RelatedIds(rel, listId)
    ensures forall x :: x in ids <==> exists i :: 0 <= i < |rel| && rel[i].listId == listId && rel[i].contactId == x
  {
    ids := [];
    var i := 0;
    while i < |rel|
      invariant 0 <= i <= |rel|
      invariant ids == RelatedIds(rel[..i], listId)
    {
      assert rel[..i + 1][..i] == rel[..i];
      if rel[i].listId == listId {
        ids := ids + [rel[i].contactId];
      }
      i := i + 1;
    }
    assert rel[..i] == rel;
  }

  /** The custom-fields query of one contact, folded row by row into the response map. */
  method CollectFields(fields: seq<FieldRow>, id: int) returns (custom: map<string, string>)
    ensures custom == FieldMap(fields, id)
    ensures forall key :: key in custom <==> exists i :: 0 <= i < |fields| && fields[i].contactId == id && fields[i].key == key
  {
    custom := map[];
    var j := 0;
    while j < |fields|
      invariant 0 <= j <= |fields|
      invariant custom == FieldMap(fields[..j], id)
    {
      assert fields[..j + 1][..j] == fields[..j];
      if fields[j].contactId == id {
        custom := custom[fields[j].key := fields[j].value];
      }
      j := j + 1;
    }
    assert fields[..j] == fields;
    forall key ensures key in custom <==> exists i :: 0 <= i < |fields| && fields[i].contactId == id && fields[i].key == key {
      FieldMapKeys(fields, id, key);
    }
  }

  /** The standard fields and the folded custom fields of one contact. */
  method ContactEntry(posts: map<int, Post>, meta: map<int, map<string, Value>>, fields: seq<FieldRow>, id: int)
    returns (entry: ContactData)
    requires id in posts
    ensures entry == ContactRecord(posts, meta, fields, id)
  {
    var custom := CollectFields(fields, id);
    entry := ContactData(id, posts[id].title, MetaValue(meta, id, "phone_number"),
      MetaValue(meta, id, "first_name"), MetaValue(meta, id, "last_name"), MetaValue(meta, id, "email"), custom);
  }

  /** The loop of `get_list_contacts`: one entry per id that names a contact, in order. */
  method CollectContacts(posts: map<int, Post>, meta: map<int, map<string, Value>>, fields: seq<FieldRow>, ids: seq<int>)
    returns (contacts: seq<ContactData>)
    ensures var known := KnownContactIds(posts, ids);
            && |contacts| == |known|
            && forall i :: 0 <= i < |known| ==> known[i] in posts && contacts[i] == ContactRecord(posts, meta, fields, known[i])
  {
    contacts := [];
    ghost var known: seq<int> := [];
    var n := 0;
    while n < |ids|
      invariant 0 <= n <= |ids|
      invariant known == KnownContactIds(posts, ids[..n])
      invariant |contacts| == |known|
      invariant forall t :: 0 <= t < |known| ==> known[t] in posts && contacts[t] == ContactRecord(posts, meta, fields, known[t])
    {
      var id := ids[n];
      assert ids[..n + 1] == ids[..n] + [id];
      KnownContactIdsSnoc(posts, ids[..n], id);
      if id in posts && posts[id].postType == ContactType {
        var entry := ContactEntry(posts, meta, fields, id);
        contacts := contacts + [entry];
        known := known + [id];
      }
      n := n + 1;
    }
    assert ids[..n] == ids;
  }

  /**
   * `get_list_contacts`: 404 unless the id is a list; otherwise one entry per
   * related id that is an existing contact, in relation-table order.
   */
  method GetListContacts(db: Database, listId: int) returns (r: RestResult<seq<ContactData>>)
    ensures r.Err? <==> !db.HasPostOfType(listId, ListType)
    ensures r.Err? ==> r.error == NotFoundList
    ensures r.Ok? ==>
      var ids := KnownContactIds(db.posts, RelatedIds(db.listContacts, listId));
      && |r.value| == |ids|
      && forall i :: 0 <= i < |ids| ==> ids[i] in db.posts && r.value[i] == ContactRecord(db.posts, db.meta, db.contactFields, ids[i])
  {
    if !db.HasPostOfType(listId, ListType) {
      return Err(NotFoundList);
    }
    var ids := CollectRelatedIds(db.listContacts, listId);
    var contacts := CollectContacts(db.posts, db.meta, db.contactFields, ids);
    return Ok(contacts);
  }
}

=== FILE: campaigns.dfy ===
/**
 * The campaigns admin page: creating a campaign, the start / pause / resume /
 * delete actions behind the ownership check, and the status label and
 * offered action shown per campaign. Form and query parameters are maps of
 * PHP values; nonce verification and the administrator capability are inputs.
 */
module Campaigns {
  import opened Php
  import opened Wrappers
  import opened Wp

  /** A request parameter, null when absent. */
  function Param(params: map<string, Value>, key: string): Value {
    if key in params then params[key] else Null
  }

  /** Whether the creation form was submitted with a nonce that verified. */
  predicate CreationRequested(post: map<string, Value>, nonceValid: bool) {
    IsSet(post, "create_campaign") && IsSet(post, "campaign_nonce") && nonceValid
  }

  /** The meta a new campaign gets (written over whatever meta its id already had). */
  function NewCampaignMeta(m: map<string, Value>, post: map<string, Value>): map<string, Value> {
    ScheduleMeta(DraftMeta(m, IntVal(Param(post, "list_id")), IntVal(Param(post, "template_id"))), post)
  }

  /** The list, the template, the draft status and the zeroed counters. */
  function DraftMeta(m: map<string, Value>, listId: int, templateId: int): map<string, Value> {
    m["list_id" := Int(listId)]["template_id" := Int(templateId)]["status" := Str("draft")]
     ["total_messages" := Int(0)]["total_sent" := Int(0)]["total_delivered" := Int(0)]["total_failed" := Int(0)]
  }

  /** The scheduling fields. */
  function ScheduleMeta(m: map<string, Value>, post: map<string, Value>): map<string, Value> {
    if IsSet(post, "schedule_campaign") then
      m["scheduled_time" := Str(TextOf(Param(post, "schedule_date")) + " " + TextOf(Param(post, "schedule_time")) + ":00")]
       ["is_scheduled" := Bool(true)]
    else m["is_scheduled" := Bool(false)]
  }

  /**
   * A created campaign is a draft with the four counters at zero and the
   * submitted list and template as integers. It is scheduled exactly when the
   * form asked for it, and only then is a scheduled time written, as
   * date + ' ' + time + ':00'.
   */
  lemma NewCampaignDefaults(m: map<string, Value>, post: map<string, Value>)
    ensures var m' := NewCampaignMeta(m, post);
            && m'["status"] == Str("draft")
            && m'["total_messages"] == Int(0) && m'["total_sent"] == Int(0)
            && m'["total_delivered"] == Int(0) && m'["total_failed"] == Int(0)
            && m'["list_id"] == Int(IntVal(Param(post, "list_id"))) && m'["template_id"] == Int(IntVal(Param(post, "template_id")))
            && (m'["is_scheduled"] == Bool(true) <==> IsSet(post, "schedule_campaign"))
            && (IsSet(post, "schedule_campaign") ==>
                  m'["scheduled_time"] == Str(TextOf(Param(post, "schedule_date")) + " " + TextOf(Param(post, "schedule_time")) + ":00"))
            && (!IsSet(post, "schedule_campaign") ==>
                  ("scheduled_time" in m' <==> "scheduled_time" in m) && ("scheduled_time" in m ==> m'["scheduled_time"] == m["scheduled_time"]))
  {
  }

  /**
   * The campaign-creation form handler. It does nothing unless the form was
   * submitted with a valid nonce; otherwise it inserts a campaign owned by the
   * current user and writes its meta.
   */
  method CreateCampaign(db: Database, post: map<string, Value>, nonceValid: bool, user: int) returns (created: Option<int>)
    requires db.Valid()
    modifies db`posts, db`meta, db`nextPostId
    ensures db.Valid()
    ensures !CreationRequested(post, nonceValid) ==>
              created == None && db.posts == old(db.posts) && db.meta == old(db.meta)
    ensures CreationRequested(post, nonceValid) ==>
              && created == Some(old(db.nextPostId)) && created.value !in old(db.posts)
              && db.posts == old(db.posts)[created.value := Post(CampaignType, TextOf(Param(post, "campaign_title")), "", user)]
              && db.meta == old(db.meta)[created.value := NewCampaignMeta(MetaIn(old(db.meta), created.value), post)]
  {
    if !CreationRequested(post, nonceValid) {
      return None;
    }
    var id := db.InsertPost(Post(CampaignType, TextOf(Param(post, "campaign_title")), "", user));
    WriteDraftMeta(db, id, IntVal(Param(post, "list_id")), IntVal(Param(post, "template_id")));
    WriteSchedule(db, id, post);
    return Some(id);
  }

  /** The seven unconditional meta writes of a new campaign. */
  method WriteDraftMeta(db: Database, id: int, listId: int, templateId: int)
    requires db.Valid() && id in db.posts
    modifies db`meta
    ensures db.Valid()
    ensures db.meta == old(db.meta)[id := DraftMeta(old(db.meta)[id], listId, templateId)]
  {
    ghost var m0, m := db.meta, db.meta[id];
    db.UpdatePostMeta(id, "list_id", Int(listId));
    MetaWriteAt(m0, id, m, "list_id", Int(listId));
    m := m["list_id" := Int(listId)];
    db.UpdatePostMeta(id, "template_id", Int(templateId));
    MetaWriteAt(m0, id, m, "template_id", Int(templateId));
    m := m["template_id" := Int(templateId)];
    db.UpdatePostMeta(id, "status", Str("draft"));
    MetaWriteAt(m0, id, m, "status", Str("draft"));
    m := m["status" := Str("draft")];
    db.UpdatePostMeta(id, "total_messages", Int(0));
    MetaWriteAt(m0, id, m, "total_messages", Int(0));
    m := m["total_messages" := Int(0)];
    db.UpdatePostMeta(id, "total_sent", Int(0));
    MetaWriteAt(m0, id, m, "total_sent", Int(0));
    m := m["total_sent" := Int(0)];
    db.UpdatePostMeta(id, "total_delivered", Int(0));
    MetaWriteAt(m0, id, m, "total_delivered", Int(0));
    m := m["total_delivered" := Int(0)];
    db.UpdatePostMeta(id, "total_failed", Int(0));
    MetaWriteAt(m0, id, m, "total_failed", Int(0));
  }

  /** The scheduling writes of a new campaign. */
  method WriteSchedule(db: Database, id: int, post: map<string, Value>)
    requires db.Valid() && id in db.posts
    modifies db`meta
    ensures db.Valid()
    ensures db.meta == old(db.meta)[id := ScheduleMeta(old(db.meta)[id], post)]
  {
    ghost var m0, m := db.meta, db.meta[id];
    if IsSet(post, "schedule_campaign") {
      var scheduledTime := TextOf(Param(post, "schedule_date")) + " " + TextOf(Param(post, "schedule_time")) + ":00";
      db.UpdatePostMeta(id, "scheduled_time", Str(scheduledTime));
      MetaWriteAt(m0, id, m, "scheduled_time", Str(scheduledTime));
      m := m["scheduled_time" := Str(scheduledTime)];
      db.UpdatePostMeta(id, "is_scheduled", Bool(true));
      MetaWriteAt(m0, id, m, "is_scheduled", Bool(true));
    } else {
      db.UpdatePostMeta(id, "is_scheduled", Bool(false));
      MetaWriteAt(m0, id, m, "is_scheduled", Bool(false));
    }
  }

  /** The status an action writes; `None` for delete and for unknown actions. */
  function ActionStatus(action: string): Option<string> {
    if action == "start" then Some("pending")
    else if action == "pause" then Some("paused")
    else if action == "resume" then Some("pending")
    else None
  }

  /**
   * Whether an action request passes the checks: its three parameters are
   * set, the nonce verifies, the post exists (of any type), and the user is
   * its author or an administrator.
   */
  predicate ActionAllowed(posts: map<int, Post>, get: map<string, Value>, nonceValid: bool, user: int, isAdmin: bool) {
    && IsSet(get, "action") && IsSet(get, "campaign_id") && IsSet(get, "_wpnonce") && nonceValid
    && var id := IntVal(get["campaign_id"]);
       id in posts && (posts[id].author == user || isAdmin)
  }

  /**
   * The campaign action handler: a refused request changes nothing; start,
   * pause and resume write the status (whatever the current one is), delete
   * removes the post with its meta, and any other action changes nothing.
   */
  method HandleCampaignAction(db: Database, get: map<string, Value>, nonceValid: bool, user: int, isAdmin: bool)
    requires db.Valid()
    modifies db`posts, db`meta
    ensures db.Valid()
    ensures !old(ActionAllowed(db.posts, get, nonceValid, user, isAdmin)) ==>
              db.posts == old(db.posts) && db.meta == old(db.meta)
    ensures old(ActionAllowed(db.posts, get, nonceValid, user, isAdmin)) ==>
              var id := IntVal(get["campaign_id"]);
              var action := TextOf(get["action"]);
              && (action == "delete" ==> db.posts == old(db.posts) - {id} && db.meta == old(db.meta) - {id})
              && (ActionStatus(action).Some? ==>
                    db.posts == old(db.posts) && db.meta == old(db.meta)[id := old(db.meta)[id]["status" := Str(ActionStatus(action).value)]])
              && (action != "delete" && ActionStatus(action).None? ==> db.posts == old(db.posts) && db.meta == old(db.meta))
  {
    if !ActionAllowed(db.posts, get, nonceValid, user, isAdmin) {
      return;
    }
    var action := TextOf(get["action"]);
    var id := IntVal(get["campaign_id"]);
    ghost var m0 := db.meta;
    if action == "start" {
      db.UpdatePostMeta(id, "status", Str("pending"));
      MetaWriteAt(m0, id, m0[id], "status", Str("pending"));
    } else if action == "pause" {
      db.UpdatePostMeta(id, "status", Str("paused"));
      MetaWriteAt(m0, id, m0[id], "status", Str("paused"));
    } else if action == "resume" {
      db.UpdatePostMeta(id, "status", Str("pending"));
      MetaWriteAt(m0, id, m0[id], "status", Str("pending"));
    } else if action == "delete" {
      db.DeletePost(id);
    }
  }

  /** The label map of the campaigns table. */
  const StatusLabels: map<string, string> :=
    map["draft" := "Draft", "pending" := "In Progress", "completed" := "Completed", "paused" := "Paused"]

  /** The label shown for a status: its entry in the label map, or the raw status. */
  function StatusLabel(status: string): (r: string)
    ensures status in StatusLabels ==> r == StatusLabels[status]
    ensures status !in StatusLabels ==> r == status
  {
    if status in StatusLabels then StatusLabels[status] else status
  }

  /** The four lifecycle statuses are shown under four different labels; any other status is shown as it is. */
  lemma StatusLabelsDistinct(s: string, t: string)
    requires s in StatusLabels && t in StatusLabels && s != t
    ensures StatusLabel(s) != StatusLabel(t)
  {
  }

  /** The one action button the table offers for a status. */
  function OfferedAction(status: string): Option<string> {
    if status == "draft" then Some("start")
    else if status == "pending" then Some("pause")
    else if status == "paused" then Some("resume")
    else None
  }

  /**
   * The offered buttons form the lifecycle draft → pending ⇄ paused: each
   * offered action writes a status different from the current one, a
   * started campaign is always offered an action again, deletion is never a
   * status-gated button, and a completed campaign is offered nothing.
   */
  lemma OfferedActionsFollowLifecycle(status: string)
    ensures OfferedAction(status).Some? <==> status in {"draft", "pending", "paused"}
    ensures OfferedAction(status).Some? ==>
              var next := ActionStatus(OfferedAction(status).value);
              && next.Some? && next.value != status
              && next.value in {"pending", "paused"}
              && OfferedAction(next.value).Some?
    ensures OfferedAction(status) != Some("delete")
    ensures OfferedAction("completed").None?
  {
  }
}

=== FILE: contact_lists.dfy ===
/**
 * The contact-lists admin page: saving a list, the checks before a CSV
 * import, removing a contact from a list and deleting a list, and the
 * browser-side analysis of an uploaded CSV file (header parsing and the
 * preselected field mapping). The import itself is a separate function of
 * the plugin and is represented by the decision to call it.
 */
module ContactLists {
  import opened Php
  import opened Wrappers
  import opened Wp

  function Param(params: map<string, Value>, key: string): Value {
    if key in params then params[key] else Null
  }

  /** `list_id` from the query string, 0 when absent. */
  function ListIdParam(get: map<string, Value>): int {
    if IsSet(get, "list_id") then IntVal(get["list_id"]) else 0
  }

  // ---------------------------------------------------------------- saving

  datatype SaveOutcome = NotSubmitted | Refused | TitleEmpty | ListUpdated(id: int) | ListCreated(id: int)

  /**
   * The list form handler: nothing without the submit field, a nonce that
   * does not verify stops the request, an empty title is reported without
   * any write; otherwise a positive `list_id` updates that post (WordPress
   * ignores an unknown id) and any other id inserts a new list owned by the
   * current user.
   */
  method SaveList(db: Database, get: map<string, Value>, post: map<string, Value>, nonceValid: bool, user: int)
    returns (r: SaveOutcome)
    requires db.Valid()
    modifies db`posts, db`meta, db`nextPostId
    ensures db.Valid()
    ensures !IsSet(post, "wp_marketing_list_submit") ==> r == NotSubmitted
    ensures IsSet(post, "wp_marketing_list_submit") && !nonceValid ==> r == Refused
    ensures IsSet(post, "wp_marketing_list_submit") && nonceValid ==>
              (r == TitleEmpty <==> EmptyString(TextOf(Param(post, "list_title"))))
    ensures r.NotSubmitted? || r.Refused? || r.TitleEmpty? ==>
              db.posts == old(db.posts) && db.meta == old(db.meta) && db.nextPostId == old(db.nextPostId)
    ensures r.ListUpdated? || r.ListCreated? ==>
              var p := Post(ListType, TextOf(Param(post, "list_title")), TextOf(Param(post, "list_description")), user);
              && (r.ListUpdated? <==> ListIdParam(get) > 0)
              && (r.ListUpdated? ==>
                    && r.id == ListIdParam(get)
                    && db.posts == (if r.id in old(db.posts) then old(db.posts)[r.id := p] else old(db.posts))
                    && db.meta == old(db.meta))
              && (r.ListCreated? ==>
                    && r.id == old(db.nextPostId) && r.id !in old(db.posts)
                    && db.posts == old(db.posts)[r.id := p]
                    && db.meta == old(db.meta)[r.id := MetaIn(old(db.meta), r.id)])
  {
    if !IsSet(post, "wp_marketing_list_submit") {
      return NotSubmitted;
    }
    if !nonceValid {
      return Refused;
    }
    var title := TextOf(Param(post, "list_title"));
    if EmptyString(title) {
      return TitleEmpty;
    }
    var p := Post(ListType, title, TextOf(Param(post, "list_description")), user);
    var id := ListIdParam(get);
    if id > 0 {
      db.UpdatePost(id, p);
      return ListUpdated(id);
    }
    id := db.InsertPost(p);
    return ListCreated(id);
  }

  // ---------------------------------------------------------------- import checks

  /** The part of `s` after its last `c`; all of `s` when it has none. */
  function AfterLast(s: string, c: char): (r: string)
    ensures c !in r
    ensures forall ch :: ch in r ==> ch in s
    ensures c !in s ==> r == s
  {
    if s == [] then []
    else if s[|s| - 1] == c then []
    else AfterLast(s[..|s| - 1], c) + [s[|s| - 1]]
  }

  /** Appending text without `c` extends what follows the last `c`. */
  lemma {:induction false} AfterLastAppend(x: string, y: string, c: char)
    requires c !in y
    ensures AfterLast(x + y, c) == AfterLast(x, c) + y
    decreases |y|
  {
    if y != [] {
      var y' := y[..|y| - 1];
      assert (x + y)[..|x + y| - 1] == x + y';
      AfterLastAppend(x, y', c);
    } else {
      assert x + y == x;
    }
  }

  /** `pathinfo($name, PATHINFO_EXTENSION)`: what follows the last '.' of the base name, '' without a '.'. */
  function Extension(name: string): (r: string)
    ensures '.' !in r && '/' !in r
  {
    var base := AfterLast(name, '/');
    if '.' in base then AfterLast(base, '.') else ""
  }

  /** What follows the last separator is the text after it, when that text has none. */
  lemma AfterLastOfSeparator(x: string, y: string, c: char)
    requires c !in y
    ensures AfterLast(x + [c] + y, c) == y
  {
    var xc := x + [c];
    assert xc[..|xc| - 1] == x;
    assert AfterLast(xc, c) == [];
    assert x + [c] + y == xc + y;
    AfterLastAppend(xc, y, c);
    assert [] + y == y;
  }

  /** The extension of `stem.ext` is `ext` when `ext` holds neither '.' nor '/', whatever the stem. */
  lemma ExtensionOf(stem: string, ext: string)
    requires '.' !in ext && '/' !in ext
    ensures Extension(stem + "." + ext) == ext
  {
    var y := ['.'] + ext;
    var name := stem + "." + ext;
    assert name == stem + y;
    AfterLastAppend(stem, y, '/');
    var b := AfterLast(stem, '/');
    var base := b + y;
    assert AfterLast(name, '/') == base;
    assert base == b + ['.'] + ext;
    assert base[|b|] == '.';
    AfterLastOfSeparator(b, ext, '.');
  }

  datatype ImportStep = NotRequested | ImportRefused | NoFile | NotCsv | RunImport(tmpName: string, listId: int)

  /**
   * The checks before the import: the submit field and a positive list id,
   * then a nonce that verifies, then an uploaded file, then the extension
   * 'csv' exactly. Only then is the import function called, with the
   * uploaded file and the list.
   */
  function ImportDecision(get: map<string, Value>, post: map<string, Value>, nonceValid: bool,
                          upload: map<string, Value>): (r: ImportStep)
    ensures r.RunImport? <==>
              IsSet(post, "wp_marketing_import_submit") && ListIdParam(get) > 0 && nonceValid
              && Truthy(Param(upload, "tmp_name")) && Extension(TextOf(Param(upload, "name"))) == "csv"
    ensures r.RunImport? ==> r.listId == ListIdParam(get) && r.listId > 0
    ensures r.NotCsv? ==> Extension(TextOf(Param(upload, "name"))) != "csv"
    ensures r.NoFile? ==> !Truthy(Param(upload, "tmp_name"))
  {
    if !(IsSet(post, "wp_marketing_import_submit") && ListIdParam(get) > 0) then NotRequested
    else if !nonceValid then ImportRefused
    else if !Truthy(Param(upload, "tmp_name")) then NoFile
    else if Extension(TextOf(Param(upload, "name"))) != "csv" then NotCsv
    else RunImport(TextOf(Param(upload, "tmp_name")), ListIdParam(get))
  }

  /** The extension check is exact: `stem.csv` passes, while `stem.CSV` and `stem.csv.txt` do not. */
  lemma CsvExtensionIsExact(stem: string)
    ensures Extension(stem + ".csv") == "csv"
    ensures Extension(stem + ".CSV") != "csv"
    ensures Extension(stem + ".csv.txt") != "csv"
  {
    assert Extension(stem + ".csv") == "csv" by {
      ExtensionOf(stem, "csv");
      assert stem + ".csv" == stem + "." + "csv";
    }
    assert Extension(stem + ".CSV") == "CSV" by {
      ExtensionOf(stem, "CSV");
      assert stem + ".CSV" == stem + "." + "CSV";
    }
    assert Extension(stem + ".csv.txt") == "txt" by {
      ExtensionOf(stem + ".csv", "txt");
      assert stem + ".csv.txt" == (stem + ".csv") + "." + "txt";
    }
  }

  // ---------------------------------------------------------------- relation deletes

  /** The relation rows left after deleting those matching (listId, contactId). */
  function WithoutMembership(rows: seq<ListContactRow>, listId: int, contactId: int): (r: seq<ListContactRow>)
    ensures forall x :: x in r <==> x in rows && x != ListContactRow(listId, contactId)
    ensures ListContactRow(listId, contactId) !in rows ==> r == rows
  {
    if rows == [] then []
    else
      var init, last := rows[..|rows| - 1], rows[|rows| - 1];
      assert rows == init + [last];
      WithoutMembership(init, listId, contactId) + (if last != ListContactRow(listId, contactId) then [last] else [])
  }

  /** The relation rows left after deleting every row of a list. */
  function WithoutList(rows: seq<ListContactRow>, listId: int): (r: seq<ListContactRow>)
    ensures forall x :: x in r <==> x in rows && x.listId != listId
  {
    if rows == [] then []
    else
      var init, last := rows[..|rows| - 1], rows[|rows| - 1];
      assert rows == init + [last];
      WithoutList(init, listId) + (if last.listId != listId then [last] else [])
  }

  /** Whether the remove-contact link was followed with its parameters and a nonce that verified. */
  predicate RemoveRequested(get: map<string, Value>, nonceValid: bool) {
    IsSet(get, "action") && TextOf(get["action"]) == "delete_contact" && IsSet(get, "contact_id")
    && ListIdParam(get) > 0 && IsSet(get, "_wpnonce") && nonceValid
  }

  /**
   * Removing a contact from a list deletes only the relation rows of that
   * pair; the contact, its other lists and every post stay.
   */
  method RemoveContactFromList(db: Database, get: map<string, Value>, nonceValid: bool) returns (removed: bool)
    modifies db`listContacts
    ensures removed <==> RemoveRequested(get, nonceValid)
    ensures !removed ==> db.listContacts == old(db.listContacts)
    ensures removed ==> db.listContacts == WithoutMembership(old(db.listContacts), ListIdParam(get), IntVal(get["contact_id"]))
  {
    if !RemoveRequested(get, nonceValid) {
      return false;
    }
    db.listContacts := WithoutMembership(db.listContacts, ListIdParam(get), IntVal(get["contact_id"]));
    return true;
  }

  /** Whether the delete-list link was followed with a positive list id and a nonce that verified. */
  predicate DeleteListRequested(get: map<string, Value>, nonceValid: bool) {
    IsSet(get, "action") && TextOf(get["action"]) == "delete" && ListIdParam(get) > 0 && IsSet(get, "_wpnonce") && nonceValid
  }

  /**
   * Deleting a list removes the post with that id (whatever its type) with
   * its meta, or nothing when no post has that id, and every relation row of
   * that list; contacts stay.
   */
  method DeleteList(db: Database, get: map<string, Value>, nonceValid: bool) returns (deleted: bool)
    requires db.Valid()
    modifies db`posts, db`meta, db`listContacts
    ensures db.Valid()
    ensures deleted <==> DeleteListRequested(get, nonceValid)
    ensures !deleted ==> db.posts == old(db.posts) && db.meta == old(db.meta) && db.listContacts == old(db.listContacts)
    ensures deleted ==>
              var id := ListIdParam(get);
              && (id in old(db.posts) ==> db.posts == old(db.posts) - {id} && db.meta == old(db.meta) - {id})
              && (id !in old(db.posts) ==> db.posts == old(db.posts) && db.meta == old(db.meta))
              && db.listContacts == WithoutList(old(db.listContacts), id)
  {
    if !DeleteListRequested(get, nonceValid) {
      return false;
    }
    var id := ListIdParam(get);
    db.DeletePost(id);
    db.listContacts := WithoutList(db.listContacts, id);
    return true;
  }

  /**
   * After removing a pair the contact is in no row of that list, its rows
   * for other lists remain, and removing it again changes nothing. After
   * deleting a list no row refers to it and every other list keeps its rows.
   */
  lemma RelationDeletes(rows: seq<ListContactRow>, listId: int, contactId: int)
    ensures ListContactRow(listId, contactId) !in WithoutMembership(rows, listId, contactId)
    ensures forall l :: l != listId && ListContactRow(l, contactId) in rows ==>
              ListContactRow(l, contactId) in WithoutMembership(rows, listId, contactId)
    ensures WithoutMembership(WithoutMembership(rows, listId, contactId), listId, contactId) == WithoutMembership(rows, listId, contactId)
    ensures forall x :: x in WithoutList(rows, listId) ==> x.listId != listId
    ensures forall x :: x in rows && x.listId != listId ==> x in WithoutList(rows, listId)
  {
  }

  // ---------------------------------------------------------------- CSV analysis

  /** JavaScript's `s.split(c)`: the pieces between the separators, at least one. */
  function Split(s: string, c: char): (r: seq<string>)
    ensures |r| >= 1
    ensures forall i :: 0 <= i < |r| ==> c !in r[i]
  {
    if s == [] then [""]
    else if s[0] == c then [""] + Split(s[1..], c)
    else
      var rest := Split(s[1..], c);
      [[s[0]] + rest[0]] + rest[1..]
  }

  /** `parts.join(c)`. */
  function Join(parts: seq<string>, c: char): string
    requires |parts| >= 1
  {
    if |parts| == 1 then parts[0] else parts[0] + [c] + Join(parts[1..], c)
  }

  /** Joining the pieces gives the text back. */
  lemma {:induction false} SplitThenJoin(s: string, c: char)
    ensures Join(Split(s, c), c) == s
  {
    if s != [] {
      SplitThenJoin(s[1..], c);
      var rest := Split(s[1..], c);
      if s[0] == c {
        assert Split(s, c)[1..] == rest;
        assert s == [c] + s[1..];
      } else {
        var r := Split(s, c);
        assert r[0] == [s[0]] + rest[0];
        if |rest| == 1 {
          assert s == [s[0]] + rest[0];
        } else {
          assert r[1..] == rest[1..];
          assert Join(rest, c) == rest[0] + [c] + Join(rest[1..], c);
          assert s == [s[0]] + s[1..];
        }
      }
    }
  }

  /** Splitting joined pieces that hold no separator gives the pieces back. */
  lemma {:induction false} JoinThenSplit(parts: seq<string>, c: char)
    requires |parts| >= 1
    requires forall i :: 0 <= i < |parts| ==> c !in parts[i]
    ensures Split(Join(parts, c), c) == parts
  {
    if |parts| == 1 {
      SplitOfPlain(parts[0], [], c);
      assert parts[0] + [] == parts[0];
    } else {
      JoinThenSplit(parts[1..], c);
      var tail := [c] + Join(parts[1..], c);
      SplitOfPlain(parts[0], tail, c);
      assert parts[0] + [c] + Join(parts[1..], c) == parts[0] + tail;
      assert tail[1..] == Join(parts[1..], c);
      assert Split(tail, c) == [""] + parts[1..];
      assert Split(tail, c)[0] == "" && Split(tail, c)[1..] == parts[1..];
      assert parts[0] + "" == parts[0];
      assert parts == [parts[0]] + parts[1..];
    }
  }

  /** A first piece without the separator becomes the head of the first part. */
  lemma {:induction false} SplitOfPlain(x: string, y: string, c: char)
    requires c !in x
    ensures Split(x + y, c) == [x + Split(y, c)[0]] + Split(y, c)[1..]
    decreases |x|
  {
    if x != [] {
      assert (x + y)[0] == x[0];
      assert (x + y)[1..] == x[1..] + y;
      SplitOfPlain(x[1..], y, c);
      var r := Split(y, c);
      var rest := Split(x[1..] + y, c);
      assert rest[0] == x[1..] + r[0] && rest[1..] == r[1..];
      assert [x[0]] + rest[0] == x + r[0];
    } else {
      assert x + y == y;
      var r := Split(y, c);
      assert r == [r[0]] + r[1..];
      assert x + r[0] == r[0];
    }
  }

  /** The text has a second piece exactly when it holds the separator. */
  lemma {:induction false} SplitCount(s: string, c: char)
    ensures |Split(s, c)| >= 2 <==> c in s
  {
    if s != [] && s[0] != c {
      SplitCount(s[1..], c);
      assert c in s <==> c in s[1..];
    }
  }

  /** The characters `String.prototype.trim` removes. */
  predicate JsWhitespace(ch: char) {
    || ch == ' ' || ch == '\t' || ch == '\n' || ch == '\r' || ch == '\U{000B}' || ch == '\U{000C}'
    || ch == '\U{00A0}' || ch == '\U{1680}' || '\U{2000}' <= ch <= '\U{200A}'
    || ch == '\U{2028}' || ch == '\U{2029}' || ch == '\U{202F}' || ch == '\U{205F}'
    || ch == '\U{3000}' || ch == '\U{FEFF}'
  }

  function TrimStart(s: string): (r: string)
    ensures |r| <= |s| && r == s[|s| - |r|..]
    ensures r == [] || !JsWhitespace(r[0])
    ensures forall i :: 0 <= i < |s| - |r| ==> JsWhitespace(s[i])
  {
    if s != [] && JsWhitespace(s[0]) then TrimStart(s[1..]) else s
  }

  function TrimEnd(s: string): (r: string)
    ensures |r| <= |s| && r == s[..|r|]
    ensures r == [] || !JsWhitespace(r[|r| - 1])
    ensures forall i :: |r| <= i < |s| ==> JsWhitespace(s[i])
  {
    if s != [] && JsWhitespace(s[|s| - 1]) then TrimEnd(s[..|s| - 1]) else s
  }

  function Trim(s: string): string {
    TrimEnd(TrimStart(s))
  }

  predicate Quote(ch: char) {
    ch == '"' || ch == '\''
  }

  /** `replace(/^["']|["']$/g, '')`: one leading quote and one trailing quote go; a lone quote is the leading one. */
  function StripQuotes(s: string): (r: string)
    ensures |s| >= 2 && Quote(s[0]) && Quote(s[|s| - 1]) ==> r == s[1..|s| - 1]
    ensures (s == [] || !Quote(s[0])) && (s == [] || !Quote(s[|s| - 1])) ==> r == s
    ensures s != [] && Quote(s[0]) && (|s| == 1 || !Quote(s[|s| - 1])) ==> r == s[1..]
    ensures s != [] && !Quote(s[0]) && Quote(s[|s| - 1]) ==> r == s[..|s| - 1]
  {
    var a := if s != [] && Quote(s[0]) then s[1..] else s;
    if a != [] && Quote(a[|a| - 1]) then a[..|a| - 1] else a
  }

  /** A header as the mapping shows it: trimmed, then unquoted. */
  function CleanHeader(h: string): string {
    StripQuotes(Trim(h))
  }

  /**
   * The CSV analysis: a file without a newline (fewer than two lines) is an
   * error; otherwise the headers are the first line's comma-separated
   * fields, cleaned.
   */
  function ParseCsvHeaders(csv: string): (r: Result<seq<string>, string>)
    ensures r.Failure? <==> '\n' !in csv
    ensures r.Success? ==> |r.value| == |Split(Split(csv, '\n')[0], ',')|
  {
    SplitCount(csv, '\n');
    var lines := Split(csv, '\n');
    if |lines| < 2 then Failure("CSV file appears to be empty or invalid.")
    else
      var fields := Split(lines[0], ',');
      Success(seq(|fields|, i requires 0 <= i < |fields| => CleanHeader(fields[i])))
  }

  /** A header the parse gives back as it is: nothing to trim, no quote at either end, no comma or newline. */
  predicate PlainHeader(h: string) {
    ',' !in h && '\n' !in h
    && (h == [] || (!JsWhitespace(h[0]) && !JsWhitespace(h[|h| - 1]) && !Quote(h[0]) && !Quote(h[|h| - 1])))
  }

  /** A plain header is left as it is by the cleaning. */
  lemma CleanPlainHeader(h: string)
    requires PlainHeader(h)
    ensures CleanHeader(h) == h
  {
    assert TrimStart(h) == h;
    assert TrimEnd(h) == h;
  }

  /** The first line of a text is what comes before its first newline. */
  lemma FirstLine(line: string, data: string)
    requires '\n' !in line
    ensures Split(line + "\n" + data, '\n')[0] == line
  {
    var tail := "\n" + data;
    SplitOfPlain(line, tail, '\n');
    assert line + "\n" + data == line + tail;
    assert tail[0] == '\n' && tail[1..] == data;
    assert Split(tail, '\n')[0] == "";
  }

  /** When the cleaning leaves the first line's fields as they are, they are the headers. */
  lemma ParseOfCleanFields(csv: string, headers: seq<string>)
    requires '\n' in csv && Split(Split(csv, '\n')[0], ',') == headers
    requires forall i :: 0 <= i < |headers| ==> CleanHeader(headers[i]) == headers[i]
    ensures ParseCsvHeaders(csv) == Success(headers)
  {
    SplitCount(csv, '\n');
    var fields := Split(Split(csv, '\n')[0], ',');
    assert seq(|fields|, i requires 0 <= i < |fields| => CleanHeader(fields[i])) == headers;
  }

  /**
   * Writing plain headers as a first line, comma-separated, followed by a
   * newline and any data, parses back to exactly those headers.
   */
  lemma HeaderLineRoundTrip(headers: seq<string>, data: string)
    requires |headers| >= 1
    requires forall i :: 0 <= i < |headers| ==> PlainHeader(headers[i])
    ensures ParseCsvHeaders(Join(headers, ',') + "\n" + data) == Success(headers)
  {
    var line := Join(headers, ',');
    var csv := line + "\n" + data;
    assert Split(csv, '\n')[0] == line by {
      JoinHasNo(headers, ',', '\n');
      FirstLine(line, data);
    }
    assert '\n' in csv by {
      assert csv[|line|] == '\n';
    }
    assert Split(line, ',') == headers by {
      JoinThenSplit(headers, ',');
    }
    assert forall i :: 0 <= i < |headers| ==> CleanHeader(headers[i]) == headers[i] by {
      forall i | 0 <= i < |headers|
        ensures CleanHeader(headers[i]) == headers[i]
      {
        CleanPlainHeader(headers[i]);
      }
    }
    ParseOfCleanFields(csv, headers);
  }

  /** Joining pieces without a character adds it only as the separator. */
  lemma {:induction false} JoinHasNo(parts: seq<string>, sep: char, c: char)
    requires |parts| >= 1 && sep != c
    requires forall i :: 0 <= i < |parts| ==> c !in parts[i]
    ensures c !in Join(parts, sep)
  {
    if |parts| > 1 {
      JoinHasNo(parts[1..], sep, c);
    }
  }

  // ---------------------------------------------------------------- field mapping

  /** `toLowerCase` on ASCII letters. */
  function ToLower(s: string): (r: string)
    ensures |r| == |s|
    ensures forall i :: 0 <= i < |s| ==> r[i] == ToLowerChar(s[i])
  {
    seq(|s|, i requires 0 <= i < |s| => ToLowerChar(s[i]))
  }

  /** The field preselected for a header: '' is "Do not import". */
  function AutoMapping(header: string): (r: string)
    ensures r in {"", "name", "phone_number", "email", "first_name", "last_name"}
  {
    var h := ToLower(header);
    if h == "name" then "name"
    else if h == "phone_number" || h == "phone" then "phone_number"
    else if h == "email" then "email"
    else if h == "first_name" then "first_name"
    else if h == "last_name" then "last_name"
    else ""
  }

  /**
   * The mapping ignores case, maps both 'phone' and 'phone_number' to the
   * phone field, and leaves every header whose lower-case form is not one
   * of the six known names on "Do not import".
   */
  lemma AutoMappingFacts(a: string, b: string)
    ensures ToLower(a) == ToLower(b) ==> AutoMapping(a) == AutoMapping(b)
    ensures AutoMapping(a) == "phone_number" <==> ToLower(a) in {"phone", "phone_number"}
    ensures AutoMapping(a) == "" <==> ToLower(a) !in {"name", "phone", "phone_number", "email", "first_name", "last_name"}
    ensures AutoMapping(a) != "" ==> AutoMapping(a) == ToLower(a) || ToLower(a) == "phone"
    ensures AutoMapping("Phone") == "phone_number" && AutoMapping("EMAIL") == "email"
  {
    assert ToLower("Phone") == "phone";
    assert ToLower("EMAIL") == "email";
  }

  /** The preselected mapping of each header of a CSV, in column order. */
  function HeaderMappings(csv: string): (r: Result<seq<string>, string>)
    ensures r.Failure? <==> ParseCsvHeaders(csv).Failure?
    ensures r.Success? ==>
              && |r.value| == |ParseCsvHeaders(csv).value|
              && forall i :: 0 <= i < |r.value| ==> r.value[i] == AutoMapping(ParseCsvHeaders(csv).value[i])
  {
    match ParseCsvHeaders(csv)
    case Failure(e) => Failure(e)
    case Success(hs) => Success(seq(|hs|, i requires 0 <= i < |hs| => AutoMapping(hs[i])))
  }
}

=== FILE: ledger.dfy ===
/**
 * The campaign messages table as a delivery ledger: the check-then-write
 * upsert keyed by (campaign, contact) and the from-scratch recount of a
 * campaign's rows that the statistics are derived from.
 */
module Ledger {
  import opened Wrappers
  import opened Wp

  /** A status update after the route has validated and coerced its parameters. */
  datatype StatusUpdate = StatusUpdate(campaignId: int, contactId: int, status: string, messageId: string, errorMessage: string)

  /** Only a sent or delivered update stamps `sent_at`. */
  predicate SetsSentAt(status: string) {
    status == "sent" || status == "delivered"
  }

  predicate IsPair(r: MessageRow, c: int, k: int) {
    r.campaignId == c && r.contactId == k
  }

  /** The row inserted when the pair has none yet. */
  function Inserted(u: StatusUpdate, now: string): MessageRow {
    MessageRow(u.campaignId, u.contactId, u.status, u.messageId, u.errorMessage,
               if SetsSentAt(u.status) then Some(now) else None, now, now)
  }

  /** An existing row after the update: `created_at` stays, `sent_at` stays unless re-stamped. */
  function Updated(r: MessageRow, u: StatusUpdate, now: string): MessageRow {
    r.(status := u.status, messageId := u.messageId, errorMessage := u.errorMessage,
       sentAt := if SetsSentAt(u.status) then Some(now) else r.sentAt, updatedAt := now)
  }

  /** `$wpdb->update` with WHERE campaign_id AND contact_id: every row of the pair is rewritten. */
  function UpdateRows(rows: seq<MessageRow>, u: StatusUpdate, now: string): seq<MessageRow> {
    if rows == [] then []
    else [if IsPair(rows[0], u.campaignId, u.contactId) then Updated(rows[0], u, now) else rows[0]]
         + UpdateRows(rows[1..], u, now)
  }

  predicate HasPair(rows: seq<MessageRow>, c: int, k: int) {
    exists i :: 0 <= i < |rows| && IsPair(rows[i], c, k)
  }

  /** The SELECT for an existing row, then the UPDATE or the INSERT. */
  function Upsert(rows: seq<MessageRow>, u: StatusUpdate, now: string): seq<MessageRow> {
    if HasPair(rows, u.campaignId, u.contactId) then UpdateRows(rows, u, now)
    else rows + [Inserted(u, now)]
  }

  /** Updates applied one after another. */
  function UpsertAll(rows: seq<MessageRow>, us: seq<StatusUpdate>, now: string): seq<MessageRow> {
    if us == [] then rows else Upsert(UpsertAll(rows, us[..|us| - 1], now), us[|us| - 1], now)
  }

  /** The rows of one (campaign, contact) pair, in table order. */
  function PairRows(rows: seq<MessageRow>, c: int, k: int): seq<MessageRow> {
    if rows == [] then []
    else (if IsPair(rows[0], c, k) then [rows[0]] else []) + PairRows(rows[1..], c, k)
  }

  /** The rows of every other pair, in table order. */
  function OtherRows(rows: seq<MessageRow>, c: int, k: int): seq<MessageRow> {
    if rows == [] then []
    else (if IsPair(rows[0], c, k) then [] else [rows[0]]) + OtherRows(rows[1..], c, k)
  }

  /** The uniqueness the table itself does not enforce. */
  ghost predicate OneRowPerPair(rows: seq<MessageRow>) {
    forall c, k :: |PairRows(rows, c, k)| <= 1
  }

  lemma {:induction false} PairRowsAppend(rows: seq<MessageRow>, r: MessageRow, c: int, k: int)
    ensures PairRows(rows + [r], c, k) == PairRows(rows, c, k) + (if IsPair(r, c, k) then [r] else [])
  {
    if rows != [] {
      assert (rows + [r])[1..] == rows[1..] + [r];
      PairRowsAppend(rows[1..], r, c, k);
    }
  }

  lemma {:induction false} OtherRowsAppend(rows: seq<MessageRow>, r: MessageRow, c: int, k: int)
    ensures OtherRows(rows + [r], c, k) == OtherRows(rows, c, k) + (if IsPair(r, c, k) then [] else [r])
  {
    if rows != [] {
      assert (rows + [r])[1..] == rows[1..] + [r];
      OtherRowsAppend(rows[1..], r, c, k);
    }
  }

  /** The existence check of the upsert sees a row exactly when the pair has one. */
  lemma {:induction false} HasPairIff(rows: seq<MessageRow>, c: int, k: int)
    ensures HasPair(rows, c, k) <==> |PairRows(rows, c, k)| > 0
  {
    if rows != [] {
      HasPairIff(rows[1..], c, k);
      if HasPair(rows[1..], c, k) {
        var i :| 0 <= i < |rows[1..]| && IsPair(rows[1..][i], c, k);
        assert IsPair(rows[i + 1], c, k);
      }
      if HasPair(rows, c, k) && !IsPair(rows[0], c, k) {
        var i :| 0 <= i < |rows| && IsPair(rows[i], c, k);
        assert IsPair(rows[1..][i - 1], c, k);
      }
    }
  }

  /** Row i after the UPDATE. */
  lemma {:induction false} UpdateRowsAt(rows: seq<MessageRow>, u: StatusUpdate, now: string, i: int)
    requires 0 <= i < |rows|
    ensures |UpdateRows(rows, u, now)| == |rows|
    ensures UpdateRows(rows, u, now)[i] ==
      if IsPair(rows[i], u.campaignId, u.contactId) then Updated(rows[i], u, now) else rows[i]
  {
    if i > 0 {
      UpdateRowsAt(rows[1..], u, now, i - 1);
    } else if |rows| > 1 {
      UpdateRowsAt(rows[1..], u, now, 0);
    }
  }

  /** Selecting a pair commutes with the UPDATE (which leaves every other pair alone). */
  lemma {:induction false} PairRowsOfUpdate(rows: seq<MessageRow>, u: StatusUpdate, now: string, c: int, k: int)
    ensures PairRows(UpdateRows(rows, u, now), c, k) == UpdateRows(PairRows(rows, c, k), u, now)
  {
    if rows != [] {
      PairRowsOfUpdate(rows[1..], u, now, c, k);
      var x := rows[0];
      var x' := if IsPair(x, u.campaignId, u.contactId) then Updated(x, u, now) else x;
      assert UpdateRows(rows, u, now) == [x'] + UpdateRows(rows[1..], u, now);
      assert IsPair(x', c, k) == IsPair(x, c, k);
      var rest := PairRows(rows[1..], c, k);
      if IsPair(x, c, k) {
        assert PairRows(rows, c, k) == [x] + rest;
        assert ([x] + rest)[0] == x && ([x] + rest)[1..] == rest;
        assert UpdateRows([x] + rest, u, now) == [x'] + UpdateRows(rest, u, now);
      } else {
        assert PairRows(rows, c, k) == rest;
      }
    }
  }

  lemma {:induction false} OtherRowsOfUpdate(rows: seq<MessageRow>, u: StatusUpdate, now: string)
    ensures OtherRows(UpdateRows(rows, u, now), u.campaignId, u.contactId) == OtherRows(rows, u.campaignId, u.contactId)
  {
    if rows != [] {
      OtherRowsOfUpdate(rows[1..], u, now);
    }
  }

  /**
   * After an update the pair has exactly one row, provided it had at most one
   * before. An existing row is updated in place (keeping `created_at`, and
   * keeping `sent_at` on a failed update); otherwise a row is inserted with
   * `created_at` set. Status, message id and error message are the update's.
   */
  lemma UpsertPair(rows: seq<MessageRow>, u: StatusUpdate, now: string)
    requires |PairRows(rows, u.campaignId, u.contactId)| <= 1
    ensures var before := PairRows(rows, u.campaignId, u.contactId);
            var after := PairRows(Upsert(rows, u, now), u.campaignId, u.contactId);
            && |after| == 1
            && after[0] == (if before == [] then Inserted(u, now) else Updated(before[0], u, now))
            && after[0].status == u.status
            && after[0].messageId == u.messageId
            && after[0].errorMessage == u.errorMessage
            && after[0].updatedAt == now
            && after[0].createdAt == (if before == [] then now else before[0].createdAt)
            && after[0].sentAt == (if SetsSentAt(u.status) then Some(now)
                                   else if before == [] then None else before[0].sentAt)
  {
    var c, k := u.campaignId, u.contactId;
    HasPairIff(rows, c, k);
    if HasPair(rows, c, k) {
      PairRowsOfUpdate(rows, u, now, c, k);
      var before := PairRows(rows, c, k);
      assert before == [before[0]];
      assert UpdateRows(before, u, now) == [Updated(before[0], u, now)] + UpdateRows([], u, now);
    } else {
      PairRowsAppend(rows, Inserted(u, now), c, k);
    }
  }

  /** Rows of every other pair are untouched, and stay in order. */
  lemma UpsertOtherRows(rows: seq<MessageRow>, u: StatusUpdate, now: string)
    ensures OtherRows(Upsert(rows, u, now), u.campaignId, u.contactId) == OtherRows(rows, u.campaignId, u.contactId)
  {
    if HasPair(rows, u.campaignId, u.contactId) {
      OtherRowsOfUpdate(rows, u, now);
    } else {
      OtherRowsAppend(rows, Inserted(u, now), u.campaignId, u.contactId);
    }
  }

  /** The check-then-write upsert keeps the table at most one row per pair. */
  lemma UpsertKeepsOneRowPerPair(rows: seq<MessageRow>, u: StatusUpdate, now: string)
    requires OneRowPerPair(rows)
    ensures OneRowPerPair(Upsert(rows, u, now))
  {
    var after := Upsert(rows, u, now);
    forall c, k ensures |PairRows(after, c, k)| <= 1 {
      assert |PairRows(rows, c, k)| <= 1;
      if HasPair(rows, u.campaignId, u.contactId) {
        PairRowsOfUpdate(rows, u, now, c, k);
        var before := PairRows(rows, c, k);
        if before != [] {
          assert before == [before[0]];
          assert UpdateRows(before, u, now) == [if IsPair(before[0], u.campaignId, u.contactId) then Updated(before[0], u, now) else before[0]] + UpdateRows([], u, now);
        }
      } else {
        PairRowsAppend(rows, Inserted(u, now), c, k);
        HasPairIff(rows, c, k);
      }
    }
  }

  /** Repeated updates of one pair leave one row carrying the last update's status. */
  lemma {:induction false} LastWriteWins(rows: seq<MessageRow>, us: seq<StatusUpdate>, now: string, c: int, k: int)
    requires |us| > 0
    requires forall i :: 0 <= i < |us| ==> us[i].campaignId == c && us[i].contactId == k
    requires |PairRows(rows, c, k)| <= 1
    ensures |PairRows(UpsertAll(rows, us, now), c, k)| == 1
    ensures PairRows(UpsertAll(rows, us, now), c, k)[0].status == us[|us| - 1].status
  {
    var prefix := us[..|us| - 1];
    var mid := UpsertAll(rows, prefix, now);
    if prefix != [] {
      LastWriteWins(rows, prefix, now, c, k);
    }
    UpsertPair(mid, us[|us| - 1], now);
  }

  /** The five counts `update_campaign_stats` reads back from the table. */
  datatype Stats = Stats(total: nat, sent: nat, delivered: nat, failed: nat, pending: nat)

  /** One row's contribution to the counts of campaign c. */
  function CountRow(t: Stats, r: MessageRow, c: int): Stats {
    if r.campaignId != c then t
    else t.(total := t.total + 1,
            sent := if r.status == "sent" || r.status == "delivered" then t.sent + 1 else t.sent,
            delivered := if r.status == "delivered" then t.delivered + 1 else t.delivered,
            failed := if r.status == "failed" then t.failed + 1 else t.failed,
            pending := if r.status == "pending" then t.pending + 1 else t.pending)
  }

  /** The counts of campaign c over the whole table. */
  function Tally(rows: seq<MessageRow>, c: int): Stats {
    if rows == [] then Stats(0, 0, 0, 0, 0)
    else CountRow(Tally(rows[..|rows| - 1], c), rows[|rows| - 1], c)
  }

  /** The statuses a row can hold, as far as the plugin is concerned. */
  predicate KnownStatus(s: string) {
    s == "pending" || s == "sent" || s == "delivered" || s == "failed"
  }

  /** delivered <= sent <= total and sent + failed + pending <= total, whatever the rows hold. */
  lemma {:induction false} TallyBounds(rows: seq<MessageRow>, c: int)
    ensures var t := Tally(rows, c);
            t.delivered <= t.sent <= t.total && t.sent + t.failed + t.pending <= t.total
  {
    if rows != [] {
      TallyBounds(rows[..|rows| - 1], c);
    }
  }

  /** When every row of the campaign holds one of the four statuses, the counts partition the total. */
  lemma {:induction false} TallyPartition(rows: seq<MessageRow>, c: int)
    requires forall i :: 0 <= i < |rows| && rows[i].campaignId == c ==> KnownStatus(rows[i].status)
    ensures var t := Tally(rows, c); t.sent + t.failed + t.pending == t.total
  {
    if rows != [] {
      TallyPartition(rows[..|rows| - 1], c);
    }
  }

  /** The pending count is zero exactly when no row of the campaign is pending. */
  lemma {:induction false} NoPendingIff(rows: seq<MessageRow>, c: int)
    ensures Tally(rows, c).pending == 0 <==>
            forall i :: 0 <= i < |rows| && rows[i].campaignId == c ==> rows[i].status != "pending"
  {
    if rows != [] {
      var init := rows[..|rows| - 1];
      NoPendingIff(init, c);
      assert forall i :: 0 <= i < |init| ==> init[i] == rows[i];
    }
  }

  /** The total is positive exactly when the campaign has a row. */
  lemma {:induction false} TotalPositiveIff(rows: seq<MessageRow>, c: int)
    ensures Tally(rows, c).total > 0 <==> exists i :: 0 <= i < |rows| && rows[i].campaignId == c
  {
    if rows != [] {
      var init := rows[..|rows| - 1];
      TotalPositiveIff(init, c);
      if exists i :: 0 <= i < |rows| && rows[i].campaignId == c {
        var i :| 0 <= i < |rows| && rows[i].campaignId == c;
        if i < |init| {
          assert init[i] == rows[i];
        }
      }
      if exists i :: 0 <= i < |init| && init[i].campaignId == c {
        var i :| 0 <= i < |init| && init[i].campaignId == c;
        assert rows[i] == init[i];
      }
    }
  }

  /**
   * The message-status endpoint never writes `pending`: once it has upserted
   * a row, a campaign none of whose rows was pending has a pending count of 0
   * and a positive total, so the completion rule fires.
   */
  lemma UpsertCompletes(rows: seq<MessageRow>, u: StatusUpdate, now: string)
    requires u.status != "pending"
    requires forall i :: 0 <= i < |rows| && rows[i].campaignId == u.campaignId ==> rows[i].status != "pending"
    ensures Tally(Upsert(rows, u, now), u.campaignId).pending == 0
    ensures Tally(Upsert(rows, u, now), u.campaignId).total > 0
  {
    var c := u.campaignId;
    var after := Upsert(rows, u, now);
    if HasPair(rows, c, u.contactId) {
      var j :| 0 <= j < |rows| && IsPair(rows[j], c, u.contactId);
      UpdateRowsAt(rows, u, now, j);
      assert after[j].campaignId == c;
      forall i | 0 <= i < |after| && after[i].campaignId == c ensures after[i].status != "pending" {
        UpdateRowsAt(rows, u, now, i);
      }
    } else {
      assert after[|rows|].campaignId == c;
      forall i | 0 <= i < |after| && after[i].campaignId == c ensures after[i].status != "pending" {
        if i < |rows| {
          assert after[i] == rows[i];
        }
      }
    }
    NoPendingIff(after, c);
    TotalPositiveIff(after, c);
  }
}

=== FILE: n8n.dfy ===
/**
 * The integration with the n8n automation service: webhook authorisation by
 * HMAC signature, the typed webhook dispatcher and its three handlers, the
 * workflow-status callback, triggering a campaign run, the contact upsert by
 * external id and webhook registration.
 *
 * The HMAC is a parameter `mac(body, secret)`; the clock is the string
 * `now`; the HTTP response of the trigger request is the `HttpOutcome`
 * parameter; the random secret of a registration is a parameter.
 */
module N8n {
  import opened Php
  import opened Wrappers
  import opened Wp
  import opened Rest

  const UrlOption := "wp_marketing_n8n_url"

  /** Option holding the secret of a webhook. */
  function SecretKey(webhookId: string): string {
    "wp_marketing_webhook_" + webhookId
  }

  /** Option holding the type of a webhook. */
  function TypeKey(webhookId: string): string {
    "wp_marketing_webhook_type_" + webhookId
  }

  /** The two option keys of one webhook never coincide. */
  lemma SecretKeyIsNotTypeKey(webhookId: string)
    ensures SecretKey(webhookId) != TypeKey(webhookId)
  {
    assert |SecretKey(webhookId)| < |TypeKey(webhookId)|;
  }

  /**
   * As written, the route accepts `_` in a webhook id, and the secret option
   * of webhook `type_x` is the type option of webhook `x`: registering
   * `type_x` after `x` replaces x's type with the new 32-character secret, so
   * x's requests are then refused as an unsupported type.
   */
  lemma TypePrefixedIdOverwritesType(options: map<string, Value>, x: string, t1: string, s1: string, t2: string, s2: string)
    requires |s2| == 32
    ensures SecretKey("type_" + x) == TypeKey(x)
    ensures var opts := Registered(Registered(options, x, t1, s1), "type_" + x, t2, s2);
            opts[TypeKey(x)] == Str(s2) && WebhookRoute(opts[TypeKey(x)]).Err?
  {
    assert SecretKey("type_" + x) == TypeKey(x);
    assert |TypeKey("type_" + x)| != |TypeKey(x)|;
    RegisteredTypeRoutes(s2);
  }

  /** A secret option key that no type option key can equal. */
  function SeparateSecretKey(webhookId: string): string {
    "wp_marketing_webhook_secret_" + webhookId
  }

  /** `register_webhook` storing the secret under its separate key. */
  function SeparatelyRegistered(options: map<string, Value>, webhookId: string, webhookType: string, secret: string): map<string, Value> {
    options[SeparateSecretKey(webhookId) := Str(secret)][TypeKey(webhookId) := Str(webhookType)]
  }

  /**
   * With the separate secret key, a secret key never equals a type key, and
   * registering another webhook leaves a registered webhook's secret and type
   * as they were.
   */
  lemma SeparateKeysKeepOtherWebhooks(options: map<string, Value>, a: string, ta: string, sa: string, b: string, tb: string, sb: string)
    requires a != b
    ensures SeparateSecretKey(a) != TypeKey(b)
    ensures var opts := SeparatelyRegistered(SeparatelyRegistered(options, a, ta, sa), b, tb, sb);
            opts[SeparateSecretKey(a)] == Str(sa) && opts[TypeKey(a)] == Str(ta)
  {
    forall c, d ensures SeparateSecretKey(c) != TypeKey(d) {
      assert SeparateSecretKey(c)[21] == 's';
      assert TypeKey(d)[21] == 't';
    }
    assert SeparateSecretKey(b)[28..] == b && SeparateSecretKey(a)[28..] == a;
    assert TypeKey(b)[26..] == b && TypeKey(a)[26..] == a;
  }

  /** A decoded JSON body (or a payload field) seen as an associative array; anything else has no keys. */
  function Fields(v: Value): map<string, Value> {
    if v.Arr? then v.entries else map[]
  }

  /** The stored value of an option, or `default` when it is missing. */
  function OptionOr(options: map<string, Value>, key: string, default: Value): Value {
    if key in options then options[key] else default
  }

  /**
   * `validate_webhook_request`: the webhook must have a stored secret, the
   * signature header must be present and not empty, and it must equal the
   * HMAC of the raw body under the secret. `signature` is the header's first value.
   */
  function ValidateWebhookRequest(options: map<string, Value>, webhookId: string, signature: Option<string>,
                                  body: string, mac: (string, string) -> string): (r: RestResult<()>)
    ensures r.Ok? <==>
      var secret := OptionOr(options, SecretKey(webhookId), Str(""));
      Truthy(secret) && signature.Some? && !EmptyString(signature.value) && mac(body, StringCast(secret)) == signature.value
    ensures r.Err? ==> r.error.status == 403 && r.error.code == "rest_forbidden"
  {
    var secret := OptionOr(options, SecretKey(webhookId), Str(""));
    if !Truthy(secret) then
      Err(RestError("rest_forbidden", "Invalid webhook ID.", 403))
    else if signature.None? || EmptyString(signature.value) then
      Err(RestError("rest_forbidden", "Webhook signature is required.", 403))
    else if mac(body, StringCast(secret)) != signature.value then
      Err(RestError("rest_forbidden", "Invalid webhook signature.", 403))
    else
      Ok(())
  }

  /** The options after `register_webhook` stored a secret and a type. */
  function Registered(options: map<string, Value>, webhookId: string, webhookType: string, secret: string): map<string, Value> {
    options[SecretKey(webhookId) := Str(secret)][TypeKey(webhookId) := Str(webhookType)]
  }

  /**
   * Once a webhook is registered, a request whose signature is the HMAC of
   * its body under the issued secret is authorised, whatever the body; any
   * other signature is refused. The secret is 32 characters long and the
   * HMAC a 64-digit hexadecimal string.
   */
  lemma RegisteredWebhookAuthorises(options: map<string, Value>, webhookId: string, webhookType: string, secret: string,
                                    body: string, signature: string, mac: (string, string) -> string)
    requires |secret| == 32
    requires |mac(body, secret)| == 64
    ensures ValidateWebhookRequest(Registered(options, webhookId, webhookType, secret), webhookId, Some(signature), body, mac).Ok?
            <==> signature == mac(body, secret)
  {
    SecretKeyIsNotTypeKey(webhookId);
    var opts := Registered(options, webhookId, webhookType, secret);
    assert opts[SecretKey(webhookId)] == Str(secret);
  }

  /** A character PCRE's `\w` matches without Unicode mode: an ASCII letter, a digit or '_'. */
  predicate WordChar(c: char) {
    'a' <= c <= 'z' || 'A' <= c <= 'Z' || IsDigit(c) || c == '_'
  }

  /** An id that reaches the webhook callback: it matches `\w+` and is not empty for PHP. */
  predicate RoutableId(id: string) {
    id != [] && (forall i :: 0 <= i < |id| ==> WordChar(id[i])) && !EmptyString(id)
  }

  /**
   * What WordPress does with the id before the permission callback: a path
   * segment that does not match `\w+` matches no route (404), and the
   * `validate_callback` (`is_string` and not `empty`) refuses "0" (400).
   */
  function WebhookIdCheck(id: string): (r: RestResult<()>)
    ensures r.Ok? <==> RoutableId(id)
    ensures id == "0" ==> r.Err? && r.error.status == 400
    ensures r.Err? ==> r.error.status == 400 || r.error.status == 404
  {
    if id == [] || exists i :: 0 <= i < |id| && !WordChar(id[i]) then
      Err(RestError("rest_no_route", "No route was found matching the URL and request method.", 404))
    else if EmptyString(id) then
      Err(RestError("rest_invalid_param", "Invalid parameter(s): webhook_id", 400))
    else
      Ok(())
  }

  /** A webhook request up to its callback: the route's id check, then `validate_webhook_request`. */
  function WebhookGate(options: map<string, Value>, webhookId: string, signature: Option<string>,
                       body: string, mac: (string, string) -> string): RestResult<()> {
    if WebhookIdCheck(webhookId).Err? then WebhookIdCheck(webhookId)
    else ValidateWebhookRequest(options, webhookId, signature, body, mac)
  }

  /**
   * End to end, a registered webhook is served exactly when its id is
   * routable and the request is signed with the issued secret. So an id
   * `register_webhook` accepts but the route does not (such as "0" or
   * "a-b") is issued a secret that never works.
   */
  lemma RegisteredWebhookServed(options: map<string, Value>, webhookId: string, webhookType: string, secret: string,
                                body: string, signature: string, mac: (string, string) -> string)
    requires |secret| == 32
    requires |mac(body, secret)| == 64
    ensures WebhookGate(Registered(options, webhookId, webhookType, secret), webhookId, Some(signature), body, mac).Ok?
            <==> RoutableId(webhookId) && signature == mac(body, secret)
  {
    RegisteredWebhookAuthorises(options, webhookId, webhookType, secret, body, signature, mac);
  }

  /** The three webhook kinds. */
  datatype WebhookKind = CampaignStatusKind | ContactUpdateKind | QrCodeKind

  /**
   * The dispatch of `handle_n8n_webhook` on the stored type: an empty type is
   * unknown (404); otherwise PHP's `switch` compares loosely with the three
   * type names in order, and no match is unsupported (400).
   */
  function WebhookRoute(webhookType: Value): (r: RestResult<WebhookKind>)
    ensures !Truthy(webhookType) ==> r == Err(RestError("rest_not_found", "Webhook type not found.", 404))
    ensures Truthy(webhookType) && r.Err? ==> r.error == RestError("rest_invalid_webhook", "Unsupported webhook type.", 400)
    ensures r == Ok(CampaignStatusKind) ==> LooseEqualsLiteral(webhookType, "campaign_status")
    ensures r == Ok(ContactUpdateKind) ==> LooseEqualsLiteral(webhookType, "contact_update")
    ensures r == Ok(QrCodeKind) ==> LooseEqualsLiteral(webhookType, "qr_code_generated")
  {
    if !Truthy(webhookType) then Err(RestError("rest_not_found", "Webhook type not found.", 404))
    else if LooseEqualsLiteral(webhookType, "campaign_status") then Ok(CampaignStatusKind)
    else if LooseEqualsLiteral(webhookType, "contact_update") then Ok(ContactUpdateKind)
    else if LooseEqualsLiteral(webhookType, "qr_code_generated") then Ok(QrCodeKind)
    else Err(RestError("rest_invalid_webhook", "Unsupported webhook type.", 400))
  }

  /** A registered type name routes to its handler, and any other non-empty string is refused. */
  lemma RegisteredTypeRoutes(webhookType: string)
    requires !EmptyString(webhookType)
    ensures webhookType == "campaign_status" <==> WebhookRoute(Str(webhookType)) == Ok(CampaignStatusKind)
    ensures webhookType == "contact_update" <==> WebhookRoute(Str(webhookType)) == Ok(ContactUpdateKind)
    ensures webhookType == "qr_code_generated" <==> WebhookRoute(Str(webhookType)) == Ok(QrCodeKind)
    ensures WebhookRoute(Str(webhookType)).Err? <==>
            webhookType !in {"campaign_status", "contact_update", "qr_code_generated"}
  {
  }

  /** A webhook handler's 200 response. */
  datatype Reply = Done(message: string) | ContactSaved(message: string, contactId: int)

  /** The fields of a `campaign_status` payload. */
  datatype CampaignStatus = CampaignStatus(campaignId: int, status: string, message: string)

  function CampaignStatusOf(payload: map<string, Value>): (r: RestResult<CampaignStatus>)
    ensures r.Err? <==> !IsSet(payload, "campaign_id") || !IsSet(payload, "status")
    ensures r.Err? ==> r.error.status == 400
    ensures r.Ok? ==> r.value.campaignId == IntVal(payload["campaign_id"]) && r.value.status == TextOf(payload["status"])
    ensures r.Ok? ==> r.value.message == (if IsSet(payload, "message") then TextOf(payload["message"]) else "")
  {
    if !IsSet(payload, "campaign_id") || !IsSet(payload, "status") then
      Err(RestError("rest_invalid_params", "Missing required fields: campaign_id and status.", 400))
    else
      Ok(CampaignStatus(IntVal(payload["campaign_id"]), TextOf(payload["status"]),
                        if IsSet(payload, "message") then TextOf(payload["message"]) else ""))
  }

  /** A campaign's meta after a `campaign_status` webhook. */
  function CampaignStatusMeta(m: map<string, Value>, u: CampaignStatus, now: string): map<string, Value> {
    var base := m["status" := Str(u.status)]["last_status_message" := Str(u.message)]["last_updated_at" := Str(now)];
    if u.status == "sent" then base["sent_at" := Str(now)]
    else if u.status == "completed" then base["completed_at" := Str(now)]
    else base
  }

  /** The actions a `campaign_status` webhook fires. */
  function CampaignStatusEvents(u: CampaignStatus): seq<Event> {
    if u.status == "completed" then [CampaignCompleted(u.campaignId)]
    else if u.status == "failed" then [CampaignFailed(u.campaignId, u.message)]
    else []
  }

  /**
   * The webhook's status becomes the campaign's status with its message and
   * time; `sent_at` is written only for sent, `completed_at` only for
   * completed, and no other key changes. The completion action fires exactly
   * for completed and the failure action exactly for failed.
   */
  lemma CampaignStatusEffects(m: map<string, Value>, u: CampaignStatus, now: string)
    ensures var m' := CampaignStatusMeta(m, u, now);
            && m'["status"] == Str(u.status) && m'["last_status_message"] == Str(u.message)
            && m'["last_updated_at"] == Str(now)
            && (u.status == "sent" ==> m'["sent_at"] == Str(now))
            && (u.status == "completed" ==> m'["completed_at"] == Str(now))
            && (u.status != "sent" ==> ("sent_at" in m' <==> "sent_at" in m) && ("sent_at" in m ==> m'["sent_at"] == m["sent_at"]))
            && (u.status != "completed" ==> ("completed_at" in m' <==> "completed_at" in m) && ("completed_at" in m ==> m'["completed_at"] == m["completed_at"]))
            && (forall k :: k !in {"status", "last_status_message", "last_updated_at", "sent_at", "completed_at"} ==>
                  (k in m' <==> k in m) && (k in m ==> m'[k] == m[k]))
    ensures CampaignCompleted(u.campaignId) in CampaignStatusEvents(u) <==> u.status == "completed"
    ensures (exists msg :: CampaignFailed(u.campaignId, msg) in CampaignStatusEvents(u)) <==> u.status == "failed"
  {
    if u.status == "failed" {
      assert CampaignFailed(u.campaignId, u.message) in CampaignStatusEvents(u);
    }
  }

  /** The fields of a `qr_code_generated` payload. */
  datatype QrUpdate = QrUpdate(qrCodeId: int, url: string)

  function QrUpdateOf(payload: map<string, Value>): (r: RestResult<QrUpdate>)
    ensures r.Err? <==> !IsSet(payload, "qr_code_id") || !IsSet(payload, "qr_code_url")
    ensures r.Err? ==> r.error.status == 400
    ensures r.Ok? ==> r.value == QrUpdate(IntVal(payload["qr_code_id"]), TextOf(payload["qr_code_url"]))
  {
    if !IsSet(payload, "qr_code_id") || !IsSet(payload, "qr_code_url") then
      Err(RestError("rest_invalid_params", "Missing required fields: qr_code_id and qr_code_url.", 400))
    else
      Ok(QrUpdate(IntVal(payload["qr_code_id"]), TextOf(payload["qr_code_url"])))
  }

  /** Whether post `id` is a contact whose stored external id is `x` (the lookup's meta query). */
  predicate HasExternalId(posts: map<int, Post>, meta: map<int, map<string, Value>>, id: int, x: string) {
    && id in posts && posts[id].postType == ContactType
    && "external_id" in MetaIn(meta, id) && TextOf(MetaIn(meta, id)["external_id"]) == x
  }

  /** The payload keys a contact stores under their own names. */
  const NamedKeys: set<string> := {"name", "phone", "email"}

  /**
   * Whether the foreach stores payload key `k`: it is not one of the named
   * keys (compared before sanitising), and its `sanitize_key` form is a key
   * the meta API accepts (not '' or '0').
   */
  predicate WritesExtra(k: string) {
    k !in NamedKeys && !EmptyString(SanitizeKey(k))
  }

  /** One step of the foreach: key `k` stored as text under its sanitised form, or nothing. */
  function WriteExtra(m: map<string, Value>, data: map<string, Value>, k: string): map<string, Value>
    requires k in data
  {
    if WritesExtra(k) then m[SanitizeKey(k) := Str(TextOf(data[k]))] else m
  }

  /** `order` lists every key of `data` once, in the order of the decoded JSON object, which a PHP array keeps. */
  ghost predicate KeyOrder(order: seq<string>, data: map<string, Value>) {
    && (forall k :: k in data <==> k in order)
    && (forall i, j :: 0 <= i < j < |order| ==> order[i] != order[j])
  }

  /** `order` is the key order of the payload's `data` object whenever the payload has one. */
  ghost predicate DataKeyOrder(payload: map<string, Value>, order: seq<string>) {
    IsSet(payload, "data") ==> KeyOrder(order, Fields(payload["data"]))
  }

  /** The foreach over the payload keys, in `order`, applied to meta `m`. */
  function WithExtraFields(m: map<string, Value>, data: map<string, Value>, order: seq<string>): map<string, Value>
    requires forall k :: k in order ==> k in data
  {
    if order == [] then m
    else WriteExtra(WithExtraFields(m, data, order[..|order| - 1]), data, order[|order| - 1])
  }

  /** The meta keys the foreach writes. */
  function ExtraKeys(order: seq<string>): set<string> {
    set k | k in order && WritesExtra(k) :: SanitizeKey(k)
  }

  /** No key stored after position `i` lands on the same meta key as `order[i]`. */
  predicate LastWriter(order: seq<string>, i: int)
    requires 0 <= i < |order|
  {
    forall j :: i < j < |order| && WritesExtra(order[j]) ==> SanitizeKey(order[j]) != SanitizeKey(order[i])
  }

  /**
   * The foreach leaves every meta key it does not write as it was, and a
   * written key holds the value of the last payload key that lands on it.
   */
  lemma {:induction false} WithExtraFieldsFacts(m: map<string, Value>, data: map<string, Value>, order: seq<string>)
    requires forall k :: k in order ==> k in data
    ensures var r := WithExtraFields(m, data, order);
            && m.Keys <= r.Keys
            && (forall s :: s !in ExtraKeys(order) ==> (s in r <==> s in m) && (s in m ==> r[s] == m[s]))
            && (forall i :: 0 <= i < |order| && WritesExtra(order[i]) && LastWriter(order, i) ==>
                  SanitizeKey(order[i]) in r && r[SanitizeKey(order[i])] == Str(TextOf(data[order[i]])))
  {
    if order != [] {
      var n := |order| - 1;
      var init, last := order[..n], order[n];
      assert forall k :: k in init ==> k in order;
      WithExtraFieldsFacts(m, data, init);
      var r0 := WithExtraFields(m, data, init);
      var r := WithExtraFields(m, data, order);
      assert r == WriteExtra(r0, data, last);
      assert ExtraKeys(init) <= ExtraKeys(order);
      forall i | 0 <= i < |order| && WritesExtra(order[i]) && LastWriter(order, i)
        ensures SanitizeKey(order[i]) in r && r[SanitizeKey(order[i])] == Str(TextOf(data[order[i]]))
      {
        if i < n {
          assert init[i] == order[i];
          assert LastWriter(init, i);
        }
      }
    }
  }

  /** No other stored payload key sanitises onto the meta key of `k`. */
  predicate SoleWriter(data: map<string, Value>, k: string) {
    forall k' :: k' in data && WritesExtra(k') && SanitizeKey(k') == SanitizeKey(k) ==> k' == k
  }

  /** With keys listed once each, a payload key no other stored key shares a meta key with is stored with its own value. */
  lemma WithExtraFieldsOwnKey(m: map<string, Value>, data: map<string, Value>, order: seq<string>, k: string)
    requires KeyOrder(order, data)
    requires k in data && WritesExtra(k)
    requires SoleWriter(data, k)
    ensures SanitizeKey(k) in WithExtraFields(m, data, order)
    ensures WithExtraFields(m, data, order)[SanitizeKey(k)] == Str(TextOf(data[k]))
  {
    WithExtraFieldsFacts(m, data, order);
    var i :| 0 <= i < |order| && order[i] == k;
    assert LastWriter(order, i);
  }

  /** A named field of the payload as text, '' when absent. */
  function NamedField(data: map<string, Value>, key: string): string {
    if IsSet(data, key) then TextOf(data[key]) else ""
  }

  /** The three fields `create_contact` writes before the foreach. */
  function CreatedFields(m: map<string, Value>, externalId: string, data: map<string, Value>): map<string, Value> {
    m["external_id" := Str(externalId)]["phone" := Str(NamedField(data, "phone"))]["email" := Str(NamedField(data, "email"))]
  }

  /** The meta of a contact `create_contact` made. */
  function CreatedContactMeta(m: map<string, Value>, externalId: string, data: map<string, Value>, order: seq<string>): map<string, Value>
    requires forall k :: k in order ==> k in data
  {
    WithExtraFields(CreatedFields(m, externalId, data), data, order)
  }

  /** The phone and e-mail keys of the payload that are set, as text. */
  function StandardFields(data: map<string, Value>): map<string, Value> {
    map k | k in {"phone", "email"} && IsSet(data, k) :: Str(TextOf(data[k]))
  }

  /** The meta of a contact after `update_contact`. */
  function UpdatedContactMeta(m: map<string, Value>, data: map<string, Value>, order: seq<string>): map<string, Value>
    requires forall k :: k in order ==> k in data
  {
    WithExtraFields(m + StandardFields(data), data, order)
  }

  /**
   * A created contact keeps its external id, phone and e-mail (the last two
   * '' when absent) unless a further payload key sanitises onto them, and its
   * `name` meta is left alone unless a further key such as `Name` lands
   * there. Every further key that no other stored key shares a meta key with
   * is stored as text under its sanitised form, and nothing else changes.
   */
  lemma CreatedContactFields(m: map<string, Value>, externalId: string, data: map<string, Value>, order: seq<string>)
    requires KeyOrder(order, data)
    ensures var m' := CreatedContactMeta(m, externalId, data, order);
            && {"external_id", "phone", "email"} <= m'.Keys
            && ("external_id" !in ExtraKeys(order) ==> m'["external_id"] == Str(externalId))
            && ("phone" !in ExtraKeys(order) ==> m'["phone"] == Str(NamedField(data, "phone")))
            && ("email" !in ExtraKeys(order) ==> m'["email"] == Str(NamedField(data, "email")))
            && (forall s :: s !in ExtraKeys(order) && s !in {"external_id", "phone", "email"} ==>
                  (s in m' <==> s in m) && (s in m ==> m'[s] == m[s]))
            && (forall k :: k in data && WritesExtra(k) && SoleWriter(data, k) ==>
                  SanitizeKey(k) in m' && m'[SanitizeKey(k)] == Str(TextOf(data[k])))
  {
    WithExtraFieldsFacts(CreatedFields(m, externalId, data), data, order);
    forall k | k in data && WritesExtra(k) && SoleWriter(data, k)
      ensures SanitizeKey(k) in CreatedContactMeta(m, externalId, data, order)
      ensures CreatedContactMeta(m, externalId, data, order)[SanitizeKey(k)] == Str(TextOf(data[k]))
    {
      WithExtraFieldsOwnKey(CreatedFields(m, externalId, data), data, order, k);
    }
  }

  /**
   * `update_contact` changes only the phone and e-mail the payload sets and
   * the meta keys the further payload keys sanitise onto; a set phone or
   * e-mail is stored unless a further key lands on it too, and a further key
   * no other stored key shares a meta key with is stored with its own value.
   */
  lemma UpdatedContactKeepsAbsentKeys(m: map<string, Value>, data: map<string, Value>, order: seq<string>)
    requires KeyOrder(order, data)
    ensures var m' := UpdatedContactMeta(m, data, order);
            && (forall s :: s !in ExtraKeys(order) && !(s in {"phone", "email"} && IsSet(data, s)) ==>
                  (s in m' <==> s in m) && (s in m ==> m'[s] == m[s]))
            && (IsSet(data, "phone") && "phone" !in ExtraKeys(order) ==> "phone" in m' && m'["phone"] == Str(TextOf(data["phone"])))
            && (IsSet(data, "email") && "email" !in ExtraKeys(order) ==> "email" in m' && m'["email"] == Str(TextOf(data["email"])))
            && (forall k :: k in data && WritesExtra(k) && SoleWriter(data, k) ==>
                  SanitizeKey(k) in m' && m'[SanitizeKey(k)] == Str(TextOf(data[k])))
  {
    WithExtraFieldsFacts(m + StandardFields(data), data, order);
    forall k | k in data && WritesExtra(k) && SoleWriter(data, k)
      ensures SanitizeKey(k) in UpdatedContactMeta(m, data, order)
      ensures UpdatedContactMeta(m, data, order)[SanitizeKey(k)] == Str(TextOf(data[k]))
    {
      WithExtraFieldsOwnKey(m + StandardFields(data), data, order, k);
    }
  }

  /** A payload key `Phone` sanitises onto `phone`: an update without a `phone` key still replaces the stored phone. */
  lemma CapitalisedKeyReplacesPhone(m: map<string, Value>)
    ensures var data := map["Phone" := Str("+15550100")];
            && !IsSet(data, "phone")
            && "phone" in UpdatedContactMeta(m, data, ["Phone"])
            && UpdatedContactMeta(m, data, ["Phone"])["phone"] == Str("+15550100")
  {
    SanitizeKeyExamples();
    var data := map["Phone" := Str("+15550100")];
    assert ["Phone"][..0] == [];
    assert WithExtraFields(m + StandardFields(data), data, []) == m + StandardFields(data);
  }

  /**
   * After a contact is created for external id `x`, the lookup finds it: it
   * carries the id and has the highest post id, provided no further payload
   * key sanitises onto `external_id`.
   */
  lemma CreatedContactIsFound(posts: map<int, Post>, meta: map<int, map<string, Value>>, id: int,
                              name: string, x: string, data: map<string, Value>, order: seq<string>)
    requires forall j :: j in posts ==> j < id
    requires KeyOrder(order, data)
    requires "external_id" !in ExtraKeys(order)
    ensures var posts' := posts[id := Post(ContactType, name, "", 0)];
            var meta' := meta[id := CreatedContactMeta(MetaIn(meta, id), x, data, order)];
            && HasExternalId(posts', meta', id, x)
            && forall j :: HasExternalId(posts', meta', j, x) ==> j <= id
  {
    CreatedContactFields(MetaIn(meta, id), x, data, order);
  }

  /**
   * As written, `create_contact` stores the external id before the foreach,
   * so a payload key that sanitises to `external_id` (`external_id` itself,
   * or `External_ID`) replaces it with another value, and the created contact
   * is not found under the id it was created for.
   */
  lemma ExternalIdKeyHidesContact(posts: map<int, Post>, meta: map<int, map<string, Value>>, id: int, name: string,
                                  x: string, k: string, v: string)
    requires k !in NamedKeys && SanitizeKey(k) == "external_id"
    requires v != x
    ensures var data := map[k := Str(v)];
            var posts' := posts[id := Post(ContactType, name, "", 0)];
            var meta' := meta[id := CreatedContactMeta(MetaIn(meta, id), x, data, [k])];
            !HasExternalId(posts', meta', id, x)
  {
    var data := map[k := Str(v)];
    SingleExtraKey(CreatedFields(MetaIn(meta, id), x, data), k, v, "external_id");
  }

  /** A payload of one extra key writes its value under the sanitised key and nothing else. */
  lemma SingleExtraKey(m: map<string, Value>, k: string, v: string, e: string)
    requires k !in NamedKeys && SanitizeKey(k) == e && !EmptyString(e)
    ensures WithExtraFields(m, map[k := Str(v)], [k]) == m[e := Str(v)]
  {
    assert [k][..0] == [];
  }

  /** The creation with the external id written after the foreach, so the payload cannot replace it. */
  function GuardedContactMeta(m: map<string, Value>, externalId: string, data: map<string, Value>, order: seq<string>): map<string, Value>
    requires forall k :: k in order ==> k in data
  {
    CreatedContactMeta(m, externalId, data, order)["external_id" := Str(externalId)]
  }

  /** With the guarded creation the lookup always finds the created contact, whatever the payload holds. */
  lemma GuardedContactIsFound(posts: map<int, Post>, meta: map<int, map<string, Value>>, id: int,
                              name: string, x: string, data: map<string, Value>, order: seq<string>)
    requires forall j :: j in posts ==> j < id
    requires forall k :: k in order ==> k in data
    ensures var posts' := posts[id := Post(ContactType, name, "", 0)];
            var meta' := meta[id := GuardedContactMeta(MetaIn(meta, id), x, data, order)];
            && HasExternalId(posts', meta', id, x)
            && forall j :: HasExternalId(posts', meta', j, x) ==> j <= id
  {
  }

  /** The fields of a workflow-status request. */
  datatype WorkflowUpdate = WorkflowUpdate(executionId: string, campaignId: int, status: string, message: string)

  /** The workflow route's `validate_callback` for status: a loose `in_array` over the four statuses. */
  predicate WorkflowStatusAccepted(v: Value) {
    || LooseEqualsLiteral(v, "started") || LooseEqualsLiteral(v, "success")
    || LooseEqualsLiteral(v, "error") || LooseEqualsLiteral(v, "warning")
  }

  /** The route's argument checks of the workflow-status callback, then its coercions. */
  function WorkflowUpdateOf(params: map<string, Value>): (r: RestResult<WorkflowUpdate>)
    ensures r.Err? ==> r.error.status == 400
    ensures !IsSet(params, "execution_id") || !IsSet(params, "campaign_id") || !IsSet(params, "status") ==> r.Err?
    ensures IsSet(params, "execution_id") && IsSet(params, "campaign_id") && IsSet(params, "status") ==>
              (r.Ok? <==> IsNumeric(params["campaign_id"]) && WorkflowStatusAccepted(params["status"]))
    ensures r.Ok? ==> r.value.campaignId == IntVal(params["campaign_id"]) && r.value.executionId == TextOf(params["execution_id"])
    ensures r.Ok? ==> r.value.message == (if IsSet(params, "message") then TextOf(params["message"]) else "")
    ensures r.Ok? && params["status"].Str? ==> r.value.status in {"started", "success", "error", "warning"}
  {
    if !IsSet(params, "execution_id") || !IsSet(params, "campaign_id") || !IsSet(params, "status") then
      Err(RestError("rest_missing_callback_param", "Missing parameter(s).", 400))
    else if !IsNumeric(params["campaign_id"]) || !WorkflowStatusAccepted(params["status"]) then
      Err(RestError("rest_invalid_param", "Invalid parameter(s).", 400))
    else
      Ok(WorkflowUpdate(TextOf(params["execution_id"]), IntVal(params["campaign_id"]), TextOf(params["status"]),
                        if IsSet(params, "message") then TextOf(params["message"]) else ""))
  }

  /** A campaign's meta after a workflow-status callback. */
  function WorkflowMeta(m: map<string, Value>, w: WorkflowUpdate, now: string): map<string, Value> {
    var base := m["workflow_execution_id" := Str(w.executionId)]["workflow_status" := Str(w.status)]
                 ["workflow_message" := Str(w.message)]["workflow_updated_at" := Str(now)];
    if w.status == "error" then base["status" := Str("failed")]["last_status_message" := Str(w.message)]
    else if w.status == "success" then base["status" := Str("queued")]
    else if w.status == "started" then base["status" := Str("processing")]
    else base
  }

  /** The campaign status a workflow status leads to; `None` leaves it as it was. */
  function CampaignStatusFor(workflowStatus: string): Option<string> {
    if workflowStatus == "error" then Some("failed")
    else if workflowStatus == "success" then Some("queued")
    else if workflowStatus == "started" then Some("processing")
    else None
  }

  /**
   * The four workflow fields are always written; the campaign status follows
   * `CampaignStatusFor` and is otherwise untouched; the status message
   * changes only on error.
   */
  lemma WorkflowStatusMapping(m: map<string, Value>, w: WorkflowUpdate, now: string)
    ensures var m' := WorkflowMeta(m, w, now);
            && m'["workflow_execution_id"] == Str(w.executionId) && m'["workflow_status"] == Str(w.status)
            && m'["workflow_message"] == Str(w.message) && m'["workflow_updated_at"] == Str(now)
            && (CampaignStatusFor(w.status).Some? ==> m'["status"] == Str(CampaignStatusFor(w.status).value))
            && (CampaignStatusFor(w.status).None? ==> ("status" in m' <==> "status" in m) && ("status" in m ==> m'["status"] == m["status"]))
            && (w.status != "error" ==>
                  && ("last_status_message" in m' <==> "last_status_message" in m)
                  && ("last_status_message" in m ==> m'["last_status_message"] == m["last_status_message"]))
    ensures w.status == "warning" ==> CampaignStatusFor(w.status).None?
  {
  }

  /** What the n8n server answered to the trigger request, or the transport error. */
  datatype HttpOutcome = TransportError(message: string) | Response(code: int, body: Value)

  /** The `{success, message}` array `trigger_campaign` and `register_webhook` return. */
  datatype Outcome = Outcome(success: bool, message: string)

  /** `trailingslashit($url) . 'webhook/marketing-campaign-trigger'`. */
  function TriggerUrl(url: string): (r: string)
    ensures |r| >= |"/webhook/marketing-campaign-trigger"|
    ensures r[|r| - |"/webhook/marketing-campaign-trigger"|..] == "/webhook/marketing-campaign-trigger"
  {
    Untrailed(url) + "/webhook/marketing-campaign-trigger"
  }

  /** `untrailingslashit`: every trailing '/' and '\' removed. */
  function Untrailed(s: string): (r: string)
    ensures r <= s
    ensures |r| == 0 || (r[|r| - 1] != '/' && r[|r| - 1] != '\\')
    ensures forall i :: |r| <= i < |s| ==> s[i] == '/' || s[i] == '\\'
  {
    if |s| > 0 && (s[|s| - 1] == '/' || s[|s| - 1] == '\\') then Untrailed(s[..|s| - 1]) else s
  }

  /** The configured URL may be written with or without its trailing slashes. */
  lemma {:induction false} TriggerUrlIgnoresTrailingSlash(url: string)
    ensures TriggerUrl(url + "/") == TriggerUrl(url)
  {
    assert (url + "/")[..|url + "/"| - 1] == url;
  }

  /** A campaign's meta after the trigger request got an answer. */
  function TriggerMeta(m: map<string, Value>, outcome: HttpOutcome, now: string): map<string, Value> {
    match outcome
    case TransportError(msg) => m["status" := Str("failed")]["last_status_message" := Str(msg)]
    case Response(code, body) =>
      var fields := Fields(body);
      if code != 200 then
        m["status" := Str("failed")]["last_status_message" := if IsSet(fields, "message") then fields["message"] else Str("Unknown error")]
      else
        var started := m["status" := Str("processing")]["started_at" := Str(now)];
        if IsSet(fields, "executionId") then started["workflow_execution_id" := fields["executionId"]] else started
  }

  /** The trigger's answer message. */
  function TriggerOutcome(outcome: HttpOutcome): Outcome {
    match outcome
    case TransportError(msg) => Outcome(false, "Failed to connect to n8n: " + msg)
    case Response(code, body) =>
      var fields := Fields(body);
      if code != 200 then
        Outcome(false, "n8n returned an error: " + StringCast(if IsSet(fields, "message") then fields["message"] else Str("Unknown error")))
      else Outcome(true, "Campaign triggered successfully.")
  }

  /**
   * A trigger succeeds exactly on an HTTP 200; then the campaign is
   * `processing` with a start time, and the execution id is stored only when
   * the answer carries one. Any other answer leaves it `failed` with a message.
   */
  lemma TriggerEffects(m: map<string, Value>, outcome: HttpOutcome, now: string)
    ensures var m' := TriggerMeta(m, outcome, now);
            && (TriggerOutcome(outcome).success <==> outcome.Response? && outcome.code == 200)
            && (TriggerOutcome(outcome).success ==> m'["status"] == Str("processing") && m'["started_at"] == Str(now))
            && (!TriggerOutcome(outcome).success ==> m'["status"] == Str("failed") && "last_status_message" in m')
            && (outcome.Response? && outcome.code == 200 && !IsSet(Fields(outcome.body), "executionId") ==>
                  ("workflow_execution_id" in m' <==> "workflow_execution_id" in m)
                  && ("workflow_execution_id" in m ==> m'["workflow_execution_id"] == m["workflow_execution_id"]))
  {
  }

  /**
   * The integrator object: the service URL and API key read from the options
   * when it is built, and whether both are set.
   */
  class Integrator {
    const n8nUrl: Value
    const apiKey: Value
    const isConfigured: bool

    constructor (db: Database)
      ensures n8nUrl == db.GetOption(UrlOption, Str("")) && apiKey == db.GetOption(ApiKeyOption, Str(""))
      ensures isConfigured <==> Truthy(n8nUrl) && Truthy(apiKey)
    {
      n8nUrl := db.GetOption(UrlOption, Str(""));
      apiKey := db.GetOption(ApiKeyOption, Str(""));
      isConfigured := Truthy(db.GetOption(UrlOption, Str(""))) && Truthy(db.GetOption(ApiKeyOption, Str("")));
    }

    /**
     * The campaign-status handler's effect, from the posts, meta and fired
     * actions before to the meta and fired actions after: a parse error or an
     * unknown campaign changes nothing; otherwise the campaign's meta and the
     * fired actions.
     */
    ghost predicate CampaignStatusHandled(posts: map<int, Post>, meta: map<int, map<string, Value>>, events: seq<Event>,
                                          meta': map<int, map<string, Value>>, events': seq<Event>,
                                          payload: map<string, Value>, now: string, r: RestResult<Reply>)
    {
      && (CampaignStatusOf(payload).Err? ==>
            r == Err(CampaignStatusOf(payload).error) && meta' == meta && events' == events)
      && (CampaignStatusOf(payload).Ok? && !IsPostOfType(posts, CampaignStatusOf(payload).value.campaignId, CampaignType) ==>
            r == Err(RestError("rest_not_found", "Campaign not found.", 404))
            && meta' == meta && events' == events)
      && (CampaignStatusOf(payload).Ok? && IsPostOfType(posts, CampaignStatusOf(payload).value.campaignId, CampaignType) ==>
            var u := CampaignStatusOf(payload).value;
            && u.campaignId in meta
            && r == Ok(Done("Campaign status updated successfully."))
            && meta' == meta[u.campaignId := CampaignStatusMeta(meta[u.campaignId], u, now)]
            && events' == events + CampaignStatusEvents(u))
    }

    /** The QR-code handler's effect: a parse error changes nothing; otherwise the three meta writes and the fired action. */
    ghost predicate QrCodeHandled(meta: map<int, map<string, Value>>, events: seq<Event>,
                                  meta': map<int, map<string, Value>>, events': seq<Event>,
                                  payload: map<string, Value>, now: string, r: RestResult<Reply>)
    {
      && (QrUpdateOf(payload).Err? ==>
            r == Err(QrUpdateOf(payload).error) && meta' == meta && events' == events)
      && (QrUpdateOf(payload).Ok? ==>
            var q := QrUpdateOf(payload).value;
            && r == Ok(Done("QR code processed successfully."))
            && meta' == MetaWrite(MetaWrite(MetaWrite(meta, q.qrCodeId, "qr_code_url", Str(q.url)),
                                            q.qrCodeId, "status", Str("generated")), q.qrCodeId, "generated_at", Str(now))
            && events' == events + [QrCodeGenerated(q.qrCodeId, q.url)])
    }

    /**
     * The contact-update handler's effect: missing fields change nothing;
     * otherwise the newest contact with that external id is updated, or a new
     * contact is created with the next id.
     */
    ghost predicate ContactUpdateHandled(posts: map<int, Post>, meta: map<int, map<string, Value>>, nextPostId: int,
                                         posts': map<int, Post>, meta': map<int, map<string, Value>>, nextPostId': int,
                                         payload: map<string, Value>, order: seq<string>, r: RestResult<Reply>)
      requires DataKeyOrder(payload, order)
    {
      && (!IsSet(payload, "contact_id") || !IsSet(payload, "data") ==>
            r == Err(RestError("rest_invalid_params", "Missing required fields: contact_id and data.", 400))
            && posts' == posts && meta' == meta && nextPostId' == nextPostId)
      && (IsSet(payload, "contact_id") && IsSet(payload, "data") ==>
            var x := TextOf(payload["contact_id"]);
            var data := Fields(payload["data"]);
            && r.Ok? && r.value.ContactSaved?
            && (forall j :: HasExternalId(posts, meta, j, x) ==> j <= r.value.contactId)
            && ((exists j :: HasExternalId(posts, meta, j, x)) ==>
                  && HasExternalId(posts, meta, r.value.contactId, x)
                  && r.value.contactId in meta
                  && posts' == (if IsSet(data, "name") then posts[r.value.contactId := posts[r.value.contactId].(title := TextOf(data["name"]))]
                                else posts)
                  && meta' == meta[r.value.contactId := UpdatedContactMeta(meta[r.value.contactId], data, order)]
                  && nextPostId' == nextPostId)
            && ((forall j :: !HasExternalId(posts, meta, j, x)) ==>
                  && r.value.contactId == nextPostId
                  && posts' == posts[nextPostId := Post(ContactType, if IsSet(data, "name") then TextOf(data["name"]) else "Unknown", "", 0)]
                  && meta' == meta[r.value.contactId := CreatedContactMeta(MetaIn(meta, r.value.contactId), x, data, order)]
                  && nextPostId' == nextPostId + 1))
    }

    /**
     * After a `contact_update` with no further payload key landing on
     * `external_id`, the contact it saved (found or created) carries the
     * contact id and is the one with the highest post id among those that do.
     */
    lemma SavedContactIsFound(posts0: map<int, Post>, meta0: map<int, map<string, Value>>, n0: int,
                              posts1: map<int, Post>, meta1: map<int, map<string, Value>>, n1: int,
                              p: map<string, Value>, o: seq<string>, r: RestResult<Reply>)
      requires PostsValid(posts0, meta0, n0)
      requires DataKeyOrder(p, o)
      requires ContactUpdateHandled(posts0, meta0, n0, posts1, meta1, n1, p, o, r)
      requires IsSet(p, "contact_id") && IsSet(p, "data")
      requires "external_id" !in ExtraKeys(o)
      ensures r.Ok? && r.value.ContactSaved?
      ensures HasExternalId(posts1, meta1, r.value.contactId, TextOf(p["contact_id"]))
      ensures forall j :: HasExternalId(posts1, meta1, j, TextOf(p["contact_id"])) ==> j <= r.value.contactId
    {
      var x := TextOf(p["contact_id"]);
      var data := Fields(p["data"]);
      var id := r.value.contactId;
      if exists j :: HasExternalId(posts0, meta0, j, x) {
        UpdatedContactKeepsAbsentKeys(meta0[id], data, o);
        assert HasExternalId(posts1, meta1, id, x);
        forall j | HasExternalId(posts1, meta1, j, x)
          ensures j <= id
        {
          if j != id {
            assert HasExternalId(posts0, meta0, j, x);
          }
        }
      } else {
        var name := if IsSet(data, "name") then TextOf(data["name"]) else "Unknown";
        CreatedContactIsFound(posts0, meta0, n0, name, x, data, o);
      }
    }

    /**
     * Two `contact_update` calls carrying the same contact id, the first with
     * no further payload key landing on `external_id`: the second call updates
     * the contact the first one saved (found or created) and creates no post.
     */
    lemma RepeatedContactUpdateHitsSameContact(posts0: map<int, Post>, meta0: map<int, map<string, Value>>, n0: int,
                                               posts1: map<int, Post>, meta1: map<int, map<string, Value>>, n1: int,
                                               posts2: map<int, Post>, meta2: map<int, map<string, Value>>, n2: int,
                                               p1: map<string, Value>, o1: seq<string>, r1: RestResult<Reply>,
                                               p2: map<string, Value>, o2: seq<string>, r2: RestResult<Reply>)
      requires PostsValid(posts0, meta0, n0)
      requires DataKeyOrder(p1, o1) && DataKeyOrder(p2, o2)
      requires ContactUpdateHandled(posts0, meta0, n0, posts1, meta1, n1, p1, o1, r1)
      requires ContactUpdateHandled(posts1, meta1, n1, posts2, meta2, n2, p2, o2, r2)
      requires IsSet(p1, "contact_id") && IsSet(p1, "data") && IsSet(p2, "contact_id") && IsSet(p2, "data")
      requires TextOf(p1["contact_id"]) == TextOf(p2["contact_id"])
      requires "external_id" !in ExtraKeys(o1)
      ensures r1.Ok? && r1.value.ContactSaved? && r2.Ok? && r2.value.ContactSaved?
      ensures r2.value.contactId == r1.value.contactId
      ensures n2 == n1 && posts2.Keys == posts1.Keys
    {
      SavedContactIsFound(posts0, meta0, n0, posts1, meta1, n1, p1, o1, r1);
    }

    /** `process_campaign_status_webhook`. */
    method ProcessCampaignStatus(db: Database, payload: map<string, Value>, now: string) returns (r: RestResult<Reply>)
      requires db.Valid()
      modifies db`meta, db`events
      ensures db.Valid()
      ensures CampaignStatusHandled(old(db.posts), old(db.meta), old(db.events), db.meta, db.events, payload, now, r)
    {
      var parsed := CampaignStatusOf(payload);
      if parsed.Err? {
        return Err(parsed.error);
      }
      var u := parsed.value;
      var c := u.campaignId;
      if !db.HasPostOfType(c, CampaignType) {
        return Err(RestError("rest_not_found", "Campaign not found.", 404));
      }
      WriteCampaignStatus(db, u, now);
      return Ok(Done("Campaign status updated successfully."));
    }

    /** The writes and actions of `process_campaign_status` on an existing campaign. */
    method WriteCampaignStatus(db: Database, u: CampaignStatus, now: string)
      requires db.Valid() && IsPostOfType(db.posts, u.campaignId, CampaignType)
      modifies db`meta, db`events
      ensures db.Valid() && u.campaignId in old(db.meta)
      ensures db.meta == old(db.meta)[u.campaignId := CampaignStatusMeta(old(db.meta)[u.campaignId], u, now)]
      ensures db.events == old(db.events) + CampaignStatusEvents(u)
    {
      var c := u.campaignId;
      ghost var m0, m := db.meta, db.meta[c];
      db.UpdatePostMeta(c, "status", Str(u.status));
      MetaWriteAt(m0, c, m, "status", Str(u.status));
      m := m["status" := Str(u.status)];
      db.UpdatePostMeta(c, "last_status_message", Str(u.message));
      MetaWriteAt(m0, c, m, "last_status_message", Str(u.message));
      m := m["last_status_message" := Str(u.message)];
      db.UpdatePostMeta(c, "last_updated_at", Str(now));
      MetaWriteAt(m0, c, m, "last_updated_at", Str(now));
      m := m["last_updated_at" := Str(now)];
      if u.status == "sent" {
        db.UpdatePostMeta(c, "sent_at", Str(now));
        MetaWriteAt(m0, c, m, "sent_at", Str(now));
      } else if u.status == "completed" {
        db.UpdatePostMeta(c, "completed_at", Str(now));
        MetaWriteAt(m0, c, m, "completed_at", Str(now));
        db.DoAction(CampaignCompleted(c));
      } else if u.status == "failed" {
        db.DoAction(CampaignFailed(c, u.message));
      }
    }

    /** `process_qr_code_webhook`: the record is not looked up, the meta is written whatever the id names. */
    method ProcessQrCode(db: Database, payload: map<string, Value>, now: string) returns (r: RestResult<Reply>)
      requires db.Valid()
      modifies db`meta, db`events
      ensures db.Valid()
      ensures QrCodeHandled(old(db.meta), old(db.events), db.meta, db.events, payload, now, r)
    {
      var parsed := QrUpdateOf(payload);
      if parsed.Err? {
        return Err(parsed.error);
      }
      var q := parsed.value;
      db.UpdatePostMeta(q.qrCodeId, "qr_code_url", Str(q.url));
      db.UpdatePostMeta(q.qrCodeId, "status", Str("generated"));
      db.UpdatePostMeta(q.qrCodeId, "generated_at", Str(now));
      db.DoAction(QrCodeGenerated(q.qrCodeId, q.url));
      return Ok(Done("QR code processed successfully."));
    }

    /**
     * `get_contact_by_external_id`. The query takes the first contact of the
     * default newest-first order; posts are taken to be created in id order,
     * so the scan runs from the highest id down.
     */
    method FindContactByExternalId(db: Database, x: string) returns (found: Option<int>)
      requires db.Valid()
      ensures found.Some? ==> HasExternalId(db.posts, db.meta, found.value, x)
      ensures found.Some? ==> forall j :: HasExternalId(db.posts, db.meta, j, x) ==> j <= found.value
      ensures found.None? ==> forall j :: !HasExternalId(db.posts, db.meta, j, x)
    {
      var id := db.nextPostId - 1;
      while id > 0
        invariant 0 <= id < db.nextPostId
        invariant forall j :: id < j && HasExternalId(db.posts, db.meta, j, x) ==> false
      {
        if HasExternalId(db.posts, db.meta, id, x) {
          return Some(id);
        }
        id := id - 1;
      }
      return None;
    }

    /** One step of the foreach: payload key `k` stored as text under its sanitised form, unless it is a named key. */
    method WriteExtraField(db: Database, id: int, data: map<string, Value>, k: string,
                           ghost base: map<int, map<string, Value>>, ghost cur: map<string, Value>)
      requires db.Valid() && id in db.posts && k in data
      requires db.meta == base[id := cur]
      modifies db`meta
      ensures db.Valid()
      ensures db.meta == base[id := WriteExtra(cur, data, k)]
    {
      if k !in NamedKeys {
        var key := SanitizeKey(k);
        db.UpdatePostMeta(id, key, Str(TextOf(data[k])));
        if !EmptyString(key) {
          MetaWriteAt(base, id, cur, key, Str(TextOf(data[k])));
        }
      }
    }

    /** The foreach over the payload keys, in the payload's order. */
    method WriteExtraFields(db: Database, id: int, data: map<string, Value>, order: seq<string>)
      requires db.Valid() && id in db.posts
      requires forall k :: k in order ==> k in data
      modifies db`meta
      ensures db.Valid()
      ensures db.meta == old(db.meta)[id := WithExtraFields(old(db.meta)[id], data, order)]
    {
      ghost var m0 := db.meta;
      assert m0 == m0[id := WithExtraFields(m0[id], data, order[..0])];
      for i := 0 to |order|
        invariant db.Valid()
        invariant db.meta == m0[id := WithExtraFields(m0[id], data, order[..i])]
      {
        assert order[..i + 1][..i] == order[..i];
        WriteExtraField(db, id, data, order[i], m0, WithExtraFields(m0[id], data, order[..i]));
      }
      assert order[..|order|] == order;
    }

    /** The three meta writes every created contact gets: its external id, phone and e-mail. */
    method WriteCreatedFields(db: Database, id: int, externalId: string, data: map<string, Value>)
      requires db.Valid() && id in db.posts
      modifies db`meta
      ensures db.Valid()
      ensures db.meta == old(db.meta)[id := CreatedFields(old(db.meta)[id], externalId, data)]
    {
      ghost var m0, m := db.meta, db.meta[id];
      db.UpdatePostMeta(id, "external_id", Str(externalId));
      MetaWriteAt(m0, id, m, "external_id", Str(externalId));
      m := m["external_id" := Str(externalId)];
      db.UpdatePostMeta(id, "phone", Str(NamedField(data, "phone")));
      MetaWriteAt(m0, id, m, "phone", Str(NamedField(data, "phone")));
      m := m["phone" := Str(NamedField(data, "phone"))];
      db.UpdatePostMeta(id, "email", Str(NamedField(data, "email")));
      MetaWriteAt(m0, id, m, "email", Str(NamedField(data, "email")));
    }

    /** `create_contact`: a new contact post (no user is logged in on a webhook call, so its author is 0) and its meta. */
    method CreateContact(db: Database, externalId: string, data: map<string, Value>, order: seq<string>) returns (id: int)
      requires db.Valid()
      requires forall k :: k in order ==> k in data
      modifies db`posts, db`meta, db`nextPostId
      ensures db.Valid()
      ensures id == old(db.nextPostId) && id !in old(db.posts) && db.nextPostId == old(db.nextPostId) + 1
      ensures db.posts == old(db.posts)[id := Post(ContactType, if IsSet(data, "name") then TextOf(data["name"]) else "Unknown", "", 0)]
      ensures db.meta == old(db.meta)[id := CreatedContactMeta(MetaIn(old(db.meta), id), externalId, data, order)]
    {
      var name := if IsSet(data, "name") then TextOf(data["name"]) else "Unknown";
      id := db.InsertPost(Post(ContactType, name, "", 0));
      WriteCreatedFields(db, id, externalId, data);
      WriteExtraFields(db, id, data, order);
    }

    /** The phone and e-mail writes of `update_contact`, each only when the payload sets it. */
    method WriteStandardFields(db: Database, id: int, data: map<string, Value>)
      requires db.Valid() && id in db.posts
      modifies db`meta
      ensures db.Valid()
      ensures db.meta == old(db.meta)[id := old(db.meta)[id] + StandardFields(data)]
    {
      ghost var m0, m := db.meta, db.meta[id];
      if IsSet(data, "phone") {
        db.UpdatePostMeta(id, "phone", Str(TextOf(data["phone"])));
        MetaWriteAt(m0, id, m, "phone", Str(TextOf(data["phone"])));
        m := m["phone" := Str(TextOf(data["phone"]))];
      }
      if IsSet(data, "email") {
        db.UpdatePostMeta(id, "email", Str(TextOf(data["email"])));
        MetaWriteAt(m0, id, m, "email", Str(TextOf(data["email"])));
        m := m["email" := Str(TextOf(data["email"]))];
      }
      assert m == m0[id] + StandardFields(data);
    }

    /** `update_contact`: the title when a name is given, then the keys present in the payload. */
    method UpdateContact(db: Database, id: int, data: map<string, Value>, order: seq<string>)
      requires db.Valid() && id in db.posts
      requires forall k :: k in order ==> k in data
      modifies db`posts, db`meta
      ensures db.Valid()
      ensures db.posts == if IsSet(data, "name") then old(db.posts)[id := old(db.posts)[id].(title := TextOf(data["name"]))]
                          else old(db.posts)
      ensures db.meta == old(db.meta)[id := UpdatedContactMeta(old(db.meta)[id], data, order)]
    {
      if IsSet(data, "name") {
        db.UpdatePost(id, db.posts[id].(title := TextOf(data["name"])));
      }
      WriteStandardFields(db, id, data);
      WriteExtraFields(db, id, data, order);
    }

    /**
     * `process_contact_update_webhook`: the contact with the external id is
     * updated when the lookup finds one and created otherwise; the reply
     * carries its id.
     */
    method ProcessContactUpdate(db: Database, payload: map<string, Value>, order: seq<string>) returns (r: RestResult<Reply>)
      requires db.Valid()
      requires DataKeyOrder(payload, order)
      modifies db`posts, db`meta, db`nextPostId
      ensures db.Valid()
      ensures ContactUpdateHandled(old(db.posts), old(db.meta), old(db.nextPostId), db.posts, db.meta, db.nextPostId, payload, order, r)
    {
      if !IsSet(payload, "contact_id") || !IsSet(payload, "data") {
        return Err(RestError("rest_invalid_params", "Missing required fields: contact_id and data.", 400));
      }
      var x := TextOf(payload["contact_id"]);
      var data := Fields(payload["data"]);
      var contact := FindContactByExternalId(db, x);
      var id;
      if contact.Some? {
        id := contact.value;
        UpdateContact(db, id, data, order);
      } else {
        id := CreateContact(db, x, data, order);
      }
      return Ok(ContactSaved("Contact updated successfully.", id));
    }

    /** `handle_n8n_webhook` after authorisation: route on the stored type, then run that handler. */
    method HandleWebhook(db: Database, webhookId: string, payload: Value, order: seq<string>, now: string) returns (r: RestResult<Reply>)
      requires db.Valid()
      requires DataKeyOrder(Fields(payload), order)
      modifies db`posts, db`meta, db`nextPostId, db`events
      ensures db.Valid()
      ensures WebhookRoute(db.GetOption(TypeKey(webhookId), Str(""))).Err? ==>
                r == Err(WebhookRoute(db.GetOption(TypeKey(webhookId), Str(""))).error)
                && db.posts == old(db.posts) && db.meta == old(db.meta) && db.events == old(db.events)
                && db.nextPostId == old(db.nextPostId)
      ensures WebhookRoute(db.GetOption(TypeKey(webhookId), Str(""))) == Ok(CampaignStatusKind) ==>
                db.posts == old(db.posts) && db.nextPostId == old(db.nextPostId) && CampaignStatusHandled(old(db.posts), old(db.meta), old(db.events), db.meta, db.events, Fields(payload), now, r)
      ensures WebhookRoute(db.GetOption(TypeKey(webhookId), Str(""))) == Ok(ContactUpdateKind) ==>
                db.events == old(db.events)
                && ContactUpdateHandled(old(db.posts), old(db.meta), old(db.nextPostId), db.posts, db.meta, db.nextPostId, Fields(payload), order, r)
      ensures WebhookRoute(db.GetOption(TypeKey(webhookId), Str(""))) == Ok(QrCodeKind) ==>
                db.posts == old(db.posts) && db.nextPostId == old(db.nextPostId) && QrCodeHandled(old(db.meta), old(db.events), db.meta, db.events, Fields(payload), now, r)
    {
      var route := WebhookRoute(db.GetOption(TypeKey(webhookId), Str("")));
      if route.Err? {
        return Err(route.error);
      }
      r := Dispatch(db, route.value, Fields(payload), order, now);
      assert db.GetOption(TypeKey(webhookId), Str("")) == old(db.GetOption(TypeKey(webhookId), Str("")));
    }

    /** The `switch` of `handle_n8n_webhook`: the handler of the routed kind runs on the payload. */
    method Dispatch(db: Database, kind: WebhookKind, payload: map<string, Value>, order: seq<string>, now: string) returns (r: RestResult<Reply>)
      requires db.Valid()
      requires DataKeyOrder(payload, order)
      modifies db`posts, db`meta, db`nextPostId, db`events
      ensures db.Valid()
      ensures kind == CampaignStatusKind ==> db.posts == old(db.posts) && db.nextPostId == old(db.nextPostId) && CampaignStatusHandled(old(db.posts), old(db.meta), old(db.events), db.meta, db.events, payload, now, r)
      ensures kind == ContactUpdateKind ==>
                db.events == old(db.events)
                && ContactUpdateHandled(old(db.posts), old(db.meta), old(db.nextPostId), db.posts, db.meta, db.nextPostId, payload, order, r)
      ensures kind == QrCodeKind ==> db.posts == old(db.posts) && db.nextPostId == old(db.nextPostId) && QrCodeHandled(old(db.meta), old(db.events), db.meta, db.events, payload, now, r)
    {
      match kind
      case CampaignStatusKind =>
        r := ProcessCampaignStatus(db, payload, now);
      case ContactUpdateKind =>
        r := ProcessContactUpdate(db, payload, order);
      case QrCodeKind =>
        r := ProcessQrCode(db, payload, now);
    }

    /** `handle_workflow_status`: 404 for an unknown campaign, otherwise the workflow fields and status mapping. */
    method HandleWorkflowStatus(db: Database, w: WorkflowUpdate, now: string) returns (r: RestResult<string>)
      requires db.Valid()
      modifies db`meta
      ensures db.Valid()
      ensures !old(db.HasPostOfType(w.campaignId, CampaignType)) ==>
                r == Err(RestError("rest_not_found", "Campaign not found.", 404)) && db.meta == old(db.meta)
      ensures old(db.HasPostOfType(w.campaignId, CampaignType)) ==>
                r == Ok("Workflow status updated successfully.")
                && db.meta == old(db.meta)[w.campaignId := WorkflowMeta(old(db.meta)[w.campaignId], w, now)]
    {
      var c := w.campaignId;
      if !db.HasPostOfType(c, CampaignType) {
        return Err(RestError("rest_not_found", "Campaign not found.", 404));
      }
      ghost var m0, m := db.meta, db.meta[c];
      db.UpdatePostMeta(c, "workflow_execution_id", Str(w.executionId));
      MetaWriteAt(m0, c, m, "workflow_execution_id", Str(w.executionId));
      m := m["workflow_execution_id" := Str(w.executionId)];
      db.UpdatePostMeta(c, "workflow_status", Str(w.status));
      MetaWriteAt(m0, c, m, "workflow_status", Str(w.status));
      m := m["workflow_status" := Str(w.status)];
      db.UpdatePostMeta(c, "workflow_message", Str(w.message));
      MetaWriteAt(m0, c, m, "workflow_message", Str(w.message));
      m := m["workflow_message" := Str(w.message)];
      db.UpdatePostMeta(c, "workflow_updated_at", Str(now));
      MetaWriteAt(m0, c, m, "workflow_updated_at", Str(now));
      m := m["workflow_updated_at" := Str(now)];
      if w.status == "error" {
        db.UpdatePostMeta(c, "status", Str("failed"));
        MetaWriteAt(m0, c, m, "status", Str("failed"));
        m := m["status" := Str("failed")];
        db.UpdatePostMeta(c, "last_status_message", Str(w.message));
        MetaWriteAt(m0, c, m, "last_status_message", Str(w.message));
      } else if w.status == "success" {
        db.UpdatePostMeta(c, "status", Str("queued"));
        MetaWriteAt(m0, c, m, "status", Str("queued"));
      } else if w.status == "started" {
        db.UpdatePostMeta(c, "status", Str("processing"));
        MetaWriteAt(m0, c, m, "status", Str("processing"));
      }
      return Ok("Workflow status updated successfully.");
    }

    /**
     * `trigger_campaign`: refuses, in order and without writing, when the
     * integration is not configured, the campaign is unknown, or its list or
     * template is empty; otherwise the request's outcome sets the status.
     */
    method TriggerCampaign(db: Database, c: int, outcome: HttpOutcome, now: string) returns (r: Outcome)
      requires db.Valid()
      modifies db`meta
      ensures db.Valid()
      ensures !isConfigured ==>
                r == Outcome(false, "n8n integration is not properly configured.") && db.meta == old(db.meta)
      ensures isConfigured && !old(db.HasPostOfType(c, CampaignType)) ==>
                r == Outcome(false, "Campaign not found.") && db.meta == old(db.meta)
      ensures isConfigured && old(db.HasPostOfType(c, CampaignType))
              && (!Truthy(old(db.GetMeta(c, "list_id"))) || !Truthy(old(db.GetMeta(c, "template_id")))) ==>
                r == Outcome(false, "Campaign has missing list or template.") && db.meta == old(db.meta)
      ensures isConfigured && old(db.HasPostOfType(c, CampaignType))
              && Truthy(old(db.GetMeta(c, "list_id"))) && Truthy(old(db.GetMeta(c, "template_id"))) ==>
                r == TriggerOutcome(outcome) && db.meta == old(db.meta)[c := TriggerMeta(old(db.meta)[c], outcome, now)]
    {
      if !isConfigured {
        return Outcome(false, "n8n integration is not properly configured.");
      }
      if !db.HasPostOfType(c, CampaignType) {
        return Outcome(false, "Campaign not found.");
      }
      var listId := db.GetMeta(c, "list_id");
      var templateId := db.GetMeta(c, "template_id");
      if !Truthy(listId) || !Truthy(templateId) {
        return Outcome(false, "Campaign has missing list or template.");
      }
      ghost var m0, m := db.meta, db.meta[c];
      match outcome
      case TransportError(msg) =>
        db.UpdatePostMeta(c, "status", Str("failed"));
        MetaWriteAt(m0, c, m, "status", Str("failed"));
        m := m["status" := Str("failed")];
        db.UpdatePostMeta(c, "last_status_message", Str(msg));
        MetaWriteAt(m0, c, m, "last_status_message", Str(msg));
        return Outcome(false, "Failed to connect to n8n: " + msg);
      case Response(code, body) =>
        var fields := Fields(body);
        if code != 200 {
          var errorMessage := if IsSet(fields, "message") then fields["message"] else Str("Unknown error");
          db.UpdatePostMeta(c, "status", Str("failed"));
          MetaWriteAt(m0, c, m, "status", Str("failed"));
          m := m["status" := Str("failed")];
          db.UpdatePostMeta(c, "last_status_message", errorMessage);
          MetaWriteAt(m0, c, m, "last_status_message", errorMessage);
          return Outcome(false, "n8n returned an error: " + StringCast(errorMessage));
        }
        db.UpdatePostMeta(c, "status", Str("processing"));
        MetaWriteAt(m0, c, m, "status", Str("processing"));
        m := m["status" := Str("processing")];
        db.UpdatePostMeta(c, "started_at", Str(now));
        MetaWriteAt(m0, c, m, "started_at", Str(now));
        m := m["started_at" := Str(now)];
        if IsSet(fields, "executionId") {
          db.UpdatePostMeta(c, "workflow_execution_id", fields["executionId"]);
          MetaWriteAt(m0, c, m, "workflow_execution_id", fields["executionId"]);
        }
        return Outcome(true, "Campaign triggered successfully.");
    }

    /**
     * `register_webhook`: refuses without writing when not configured;
     * otherwise stores the issued secret and the type under the webhook id.
     */
    method RegisterWebhook(db: Database, webhookId: string, webhookType: string, secret: string) returns (r: Outcome)
      modifies db`options
      ensures !isConfigured ==>
                r == Outcome(false, "n8n integration is not properly configured.") && db.options == old(db.options)
      ensures isConfigured ==>
                r == Outcome(true, "Webhook registered successfully.")
                && db.options == Registered(old(db.options), webhookId, webhookType, secret)
    {
      if !isConfigured {
        return Outcome(false, "n8n integration is not properly configured.");
      }
      db.UpdateOption(SecretKey(webhookId), Str(secret));
      db.UpdateOption(TypeKey(webhookId), Str(webhookType));
      return Outcome(true, "Webhook registered successfully.");
    }
  }
}

=== FILE: php.dfy ===
/**
 * The PHP value semantics the plugin relies on: a loosely typed value,
 * `empty()` and truthiness, `intval`, conversion of a value to text and the
 * loose `==` used by `switch` and `in_array`.
 */
module Php {
  import opened Wrappers

  /** A PHP value as stored in post meta and options or decoded from JSON. */
  datatype Value = Null | Str(s: string) | Int(i: int) | Bool(b: bool) | Arr(entries: map<string, Value>)

  /** `empty($s)` on a string: both "" and "0" are empty. */
  predicate EmptyString(s: string) {
    s == "" || s == "0"
  }

  /** PHP truthiness; `empty($v)` is `!Truthy(v)`. */
  predicate Truthy(v: Value) {
    match v
    case Null => false
    case Str(s) => !EmptyString(s)
    case Int(i) => i != 0
    case Bool(b) => b
    case Arr(m) => m != map[]
  }

  /** `isset($m[$k])`: the key is present and its value is not null. */
  predicate IsSet(m: map<string, Value>, k: string) {
    k in m && m[k] != Null
  }

  /** An upper-case ASCII letter lowered; every other character as it is. */
  function ToLowerChar(ch: char): char {
    if 'A' <= ch <= 'Z' then (ch as int + 32) as char else ch
  }

  predicate IsDigit(c: char) {
    '0' <= c <= '9'
  }

  predicate AllDigits(s: string) {
    forall i :: 0 <= i < |s| ==> IsDigit(s[i])
  }

  function DigitChar(d: nat): (c: char)
    requires d < 10
    ensures IsDigit(c)
  {
    "0123456789"[d]
  }

  /** The longest prefix of `s` made of decimal digits. */
  function LeadingDigits(s: string): (r: string)
    ensures AllDigits(r) && r <= s
    ensures |r| < |s| ==> !IsDigit(s[|r|])
  {
    if s == [] || !IsDigit(s[0]) then [] else [s[0]] + LeadingDigits(s[1..])
  }

  /** The number a string of decimal digits denotes. */
  function DigitsValue(s: string): nat
    requires AllDigits(s)
  {
    if s == [] then 0 else 10 * DigitsValue(s[..|s| - 1]) + (s[|s| - 1] as int - '0' as int)
  }

  /** PHP's white space around a numeric string: space, \t, \n, \v, \f and \r. */
  predicate IsSpace(c: char) {
    c == ' ' || 9 <= c as int <= 13
  }

  /** The longest prefix of `s` made of white space. */
  function LeadingSpaces(s: string): (r: string)
    ensures r <= s && forall i :: 0 <= i < |r| ==> IsSpace(r[i])
    ensures |r| < |s| ==> !IsSpace(s[|r|])
  {
    if s == [] || !IsSpace(s[0]) then [] else [s[0]] + LeadingSpaces(s[1..])
  }

  function Pow10(n: nat): (r: nat)
    ensures r > 0
  {
    if n == 0 then 1 else 10 * Pow10(n - 1)
  }

  /**
   * A number read at the start of a string: its sign, its digits with the
   * decimal point left out, the power of ten they are scaled by, and the text
   * that follows it.
   */
  datatype Scanned = Scanned(negative: bool, digits: string, scale: int, rest: string)

  /**
   * An exponent at the start of `s` (`e` or `E`, an optional sign, at least
   * one digit): its value and the text after it. Without one, 0 and `s`.
   */
  function ScanExponent(s: string): (int, string) {
    if |s| > 0 && (s[0] == 'e' || s[0] == 'E') then
      var t := s[1..];
      var signed := |t| > 0 && (t[0] == '-' || t[0] == '+');
      var u := if signed then t[1..] else t;
      var d := LeadingDigits(u);
      if d == [] then (0, s)
      else (if signed && t[0] == '-' then -(DigitsValue(d) as int) else DigitsValue(d), u[|d|..])
    else (0, s)
  }

  /** How PHP 8 reads a number at the start of a string: white space first, then `ScanSigned`. */
  function ScanNumber(s: string): (r: Option<Scanned>)
    ensures r.Some? ==> AllDigits(r.value.digits)
  {
    ScanSigned(s[|LeadingSpaces(s)|..])
  }

  /** An optional sign, then `ScanDigits`. */
  function ScanSigned(t: string): (r: Option<Scanned>)
    ensures r.Some? ==> AllDigits(r.value.digits)
  {
    var signed := |t| > 0 && (t[0] == '-' || t[0] == '+');
    ScanDigits(signed && t[0] == '-', if signed then t[1..] else t)
  }

  /** The whole digits, then `ScanFraction`. */
  function ScanDigits(negative: bool, u: string): (r: Option<Scanned>)
    ensures r.Some? ==> AllDigits(r.value.digits)
  {
    var whole := LeadingDigits(u);
    ScanFraction(negative, whole, u[|whole|..])
  }

  /**
   * After the whole digits: an optional '.' and fraction digits (at least one
   * digit in all, or there is no number), then an optional exponent.
   */
  function ScanFraction(negative: bool, whole: string, s: string): (r: Option<Scanned>)
    requires AllDigits(whole)
    ensures r.Some? ==> AllDigits(r.value.digits)
  {
    var dot := |s| > 0 && s[0] == '.';
    var fraction := if dot then LeadingDigits(s[1..]) else [];
    var after := if dot then s[1 + |fraction|..] else s;
    if whole == [] && fraction == [] then None
    else
      assert AllDigits(whole + fraction);
      var (e, rest) := ScanExponent(after);
      Some(Scanned(negative, whole + fraction, e - |fraction|, rest))
  }

  const Int64Min: int := -0x8000_0000_0000_0000
  const Int64Max: int := 0x7FFF_FFFF_FFFF_FFFF

  /** A value outside PHP's 64-bit integers capped at the nearer end. */
  function Cap64(i: int): (r: int)
    ensures Int64Min <= r <= Int64Max
    ensures Int64Min <= i <= Int64Max ==> r == i
    ensures i < Int64Min ==> r == Int64Min
    ensures i > Int64Max ==> r == Int64Max
  {
    if i < Int64Min then Int64Min else if i > Int64Max then Int64Max else i
  }

  /**
   * The scanned number truncated toward zero: a positive scale appends zeros,
   * a negative one drops that many trailing digits.
   */
  function Truncated(n: Scanned): int
    requires AllDigits(n.digits)
  {
    var magnitude :=
      if n.scale >= 0 then DigitsValue(n.digits) * Pow10(n.scale)
      else if -n.scale <= |n.digits| then DigitsValue(n.digits[..|n.digits| + n.scale])
      else 0;
    if n.negative then -magnitude else magnitude
  }

  /**
   * `intval($s)`: the number at the start of the string, after white space,
   * fraction and exponent included, truncated toward zero and capped to the
   * 64-bit range. A string that does not start with a number gives 0.
   */
  function IntOfString(s: string): int {
    match ScanNumber(s)
    case None => 0
    case Some(n) => Cap64(Truncated(n))
  }

  /** `is_numeric` on a string: a number with only white space before and after it. */
  predicate NumericString(s: string) {
    match ScanNumber(s)
    case None => false
    case Some(n) => AllSpaces(n.rest)
  }

  predicate AllSpaces(s: string) {
    forall i :: 0 <= i < |s| ==> IsSpace(s[i])
  }

  /** Decimal notation of a natural number, without leading zeros. */
  function NatString(n: nat): (r: string)
    ensures |r| > 0 && AllDigits(r)
  {
    if n < 10 then [DigitChar(n)] else NatString(n / 10) + [DigitChar(n % 10)]
  }

  /** `(string)$i`. */
  function DecimalString(i: int): string {
    if i < 0 then "-" + NatString(-i) else NatString(i)
  }

  lemma {:induction false} NatStringValue(n: nat)
    ensures DigitsValue(NatString(n)) == n
  {
    if n >= 10 {
      var r := NatString(n);
      assert r[..|r| - 1] == NatString(n / 10);
      NatStringValue(n / 10);
    }
  }

  /** The leading digits of digits followed by a non-digit are those digits. */
  lemma {:induction false} LeadingDigitsOfDigitsThen(d: string, rest: string)
    requires AllDigits(d)
    requires rest == [] || !IsDigit(rest[0])
    ensures LeadingDigits(d + rest) == d
  {
    if d != [] {
      assert (d + rest)[1..] == d[1..] + rest;
      LeadingDigitsOfDigitsThen(d[1..], rest);
    }
  }

  /** Digits, then text that does not continue them, read as those digits and that text. */
  lemma {:induction false} ScanOfDigits(w: string, rest: string)
    requires w != [] && AllDigits(w)
    requires rest == [] || !IsDigit(rest[0])
    ensures ScanNumber(w + rest) == ScanFraction(false, w, rest)
  {
    var s := w + rest;
    assert s[0] == w[0];
    assert LeadingSpaces(s) == [];
    LeadingDigitsOfDigitsThen(w, rest);
    assert s[|w|..] == rest;
  }

  /** `intval` reads back what `(string)` wrote, for every PHP integer, and the text is numeric. */
  lemma {:induction false} IntOfDecimalString(i: int)
    requires Int64Min <= i <= Int64Max
    ensures IntOfString(DecimalString(i)) == i
    ensures NumericString(DecimalString(i))
  {
    SpacesAfterDecimal(i, []);
    assert DecimalString(i) + [] == DecimalString(i);
  }

  /** White space after the decimal text of an integer changes neither what `intval` reads nor whether it is numeric. */
  lemma {:induction false} SpacesAfterDecimal(i: int, sp: string)
    requires Int64Min <= i <= Int64Max && AllSpaces(sp)
    ensures IntOfString(DecimalString(i) + sp) == i
    ensures NumericString(DecimalString(i) + sp)
  {
    var n: nat := if i < 0 then -i else i;
    var r := NatString(n);
    NatStringValue(n);
    DigitsThenSpaces(i < 0, r, sp);
    if i < 0 {
      MinusDigits(r, sp);
    } else {
      ScanOfDigits(r, sp);
    }
    assert r + [] == r;
    NumericOfScan(DecimalString(i) + sp, Scanned(i < 0, r, 0, sp));
  }

  /** The decimal text of an integer with white space around it: numeric, and `intval` reads the integer. */
  lemma {:induction false} PaddedDecimal(i: int, a: string, b: string)
    requires Int64Min <= i <= Int64Max && AllSpaces(a) && AllSpaces(b)
    ensures IsNumeric(Str(a + (DecimalString(i) + b))) && IntVal(Str(a + (DecimalString(i) + b))) == i
  {
    SpacesAfterDecimal(i, b);
    SpacesBeforeNumber(a, DecimalString(i) + b);
  }

  /** Digits followed by white space or nothing: no fraction and no exponent. */
  lemma {:induction false} DigitsThenSpaces(negative: bool, w: string, sp: string)
    requires w != [] && AllDigits(w)
    requires sp == [] || IsSpace(sp[0])
    ensures ScanFraction(negative, w, sp) == Some(Scanned(negative, w, 0, sp))
  {
    assert w + [] == w;
    assert ScanExponent(sp) == (0, sp);
  }

  /** A minus sign, digits, and then text that does not continue them. */
  lemma {:induction false} MinusDigits(w: string, rest: string)
    requires w != [] && AllDigits(w)
    requires rest == [] || !IsDigit(rest[0])
    ensures ScanNumber("-" + w + rest) == ScanFraction(true, w, rest)
  {
    var s := "-" + w + rest;
    assert LeadingSpaces(s) == [];
    assert s[1..] == w + rest;
    LeadingDigitsOfDigitsThen(w, rest);
    assert (w + rest)[|w|..] == rest;
    assert ScanSigned(s) == ScanDigits(true, w + rest);
  }

  /** White space before a string changes neither what `intval` reads nor whether it is numeric. */
  lemma {:induction false} SpacesBeforeNumber(sp: string, s: string)
    requires AllSpaces(sp)
    ensures IntOfString(sp + s) == IntOfString(s)
    ensures NumericString(sp + s) == NumericString(s)
  {
    var l := LeadingSpaces(s);
    LeadingSpacesAppend(sp, s);
    assert (sp + s)[|sp + l|..] == s[|l|..];
    assert ScanNumber(sp + s) == ScanNumber(s);
  }

  lemma {:induction false} LeadingSpacesAppend(sp: string, s: string)
    requires AllSpaces(sp)
    ensures LeadingSpaces(sp + s) == sp + LeadingSpaces(s)
  {
    if sp == [] {
      assert sp + s == s;
    } else {
      assert (sp + s)[1..] == sp[1..] + s;
      LeadingSpacesAppend(sp[1..], s);
      assert sp == [sp[0]] + sp[1..];
    }
  }

  /**
   * Digits, a fraction and then white space: numeric, and `intval` drops the
   * fraction.
   */
  lemma {:induction false} FractionIsTruncated(w: string, f: string, sp: string)
    requires w != [] && AllDigits(w) && DigitsValue(w) <= Int64Max
    requires AllDigits(f) && AllSpaces(sp)
    ensures NumericString(w + (['.'] + (f + sp)))
    ensures IntOfString(w + (['.'] + (f + sp))) == DigitsValue(w)
  {
    FractionScanned(w, f, sp);
    NumericOfScan(w + (['.'] + (f + sp)), Scanned(false, w + f, -|f|, sp));
    FractionDropped(w, f, sp);
  }

  /** How digits, a dot, fraction digits and then white space or nothing are read. */
  lemma {:induction false} FractionScanned(w: string, f: string, sp: string)
    requires w != [] && AllDigits(w) && AllDigits(f)
    requires sp == [] || IsSpace(sp[0])
    ensures ScanNumber(w + (['.'] + (f + sp))) == Some(Scanned(false, w + f, -|f|, sp))
  {
    var t := ['.'] + (f + sp);
    ScanOfDigits(w, t);
    FractionAfter(w, t, f, sp);
  }

  /** A string whose number is followed by white space only is numeric, and `intval` truncates that number. */
  lemma {:induction false} NumericOfScan(s: string, n: Scanned)
    requires ScanNumber(s) == Some(n) && AllSpaces(n.rest)
    ensures NumericString(s) && IntOfString(s) == Cap64(Truncated(n))
  {
  }

  /** Digits `w` followed by fraction digits `f`, scaled down by `|f|`, truncate to `w`. */
  lemma {:induction false} FractionDropped(w: string, f: string, sp: string)
    requires AllDigits(w) && AllDigits(f)
    ensures Truncated(Scanned(false, w + f, -|f|, sp)) == DigitsValue(w)
  {
    var n := Scanned(false, w + f, -|f|, sp);
    if f == [] {
      assert n.digits == w;
    } else {
      assert n.digits[..|n.digits| + n.scale] == w;
    }
  }

  /** After whole digits `w`, a dot, digits `f` and then white space or nothing. */
  lemma {:induction false} FractionAfter(w: string, t: string, f: string, sp: string)
    requires AllDigits(w) && AllDigits(f) && w + f != []
    requires |t| > 0 && t[0] == '.' && t[1..] == f + sp
    requires sp == [] || IsSpace(sp[0])
    ensures ScanFraction(false, w, t) == Some(Scanned(false, w + f, -|f|, sp))
  {
    LeadingDigitsOfDigitsThen(f, sp);
    assert LeadingDigits(t[1..]) == f;
    assert t[1 + |f|..] == sp;
    assert ScanExponent(sp) == (0, sp);
  }

  /** Digits and an exponent: numeric, and `intval` scales the digits (capped to 64 bits). */
  lemma {:induction false} ExponentIsApplied(w: string, x: string)
    requires w != [] && AllDigits(w) && x != [] && AllDigits(x)
    ensures NumericString(w + ("e" + x))
    ensures IntOfString(w + ("e" + x)) == Cap64(DigitsValue(w) * Pow10(DigitsValue(x)))
  {
    ExponentScanned(w, x);
    NumericOfScan(w + ("e" + x), Scanned(false, w, DigitsValue(x), []));
  }

  /** How digits, an `e` and exponent digits are read. */
  lemma {:induction false} ExponentScanned(w: string, x: string)
    requires w != [] && AllDigits(w) && x != [] && AllDigits(x)
    ensures ScanNumber(w + ("e" + x)) == Some(Scanned(false, w, DigitsValue(x), []))
  {
    var t := "e" + x;
    ScanOfDigits(w, t);
    ExponentAfter(t, x);
    assert w + [] == w;
  }

  /** An `e` followed by digits only is an exponent with nothing after it. */
  lemma {:induction false} ExponentAfter(t: string, x: string)
    requires x != [] && AllDigits(x)
    requires |t| > 0 && t[0] == 'e' && t[1..] == x
    ensures ScanExponent(t) == (DigitsValue(x) as int, [])
  {
    LeadingDigitsOfDigitsThen(x, []);
    assert x + [] == x;
  }

  /** Text after digits that cannot continue a number is ignored by `intval`, and the string is not numeric. */
  lemma {:induction false} TrailingTextIsIgnored(w: string, rest: string)
    requires w != [] && AllDigits(w) && DigitsValue(w) <= Int64Max
    requires rest != [] && !IsDigit(rest[0]) && !IsSpace(rest[0]) && rest[0] !in ".eE"
    ensures !NumericString(w + rest)
    ensures IntOfString(w + rest) == DigitsValue(w)
  {
    ScanOfDigits(w, rest);
    assert w + [] == w;
  }

  /** `intval($v)` on any value. */
  function IntVal(v: Value): int {
    match v
    case Null => 0
    case Str(s) => IntOfString(s)
    case Int(i) => i
    case Bool(b) => if b then 1 else 0
    case Arr(m) => if m == map[] then 0 else 1
  }

  /**
   * `sanitize_text_field($v)` with the sanitising itself taken as the identity:
   * scalars become their string form and an array becomes ''.
   */
  function TextOf(v: Value): string {
    match v
    case Null => ""
    case Str(s) => s
    case Int(i) => DecimalString(i)
    case Bool(b) => if b then "1" else ""
    case Arr(_) => ""
  }

  /** `(string)$v` as concatenation and hashing perform it; an array becomes "Array". */
  function StringCast(v: Value): string {
    match v
    case Arr(_) => "Array"
    case _ => TextOf(v)
  }

  /** `is_numeric($v)`: an integer, or a numeric string. */
  predicate IsNumeric(v: Value) {
    match v
    case Int(_) => true
    case Str(s) => NumericString(s)
    case _ => false
  }

  /** Loose comparison `$v == $s` with a non-numeric string literal `$s` (PHP 8 rules). */
  predicate LooseEqualsLiteral(v: Value, s: string) {
    match v
    case Null => s == ""
    case Str(t) => t == s
    case Int(i) => DecimalString(i) == s
    case Bool(b) => b == !EmptyString(s)
    case Arr(_) => false
  }
}

=== FILE: post_types.dfy ===
/**
 * The multi-user isolation filter on WordPress queries: outside the
 * administrator's admin screens, a main query for one of the plugin's four
 * post types is restricted to the posts of the logged-in user.
 */
module PostTypes {
  import opened Php
  import opened Wp

  /** The plugin's post types, as the filter lists them. */
  const PluginTypes: seq<string> := [ListType, ContactType, TemplateType, CampaignType]

  /**
   * A `WP_Query` as the filter sees it: whether it is the main query, the
   * request it was built from, and its query vars, which `set` updates.
   */
  class Query {
    const isMain: bool
    const request: map<string, Value>
    var vars: map<string, Value>

    constructor (isMain: bool, request: map<string, Value>, vars: map<string, Value>)
      ensures this.isMain == isMain && this.request == request && this.vars == vars
    {
      this.isMain, this.request, this.vars := isMain, request, vars;
    }

    /** `$query->set($key, $value)`. */
    method Set(key: string, v: Value)
      modifies this`vars
      ensures vars == old(vars)[key := v]
    {
      vars := vars[key := v];
    }
  }

  /** `in_array($v, $types)` with loose comparison; the types are non-numeric strings. */
  predicate InArrayLoose(v: Value, types: seq<string>) {
    exists i :: 0 <= i < |types| && LooseEqualsLiteral(v, types[i])
  }

  /** Whether the filter restricts the query to an author. */
  predicate Restricts(isMain: bool, request: map<string, Value>, inAdmin: bool, isAdministrator: bool, user: int) {
    && !(inAdmin && isAdministrator)
    && isMain && IsSet(request, "post_type") && InArrayLoose(request["post_type"], PluginTypes)
    && user != 0
  }

  /**
   * `filter_user_posts`: when the filter restricts the query, the `author`
   * var becomes the current user; in every other case, and for every other
   * var, the query is left as it was.
   */
  method FilterUserPosts(q: Query, inAdmin: bool, isAdministrator: bool, user: int)
    modifies q`vars
    ensures Restricts(q.isMain, q.request, inAdmin, isAdministrator, user) ==> q.vars == old(q.vars)["author" := Int(user)]
    ensures !Restricts(q.isMain, q.request, inAdmin, isAdministrator, user) ==> q.vars == old(q.vars)
  {
    if inAdmin && isAdministrator {
      return;
    }
    if q.isMain && IsSet(q.request, "post_type") && InArrayLoose(q.request["post_type"], PluginTypes) {
      if user != 0 {
        q.Set("author", Int(user));
      }
    }
  }

  /**
   * The filter applies to exactly the plugin's four types: a request for one
   * of them (as a string) is restricted for a logged-in user outside the
   * administrator's admin screens, and a request for any other string type,
   * such as 'post' or 'page', never is.
   */
  lemma RestrictsOnlyPluginTypes(t: string, request: map<string, Value>, inAdmin: bool, isAdministrator: bool, user: int)
    requires "post_type" in request && request["post_type"] == Str(t)
    ensures Restricts(true, request, inAdmin, isAdministrator, user) <==>
              t in PluginTypes && !(inAdmin && isAdministrator) && user != 0
    ensures t !in PluginTypes ==> !Restricts(true, request, inAdmin, isAdministrator, user)
    ensures !Restricts(false, request, inAdmin, isAdministrator, user)
    ensures !Restricts(true, request, true, true, user)
    ensures !Restricts(true, request, inAdmin, isAdministrator, 0)
  {
    if t in PluginTypes {
      var i :| 0 <= i < |PluginTypes| && PluginTypes[i] == t;
      assert LooseEqualsLiteral(Str(t), PluginTypes[i]);
    }
  }
}

=== FILE: qr.dfy ===
/**
 * The WhatsApp QR-code page: phone-number normalisation and validation, the
 * wa.me link, and the owner-checked rows of the QR-code table. URL encoding
 * is a parameter `encode`.
 */
module Qr {
  import opened Php
  import opened Wrappers
  import opened Wp

  predicate PhoneChar(c: char) {
    IsDigit(c) || c == '+'
  }

  /** The phone number with every character other than a digit or '+' removed. */
  function CleanPhone(s: string): (r: string)
    ensures |r| <= |s|
    ensures forall i :: 0 <= i < |r| ==> PhoneChar(r[i])
  {
    if s == [] then []
    else (if PhoneChar(s[0]) then [s[0]] else []) + CleanPhone(s[1..])
  }

  /**
   * CleanPhone works character by character: it distributes over
   * concatenation, and a single character is kept exactly when it is a digit
   * or '+'. Together these determine CleanPhone on every string.
   */
  lemma {:induction false} CleanPhoneByCharacter(a: string, b: string, c: char)
    ensures CleanPhone(a + b) == CleanPhone(a) + CleanPhone(b)
    ensures CleanPhone([c]) == (if PhoneChar(c) then [c] else [])
  {
    if a != [] {
      assert (a + b)[0] == a[0];
      assert (a + b)[1..] == a[1..] + b;
      CleanPhoneByCharacter(a[1..], b, c);
    } else {
      assert a + b == b;
    }
    assert [c][1..] == [];
  }

  /** A string already made of digits and '+' is left as it is. */
  lemma {:induction false} CleanPhoneOfClean(s: string)
    requires forall i :: 0 <= i < |s| ==> PhoneChar(s[i])
    ensures CleanPhone(s) == s
  {
    if s != [] {
      CleanPhoneOfClean(s[1..]);
    }
  }

  /** Cleaning twice is cleaning once. */
  lemma CleanPhoneIdempotent(s: string)
    ensures CleanPhone(CleanPhone(s)) == CleanPhone(s)
  {
    CleanPhoneOfClean(CleanPhone(s));
  }

  /** The accepted shape: '+' followed by 10 to 15 digits. */
  predicate WhatsAppNumber(p: string) {
    11 <= |p| <= 16 && p[0] == '+' && AllDigits(p[1..])
  }

  /** `validate_phone_number`: the cleaned number when it has the accepted shape, `None` (PHP's false) otherwise. */
  function ValidatePhoneNumber(phone: string): (r: Option<string>)
    ensures r.Some? <==> WhatsAppNumber(CleanPhone(phone))
    ensures r.Some? ==> r.value == CleanPhone(phone)
  {
    var cleaned := CleanPhone(phone);
    if WhatsAppNumber(cleaned) then Some(cleaned) else None
  }

  /**
   * An accepted number is 11 to 16 characters, a '+' and then digits only,
   * so validating it again accepts it unchanged.
   */
  lemma ValidatedNumberIsStable(phone: string)
    requires ValidatePhoneNumber(phone).Some?
    ensures var p := ValidatePhoneNumber(phone).value;
            && 11 <= |p| <= 16 && p[0] == '+' && AllDigits(p[1..])
            && ValidatePhoneNumber(p) == Some(p)
  {
    var p := ValidatePhoneNumber(phone).value;
    CleanPhoneIdempotent(phone);
  }

  /** Separators and letters around the digits do not change the outcome: only the cleaned form counts. */
  lemma ValidationSeesOnlyCleanedForm(a: string, b: string)
    requires CleanPhone(a) == CleanPhone(b)
    ensures ValidatePhoneNumber(a) == ValidatePhoneNumber(b)
  {
  }

  const WaPrefix := "https://wa.me/"

  /** The wa.me link: the number without its first character ('+'), then the encoded message when it is not empty. */
  function WhatsAppUrl(phone: string, message: string, encode: string -> string): (r: string)
    ensures |r| >= |WaPrefix| && r[..|WaPrefix|] == WaPrefix
  {
    WaPrefix + (if |phone| > 0 then phone[1..] else "")
    + (if !EmptyString(message) then "?text=" + encode(message) else "")
  }

  /** The number a wa.me link names: the digits right after the prefix. */
  function NumberOfUrl(url: string): string {
    if |url| >= |WaPrefix| then LeadingDigits(url[|WaPrefix|..]) else ""
  }

  /**
   * The link of an accepted number names exactly that number (after the
   * '+'), whatever the message, and carries a `?text=` part exactly when the
   * message is not empty.
   */
  lemma WhatsAppUrlNamesNumber(phone: string, message: string, encode: string -> string)
    requires WhatsAppNumber(phone)
    ensures "+" + NumberOfUrl(WhatsAppUrl(phone, message, encode)) == phone
    ensures var url := WhatsAppUrl(phone, message, encode);
            |url| > |WaPrefix| + |phone| - 1 <==> !EmptyString(message)
  {
    var url := WhatsAppUrl(phone, message, encode);
    var rest := if !EmptyString(message) then "?text=" + encode(message) else "";
    assert url[|WaPrefix|..] == phone[1..] + rest;
    LeadingDigitsOfDigitsThen(phone[1..], rest);
    assert phone == [phone[0]] + phone[1..];
  }

  /** What the QR form handler reported. */
  datatype Notice = NoRequest | InvalidPhone | Generated(id: int)

  function Param(params: map<string, Value>, key: string): Value {
    if key in params then params[key] else Null
  }

  /**
   * The QR form handler: an invalid phone number gives the error notice and
   * inserts nothing; a valid one inserts a row with the next id, owned by
   * the current user, holding the cleaned number, the message and the link.
   */
  method GenerateQrCode(db: Database, post: map<string, Value>, nonceValid: bool, user: int, now: string,
                        encode: string -> string) returns (r: Notice)
    requires db.Valid()
    modifies db`qrCodes, db`nextQrId
    ensures db.Valid()
    ensures !(IsSet(post, "generate_qr") && IsSet(post, "qr_nonce") && nonceValid) ==>
              r == NoRequest && db.qrCodes == old(db.qrCodes)
    ensures IsSet(post, "generate_qr") && IsSet(post, "qr_nonce") && nonceValid ==>
              var phone := if IsSet(post, "phone_number") then TextOf(post["phone_number"]) else "";
              var message := if IsSet(post, "message") then TextOf(post["message"]) else "";
              && (ValidatePhoneNumber(phone).None? ==> r == InvalidPhone && db.qrCodes == old(db.qrCodes))
              && (ValidatePhoneNumber(phone).Some? ==>
                    var p := ValidatePhoneNumber(phone).value;
                    && r == Generated(old(db.nextQrId))
                    && db.qrCodes == old(db.qrCodes) + [QrRow(old(db.nextQrId), user, p, message, WhatsAppUrl(p, message, encode), now)])
  {
    if !(IsSet(post, "generate_qr") && IsSet(post, "qr_nonce") && nonceValid) {
      return NoRequest;
    }
    var phone := if IsSet(post, "phone_number") then TextOf(post["phone_number"]) else "";
    var message := if IsSet(post, "message") then TextOf(post["message"]) else "";
    var formatted := ValidatePhoneNumber(phone);
    if formatted.None? {
      return InvalidPhone;
    }
    var url := WhatsAppUrl(formatted.value, message, encode);
    var id := db.nextQrId;
    db.qrCodes := db.qrCodes + [QrRow(id, user, formatted.value, message, url, now)];
    db.nextQrId := db.nextQrId + 1;
    return Generated(id);
  }

  /** The rows left after deleting by id. */
  function RowsWithout(rows: seq<QrRow>, id: int): (r: seq<QrRow>)
    ensures forall x :: x in r <==> x in rows && x.id != id
  {
    if rows == [] then []
    else
      var init := rows[..|rows| - 1];
      var last := rows[|rows| - 1];
      assert rows == init + [last];
      RowsWithout(init, id) + (if last.id != id then [last] else [])
  }

  /** The ownership check's query: a row with this id belonging to the user. */
  predicate OwnsQrCode(rows: seq<QrRow>, id: int, user: int) {
    exists i :: 0 <= i < |rows| && rows[i].id == id && rows[i].userId == user
  }

  /** Whether the delete link was followed with its parameters and a nonce that verified. */
  predicate DeleteRequested(get: map<string, Value>, nonceValid: bool) {
    IsSet(get, "action") && get["action"] == Str("delete_qr") && IsSet(get, "qr_id") && IsSet(get, "_wpnonce") && nonceValid
  }

  /** Row ids strictly increase along the table, as auto-increment ids do. */
  predicate IdsIncrease(rows: seq<QrRow>) {
    forall i, j :: 0 <= i < j < |rows| ==> rows[i].id < rows[j].id
  }

  /** Deleting by an id no row has leaves the table as it is. */
  lemma {:induction false} RowsWithoutAbsent(rows: seq<QrRow>, id: int)
    requires forall i :: 0 <= i < |rows| ==> rows[i].id != id
    ensures RowsWithout(rows, id) == rows
  {
    if rows != [] {
      var init := rows[..|rows| - 1];
      assert rows == init + [rows[|rows| - 1]];
      RowsWithoutAbsent(init, id);
    }
  }

  /** Deleting by id from a table with increasing ids keeps them increasing. */
  lemma {:induction false} RowsWithoutIncreasing(rows: seq<QrRow>, id: int)
    requires IdsIncrease(rows)
    ensures IdsIncrease(RowsWithout(rows, id))
  {
    if rows != [] {
      var init := rows[..|rows| - 1];
      var last := rows[|rows| - 1];
      assert rows == init + [last];
      RowsWithoutIncreasing(init, id);
      var r0 := RowsWithout(init, id);
      forall x | x in r0
        ensures x.id < last.id
      {
        var k :| 0 <= k < |init| && init[k] == x;
        assert rows[k] == x;
      }
      if last.id != id {
        assert RowsWithout(rows, id) == r0 + [last];
        AppendIncreasing(r0, last);
      } else {
        assert RowsWithout(rows, id) == r0 + [];
        assert r0 + [] == r0;
      }
    }
  }

  /** A row whose id exceeds every id of an increasing table can be appended to it. */
  lemma AppendIncreasing(rows: seq<QrRow>, last: QrRow)
    requires IdsIncrease(rows)
    requires forall x :: x in rows ==> x.id < last.id
    ensures IdsIncrease(rows + [last])
  {
    var r := rows + [last];
    forall i, j | 0 <= i < j < |r|
      ensures r[i].id < r[j].id
    {
      assert r[i] == rows[i] && rows[i] in rows;
      if j < |rows| {
        assert r[j] == rows[j];
      }
    }
  }

  /** With increasing (so distinct) ids, deleting an id some row has removes exactly one row. */
  lemma {:induction false} RowsWithoutPresent(rows: seq<QrRow>, id: int)
    requires IdsIncrease(rows)
    requires exists i :: 0 <= i < |rows| && rows[i].id == id
    ensures |RowsWithout(rows, id)| == |rows| - 1
  {
    var init := rows[..|rows| - 1];
    var last := rows[|rows| - 1];
    assert rows == init + [last];
    if last.id == id {
      RowsWithoutAbsent(init, id);
    } else {
      var i :| 0 <= i < |rows| && rows[i].id == id;
      assert init[i].id == id;
      RowsWithoutPresent(init, id);
    }
  }

  /**
   * Deleting a row the user owns from a well-formed table keeps it
   * well-formed, removes one row, and every row it removes is the user's.
   */
  lemma DeleteOwnedRow(rows: seq<QrRow>, id: int, user: int, nextQrId: int)
    requires QrRowsValid(rows, nextQrId) && OwnsQrCode(rows, id, user)
    ensures QrRowsValid(RowsWithout(rows, id), nextQrId)
    ensures |RowsWithout(rows, id)| == |rows| - 1
    ensures forall x :: x in rows && x !in RowsWithout(rows, id) ==> x.userId == user
  {
    var rest := RowsWithout(rows, id);
    RowsWithoutIncreasing(rows, id);
    RowsWithoutPresent(rows, id);
    forall i | 0 <= i < |rest|
      ensures 0 < rest[i].id < nextQrId
    {
      assert rest[i] in rows;
    }
    var o :| 0 <= o < |rows| && rows[o].id == id && rows[o].userId == user;
    forall x | x in rows && x !in rest
      ensures x.userId == user
    {
      var k :| 0 <= k < |rows| && rows[k] == x;
      assert x.id == id;
      assert k == o;
    }
  }

  /**
   * The QR delete handler: only a row of the current user is removed, and
   * only that row; otherwise the table is unchanged.
   */
  method DeleteQrCode(db: Database, get: map<string, Value>, nonceValid: bool, user: int) returns (deleted: bool)
    requires db.Valid()
    modifies db`qrCodes
    ensures db.Valid()
    ensures deleted <==> DeleteRequested(get, nonceValid) && OwnsQrCode(old(db.qrCodes), IntVal(get["qr_id"]), user)
    ensures !deleted ==> db.qrCodes == old(db.qrCodes)
    ensures deleted ==> db.qrCodes == RowsWithout(old(db.qrCodes), IntVal(get["qr_id"]))
    ensures deleted ==> |db.qrCodes| == |old(db.qrCodes)| - 1
    ensures forall x :: x in old(db.qrCodes) && x !in db.qrCodes ==> x.userId == user
  {
    if !DeleteRequested(get, nonceValid) {
      return false;
    }
    var id := IntVal(get["qr_id"]);
    if !OwnsQrCode(db.qrCodes, id, user) {
      return false;
    }
    DeleteOwnedRow(db.qrCodes, id, user, db.nextQrId);
    db.qrCodes := RowsWithout(db.qrCodes, id);
    return true;
  }
}

=== FILE: rest.dfy ===
/**
 * What the REST endpoints return, and the shared-key permission check that
 * guards the campaign endpoints and the workflow-status endpoint.
 */
module Rest {
  import opened Php
  import opened Wrappers

  /** A `WP_Error` with its code, message and HTTP status. */
  datatype RestError = RestError(code: string, message: string, status: int)

  /** A REST callback's outcome: a 200 response carrying a value, or an error. */
  datatype RestResult<+T> = Ok(value: T) | Err(error: RestError)

  const ApiKeyOption := "wp_marketing_api_key"

  /**
   * The `permission_callback` of the API-key routes. `header` is the first
   * `X-API-Key` header value, `stored` what `get_option` returns for the key.
   * Access is granted exactly when the header is present, not empty in PHP's
   * sense, and identical (`!==` is strict) to the stored string; an empty
   * stored key therefore rejects every request.
   */
  function ValidateApiKey(header: Option<string>, stored: Value): (r: RestResult<()>)
    ensures r.Ok? <==> header.Some? && !EmptyString(header.value) && stored == Str(header.value)
    ensures r.Err? ==> r.error.status == 403 && r.error.code == "rest_forbidden"
    ensures !Truthy(stored) ==> r.Err?
  {
    if header.None? || EmptyString(header.value) then
      Err(RestError("rest_forbidden", "API key is required.", 403))
    else if !Truthy(stored) || stored != Str(header.value) then
      Err(RestError("rest_forbidden", "Invalid API key.", 403))
    else
      Ok(())
  }
}

=== FILE: templates.dfy ===
/**
 * The message-templates admin page: saving a template, the type shown for
 * it, the `{{name}}` placeholders it uses, and the editor's two client-side
 * helpers (inserting a variable at the cursor and the sample preview).
 *
 * Placeholders are what the pattern `\{\{([^}]+)\}\}` matches, scanning left
 * to right: two opening braces, the longest run of characters other than
 * '}' (at least one), then two closing braces. A text is split into
 * `Segment`s accordingly, and every replacement the page performs is a map
 * over those segments.
 */
module Templates {
  import opened Php
  import opened Wrappers
  import opened Wp

  // ---------------------------------------------------------------- saving

  /** What the save handler did. */
  datatype SaveOutcome =
    | NotSubmitted
    | Refused
    | TitleEmpty
    | ContentEmpty
    | TemplateUpdated(id: int)
    | TemplateCreated(id: int)

  function Param(params: map<string, Value>, key: string): Value {
    if key in params then params[key] else Null
  }

  /** `template_id` from the query string, 0 when absent. */
  function TemplateIdParam(get: map<string, Value>): int {
    if IsSet(get, "template_id") then IntVal(get["template_id"]) else 0
  }

  /**
   * The save handler. Without the submit field nothing happens, and a nonce
   * that does not verify stops the request. An empty title is reported
   * first, then an empty content; neither writes anything. Otherwise a
   * positive `template_id` updates that post (WordPress ignores an unknown
   * id) and its `template_type`, and any other id inserts a new template
   * owned by the current user with that type.
   */
  method SaveTemplate(db: Database, get: map<string, Value>, post: map<string, Value>, nonceValid: bool, user: int)
    returns (r: SaveOutcome)
    requires db.Valid()
    modifies db`posts, db`meta, db`nextPostId
    ensures db.Valid()
    ensures !IsSet(post, "wp_marketing_template_submit") ==> r == NotSubmitted
    ensures IsSet(post, "wp_marketing_template_submit") && !nonceValid ==> r == Refused
    ensures IsSet(post, "wp_marketing_template_submit") && nonceValid ==>
              var title := TextOf(Param(post, "template_title"));
              var content := TextOf(Param(post, "template_content"));
              && (EmptyString(title) <==> r == TitleEmpty)
              && (!EmptyString(title) && EmptyString(content) <==> r == ContentEmpty)
    ensures r.NotSubmitted? || r.Refused? || r.TitleEmpty? || r.ContentEmpty? ==>
              db.posts == old(db.posts) && db.meta == old(db.meta) && db.nextPostId == old(db.nextPostId)
    ensures r.TemplateUpdated? || r.TemplateCreated? ==>
              var p := Post(TemplateType, TextOf(Param(post, "template_title")), TextOf(Param(post, "template_content")), user);
              var kind := Str(TextOf(Param(post, "template_type")));
              && (r.TemplateUpdated? <==> TemplateIdParam(get) > 0)
              && (r.TemplateUpdated? ==>
                    && r.id == TemplateIdParam(get)
                    && db.posts == (if r.id in old(db.posts) then old(db.posts)[r.id := p] else old(db.posts))
                    && db.meta == MetaWrite(old(db.meta), r.id, "template_type", kind))
              && (r.TemplateCreated? ==>
                    && r.id == old(db.nextPostId) && r.id !in old(db.posts)
                    && db.posts == old(db.posts)[r.id := p]
                    && db.meta == old(db.meta)[r.id := MetaIn(old(db.meta), r.id)["template_type" := kind]])
  {
    if !IsSet(post, "wp_marketing_template_submit") {
      return NotSubmitted;
    }
    if !nonceValid {
      return Refused;
    }
    var title := TextOf(Param(post, "template_title"));
    var content := TextOf(Param(post, "template_content"));
    var kind := Str(TextOf(Param(post, "template_type")));
    if EmptyString(title) {
      return TitleEmpty;
    } else if EmptyString(content) {
      return ContentEmpty;
    }
    var p := Post(TemplateType, title, content, user);
    var id := TemplateIdParam(get);
    if id > 0 {
      db.UpdatePost(id, p);
      db.UpdatePostMeta(id, "template_type", kind);
      return TemplateUpdated(id);
    }
    id := db.InsertPost(p);
    db.UpdatePostMeta(id, "template_type", kind);
    return TemplateCreated(id);
  }

  // ---------------------------------------------------------------- types

  /** The editor's type: the stored meta, or 'text' when it is empty. */
  function TemplateTypeOf(stored: Value): (r: string)
    ensures !Truthy(stored) ==> r == "text"
    ensures Truthy(stored) ==> r == TextOf(stored)
  {
    if Truthy(stored) then TextOf(stored) else "text"
  }

  /** The type column of the templates list: the `switch` over the stored type, 'text' when empty. */
  function TypeLabel(stored: Value): string {
    var t := if Truthy(stored) then stored else Str("text");
    if LooseEqualsLiteral(t, "text") then "Text"
    else if LooseEqualsLiteral(t, "image") then "Image"
    else if LooseEqualsLiteral(t, "document") then "Document"
    else "Text"
  }

  /**
   * The list shows one of three labels. A stored 'image' or 'document' is
   * shown as such, and every other stored type, including none, is shown as
   * Text. For a stored string the label agrees with the type the editor
   * preselects.
   */
  lemma TypeLabelCases(stored: Value)
    ensures TypeLabel(stored) in {"Text", "Image", "Document"}
    ensures stored == Str("image") ==> TypeLabel(stored) == "Image"
    ensures stored == Str("document") ==> TypeLabel(stored) == "Document"
    ensures !Truthy(stored) ==> TypeLabel(stored) == "Text"
    ensures stored.Str? ==>
              (TypeLabel(stored) == "Image" <==> TemplateTypeOf(stored) == "image")
              && (TypeLabel(stored) == "Document" <==> TemplateTypeOf(stored) == "document")
  {
  }

  // ---------------------------------------------------------------- placeholders

  /** A captured name: at least one character and no '}'. */
  predicate ValidName(n: string) {
    |n| > 0 && forall i :: 0 <= i < |n| ==> n[i] != '}'
  }

  /** `{{name}}`. */
  function Braced(n: string): string {
    "{{" + n + "}}"
  }

  /** A piece of a text: one character that is not part of a match, or a matched placeholder. */
  datatype Segment = Char(c: char) | Placeholder(name: string)

  /** The length of the run of characters other than '}' that starts `s`. */
  function RunLength(s: string): (n: nat)
    ensures n <= |s|
    ensures forall i :: 0 <= i < n ==> s[i] != '}'
    ensures n < |s| ==> s[n] == '}'
  {
    if s == [] || s[0] == '}' then 0 else 1 + RunLength(s[1..])
  }

  /** The placeholder the pattern matches at the start of `s`, if any. */
  function PlaceholderAt(s: string): (r: Option<string>)
    ensures r.Some? ==> ValidName(r.value) && |r.value| + 4 <= |s| && s[..|r.value| + 4] == Braced(r.value)
  {
    if |s| >= 2 && s[0] == '{' && s[1] == '{' then
      var n := RunLength(s[2..]);
      if n > 0 && n + 4 <= |s| && s[n + 2] == '}' && s[n + 3] == '}' then
        assert s[..n + 4] == Braced(s[2..n + 2]);
        Some(s[2..n + 2])
      else None
    else None
  }

  /** The left-to-right, non-overlapping matching of the placeholder pattern. */
  function Segments(s: string): (r: seq<Segment>)
    ensures forall i :: 0 <= i < |r| && r[i].Placeholder? ==> ValidName(r[i].name)
    decreases |s|
  {
    if s == [] then []
    else match PlaceholderAt(s)
      case Some(n) => [Placeholder(n)] + Segments(s[|n| + 4..])
      case None => [Char(s[0])] + Segments(s[1..])
  }

  /** Every placeholder replaced by `f` of its name; other characters kept. */
  function Substitute(segs: seq<Segment>, f: string -> string): string {
    if segs == [] then []
    else
      (match segs[0] case Char(c) => [c] case Placeholder(n) => f(n)) + Substitute(segs[1..], f)
  }

  /** JavaScript's `text.replace(/\{\{([^}]+)\}\}/g, f)`. */
  function ReplacePlaceholders(s: string, f: string -> string): string {
    Substitute(Segments(s), f)
  }

  /** Putting every placeholder back as it was gives the text back: the segments are a split of the text. */
  lemma {:induction false} SegmentsRoundTrip(s: string)
    ensures ReplacePlaceholders(s, Braced) == s
    decreases |s|
  {
    if s != [] {
      var segs := Segments(s);
      match PlaceholderAt(s)
      case Some(n) =>
        var rest := s[|n| + 4..];
        SegmentsRoundTrip(rest);
        assert segs[0] == Placeholder(n) && segs[1..] == Segments(rest);
        assert Substitute(segs, Braced) == Braced(n) + Substitute(segs[1..], Braced);
        assert s == s[..|n| + 4] + rest;
      case None =>
        SegmentsRoundTrip(s[1..]);
        assert segs[0] == Char(s[0]) && segs[1..] == Segments(s[1..]);
        assert Substitute(segs, Braced) == [s[0]] + Substitute(segs[1..], Braced);
        assert s == [s[0]] + s[1..];
    }
  }

  /** A text without '{' has no placeholder: every replacement leaves it as it is. */
  lemma {:induction false} ReplacePlaceholdersPlain(s: string, f: string -> string)
    requires forall i :: 0 <= i < |s| ==> s[i] != '{'
    ensures Segments(s) == seq(|s|, i requires 0 <= i < |s| => Char(s[i]))
    ensures ReplacePlaceholders(s, f) == s
    decreases |s|
  {
    if s != [] {
      ReplacePlaceholdersPlain(s[1..], f);
      assert Segments(s)[1..] == Segments(s[1..]);
      assert s == [s[0]] + s[1..];
    }
  }

  lemma {:induction false} RunLengthOfName(n: string, rest: string)
    requires ValidName(n)
    requires |rest| > 0 && rest[0] == '}'
    ensures RunLength(n + rest) == |n|
    decreases |n|
  {
    if |n| > 1 {
      assert (n + rest)[1..] == n[1..] + rest;
      RunLengthOfName(n[1..], rest);
    } else {
      assert (n + rest)[1..] == rest;
    }
  }

  /** A lone `{{name}}` is exactly one placeholder with that name. */
  lemma SegmentsOfBraced(n: string)
    requires ValidName(n)
    ensures Segments(Braced(n)) == [Placeholder(n)]
  {
    var s := Braced(n);
    assert s[2..] == n + "}}";
    RunLengthOfName(n, "}}");
    assert s[2..|n| + 2] == n;
    assert s[|n| + 4..] == [];
  }

  /** The names of the placeholders among `segs`, in order. */
  function Names(segs: seq<Segment>): (r: seq<string>)
    ensures forall x :: x in r <==> Placeholder(x) in segs
    ensures (forall i :: 0 <= i < |segs| ==> segs[i].Char?) ==> r == []
  {
    if segs == [] then []
    else (if segs[0].Placeholder? then [segs[0].name] else []) + Names(segs[1..])
  }

  /** The captured names, in order of appearance (`$matches[1]` of `preg_match_all`). */
  function Captures(s: string): (r: seq<string>)
    ensures forall x :: x in r ==> ValidName(x)
  {
    Names(Segments(s))
  }

  /** `array_unique`: the first occurrence of each value is kept, in order. */
  function Unique(xs: seq<string>): (r: seq<string>)
    ensures forall x :: x in r <==> x in xs
    ensures forall i, j :: 0 <= i < j < |r| ==> r[i] != r[j]
  {
    if xs == [] then []
    else
      var init := xs[..|xs| - 1];
      var last := xs[|xs| - 1];
      assert xs == init + [last];
      if last in init then Unique(init) else Unique(init) + [last]
  }

  /** The variables the templates list shows for a content. */
  function VariablesShown(content: string): seq<string> {
    Unique(Captures(content))
  }

  /**
   * The variables shown are the names the pattern captures, each once, each
   * non-empty and without '}'; a content without '{' shows none, and a lone
   * placeholder shows its own name.
   */
  lemma VariablesShownFacts(content: string)
    ensures forall x :: x in VariablesShown(content) <==> x in Captures(content)
    ensures forall x :: x in VariablesShown(content) ==> ValidName(x)
    ensures forall i, j :: 0 <= i < j < |VariablesShown(content)| ==> VariablesShown(content)[i] != VariablesShown(content)[j]
    ensures (forall i :: 0 <= i < |content| ==> content[i] != '{') ==> VariablesShown(content) == []
    ensures ValidName(content) ==> VariablesShown(Braced(content)) == [content]
  {
    if forall i :: 0 <= i < |content| ==> content[i] != '{' {
      ReplacePlaceholdersPlain(content, Braced);
      var segs := Segments(content);
      assert forall i :: 0 <= i < |segs| ==> segs[i].Char?;
    }
    if ValidName(content) {
      SegmentsOfBraced(content);
      assert [Placeholder(content)][1..] == [];
      assert Names([Placeholder(content)]) == [content] + Names([]);
      assert Unique([content]) == [content] by {
        assert [content][..0] == [];
      }
    }
  }

  // ---------------------------------------------------------------- sample preview

  /** JavaScript's `text.replace(/literal/g, rep)`: non-overlapping occurrences, left to right. */
  function ReplaceLiteral(s: string, pat: string, rep: string): string
    requires |pat| > 0
    decreases |s|
  {
    if |s| < |pat| then s
    else if s[..|pat|] == pat then rep + ReplaceLiteral(s[|pat|..], pat, rep)
    else [s[0]] + ReplaceLiteral(s[1..], pat, rep)
  }

  /** A text without the pattern's first character is left as it is. */
  lemma {:induction false} ReplaceLiteralAbsent(s: string, pat: string, rep: string)
    requires |pat| > 0
    requires forall i :: 0 <= i < |s| ==> s[i] != pat[0]
    ensures ReplaceLiteral(s, pat, rep) == s
    decreases |s|
  {
    if |s| >= |pat| {
      assert s[..|pat|][0] != pat[0];
      ReplaceLiteralAbsent(s[1..], pat, rep);
      assert s == [s[0]] + s[1..];
    }
  }

  /** A name with neither brace. */
  predicate BraceFree(n: string) {
    forall i :: 0 <= i < |n| ==> n[i] != '{' && n[i] != '}'
  }

  /** Replacing `{{k}}` leaves a placeholder with another brace-free name untouched. */
  lemma ReplaceLiteralOtherName(n: string, k: string, rep: string)
    requires BraceFree(n) && |n| > 0 && BraceFree(k) && n != k
    ensures ReplaceLiteral(Braced(n), Braced(k), rep) == Braced(n)
  {
    var s, pat := Braced(n), Braced(k);
    if |s| >= |pat| {
      var d;
      if |n| == |k| {
        if forall i :: 0 <= i < |n| ==> n[i] == k[i] {
          assert false;
        }
        var i :| 0 <= i < |n| && n[i] != k[i];
        d := i + 2;
      } else {
        d := |k| + 2;
      }
      assert s[..|pat|][d] != pat[d];
      var s1 := s[1..];
      assert s1 == "{" + n + "}}";
      if |s1| >= |pat| {
        assert s1[1] == n[0];
        assert s1[..|pat|] != pat by {
          assert s1[..|pat|][1] != pat[1];
        }
      }
      var s2 := s1[1..];
      assert s2 == n + "}}";
      ReplaceLiteralAbsent(s2, pat, rep);
      assert s == [s[0]] + ([s1[0]] + s2);
    }
  }

  /** The five placeholders the preview fills with sample data, in the order it replaces them. */
  const SampleValues: seq<(string, string)> := [
    ("first_name", "John"), ("last_name", "Doe"), ("full_name", "John Doe"),
    ("phone_number", "+1234567890"), ("email", "john.doe@example.com")]

  /** The chain of literal replacements, one `(name, value)` pair after the other. */
  function ReplaceKnown(s: string, pairs: seq<(string, string)>): string
    decreases |pairs|
  {
    if pairs == [] then s
    else ReplaceKnown(ReplaceLiteral(s, Braced(pairs[0].0), pairs[0].1), pairs[1..])
  }

  /** What any remaining placeholder becomes in the sample preview. */
  function SampleMarkup(n: string): string {
    "<em>" + n + " value</em>"
  }

  /** The sample preview of a template content. */
  function SamplePreview(content: string): string {
    ReplacePlaceholders(ReplaceKnown(content, SampleValues), SampleMarkup)
  }

  /** The editor's live preview: every placeholder wrapped in a highlight span. */
  function HighlightMarkup(n: string): string {
    "<span class=\"variable-highlight\">" + Braced(n) + "</span>"
  }

  function LivePreview(content: string): string {
    ReplacePlaceholders(content, HighlightMarkup)
  }

  predicate NoOpenBrace(s: string) {
    forall i :: 0 <= i < |s| ==> s[i] != '{'
  }

  predicate SamplePairsWellFormed(pairs: seq<(string, string)>) {
    forall i :: 0 <= i < |pairs| ==> BraceFree(pairs[i].0) && |pairs[i].0| > 0 && NoOpenBrace(pairs[i].1)
  }

  lemma {:induction false} ReplaceKnownPlain(s: string, pairs: seq<(string, string)>)
    requires NoOpenBrace(s)
    ensures ReplaceKnown(s, pairs) == s
    decreases |pairs|
  {
    if pairs != [] {
      ReplaceLiteralAbsent(s, Braced(pairs[0].0), pairs[0].1);
      ReplaceKnownPlain(s, pairs[1..]);
    }
  }

  lemma {:induction false} ReplaceKnownOther(n: string, pairs: seq<(string, string)>)
    requires BraceFree(n) && |n| > 0
    requires SamplePairsWellFormed(pairs)
    requires forall i :: 0 <= i < |pairs| ==> pairs[i].0 != n
    ensures ReplaceKnown(Braced(n), pairs) == Braced(n)
    decreases |pairs|
  {
    if pairs != [] {
      ReplaceLiteralOtherName(n, pairs[0].0, pairs[0].1);
      ReplaceKnownOther(n, pairs[1..]);
    }
  }

  lemma {:induction false} ReplaceKnownHit(pairs: seq<(string, string)>, j: nat)
    requires j < |pairs|
    requires SamplePairsWellFormed(pairs)
    requires forall i :: 0 <= i < j ==> pairs[i].0 != pairs[j].0
    ensures ReplaceKnown(Braced(pairs[j].0), pairs) == pairs[j].1
    decreases j
  {
    var n := pairs[j].0;
    if j == 0 {
      var s := Braced(n);
      assert s[..|s|] == s;
      assert s[|s|..] == [];
      assert ReplaceLiteral(s, s, pairs[0].1) == pairs[0].1;
      ReplaceKnownPlain(pairs[0].1, pairs[1..]);
    } else {
      ReplaceLiteralOtherName(n, pairs[0].0, pairs[0].1);
      assert pairs[1..][j - 1] == pairs[j];
      ReplaceKnownHit(pairs[1..], j - 1);
    }
  }

  /** Substituting a single placeholder. */
  lemma SubstituteBraced(n: string, f: string -> string)
    requires ValidName(n)
    ensures ReplacePlaceholders(Braced(n), f) == f(n)
  {
    SegmentsOfBraced(n);
    assert [Placeholder(n)][1..] == [];
    assert Substitute([Placeholder(n)], f) == f(n) + Substitute([], f);
  }

  /** The five sample names are brace-free, non-empty and distinct, and no sample value opens a brace. */
  lemma SampleValuesWellFormed()
    ensures SamplePairsWellFormed(SampleValues)
    ensures forall i, j :: 0 <= i < j < |SampleValues| ==> SampleValues[i].0 != SampleValues[j].0
  {
    forall i | 0 <= i < |SampleValues|
      ensures BraceFree(SampleValues[i].0) && |SampleValues[i].0| > 0 && NoOpenBrace(SampleValues[i].1)
    {
    }
  }

  /** The sample preview shows the sample value for each of the five known placeholders. */
  lemma SamplePreviewKnown(j: nat)
    requires j < |SampleValues|
    ensures SamplePreview(Braced(SampleValues[j].0)) == SampleValues[j].1
  {
    SampleValuesWellFormed();
    ReplaceKnownHit(SampleValues, j);
    ReplacePlaceholdersPlain(SampleValues[j].1, SampleMarkup);
  }

  /** Any other placeholder with a brace-free name is shown as `<em>name value</em>`. */
  lemma SamplePreviewOther(n: string)
    requires BraceFree(n) && |n| > 0 && forall i :: 0 <= i < |SampleValues| ==> SampleValues[i].0 != n
    ensures SamplePreview(Braced(n)) == SampleMarkup(n)
  {
    SampleValuesWellFormed();
    ReplaceKnownOther(n, SampleValues);
    SubstituteBraced(n, SampleMarkup);
  }

  /** A text without '{' is previewed unchanged. */
  lemma SamplePreviewPlain(content: string)
    requires NoOpenBrace(content)
    ensures SamplePreview(content) == content
  {
    ReplaceKnownPlain(content, SampleValues);
    ReplacePlaceholdersPlain(content, SampleMarkup);
  }

  /** The live preview wraps a placeholder in the highlight span and keeps the placeholder's own text inside it. */
  lemma LivePreviewOfBraced(n: string)
    requires ValidName(n)
    ensures LivePreview(Braced(n)) == "<span class=\"variable-highlight\">" + Braced(n) + "</span>"
  {
    SubstituteBraced(n, HighlightMarkup);
  }

  // ---------------------------------------------------------------- variable insertion

  /** The cursor as `substring` uses it: clamped to the text. */
  function Clamp(cursor: int, len: nat): (c: nat)
    ensures c <= len
    ensures 0 <= cursor <= len ==> c == cursor
    ensures cursor < 0 ==> c == 0
    ensures cursor > len ==> c == len
  {
    if cursor < 0 then 0 else if cursor > len then len else cursor
  }

  /** The text with `variable` inserted at the cursor. */
  function InsertVariable(text: string, cursor: int, variable: string): string {
    var c := Clamp(cursor, |text|);
    text[..c] + variable + text[c..]
  }

  /**
   * Insertion puts the variable at the cursor, keeps what was before and
   * after it, and taking the variable out again gives the original text.
   */
  lemma InsertVariableFacts(text: string, cursor: int, variable: string)
    ensures var r := InsertVariable(text, cursor, variable);
            var c := Clamp(cursor, |text|);
            && |r| == |text| + |variable|
            && r[c..c + |variable|] == variable
            && r[..c] + r[c + |variable|..] == text
  {
    var r := InsertVariable(text, cursor, variable);
    var c := Clamp(cursor, |text|);
    assert r[..c] == text[..c];
    assert r[c + |variable|..] == text[c..];
    assert text == text[..c] + text[c..];
  }

  /** The variable dropdown: the custom-field entry opens the name field instead, and the empty choice does nothing. */
  function OnVariableChosen(text: string, cursor: int, variable: string): (r: string)
    ensures variable == "" || variable == "{{custom_field}}" ==> r == text
    ensures variable != "" && variable != "{{custom_field}}" ==> r == InsertVariable(text, cursor, variable)
  {
    if variable == "{{custom_field}}" then text
    else if variable != "" then InsertVariable(text, cursor, variable)
    else text
  }
}

=== FILE: wp.dfy ===
/**
 * The WordPress data the plugin works on: posts with their meta, site options,
 * the plugin's three custom tables plus the QR-code table, and a log of the
 * actions (`do_action`) the plugin fires. Everything the handlers change goes
 * through the methods of `Database`, which mirror the WordPress functions the
 * plugin calls.
 */
module Wp {
  import opened Php
  import opened Wrappers

  const CampaignType := "marketing_campaign"
  const ContactType := "marketing_contact"
  const ListType := "marketing_list"
  const TemplateType := "message_template"

  /** A post: its type, title, content and author. */
  datatype Post = Post(postType: string, title: string, content: string, author: int)

  /**
   * A row of the campaign messages table. The table has no unique key over
   * (campaign_id, contact_id); its AUTO_INCREMENT id is not used by the plugin
   * and is not kept. `sentAt` is NULL until a sent or delivered update.
   */
  datatype MessageRow = MessageRow(
    campaignId: int, contactId: int, status: string, messageId: string,
    errorMessage: string, sentAt: Option<string>, createdAt: string, updatedAt: string)

  /** A row of the list/contact relation table. */
  datatype ListContactRow = ListContactRow(listId: int, contactId: int)

  /** A row of the contact custom-fields table. */
  datatype FieldRow = FieldRow(contactId: int, key: string, value: string)

  /**
   * A row of the QR-code table. The two chart-service URLs the page derives
   * from the wa.me link are represented by the link itself.
   */
  datatype QrRow = QrRow(id: int, userId: int, phoneNumber: string, message: string, whatsappUrl: string, createdAt: string)

  /** The actions the plugin fires for outside observers. */
  datatype Event =
    | CampaignCompleted(campaignId: int)
    | CampaignFailed(campaignId: int, message: string)
    | QrCodeGenerated(qrCodeId: int, url: string)

  /** Meta of post `id` in a postmeta table, empty when it has none. */
  function MetaIn(meta: map<int, map<string, Value>>, id: int): map<string, Value> {
    if id in meta then meta[id] else map[]
  }

  /** A single meta value of post `id`, '' when the key is absent. */
  function MetaValue(meta: map<int, map<string, Value>>, id: int, key: string): Value {
    var m := MetaIn(meta, id);
    if key in m then m[key] else Str("")
  }

  /** The characters `sanitize_key` keeps: lower-case ASCII letters, digits, '_' and '-'. */
  predicate KeyChar(c: char) {
    'a' <= c <= 'z' || IsDigit(c) || c == '_' || c == '-'
  }

  /** `sanitize_key`: the key lowered (ASCII), then every character other than a key character dropped. */
  function SanitizeKey(k: string): (r: string)
    ensures |r| <= |k|
    ensures forall i :: 0 <= i < |r| ==> KeyChar(r[i])
  {
    if k == [] then []
    else (if KeyChar(ToLowerChar(k[0])) then [ToLowerChar(k[0])] else []) + SanitizeKey(k[1..])
  }

  /**
   * SanitizeKey works character by character: it distributes over
   * concatenation, and a single character is kept, lowered, exactly when its
   * lowered form is a key character.
   */
  lemma {:induction false} SanitizeKeyByCharacter(a: string, b: string, c: char)
    ensures SanitizeKey(a + b) == SanitizeKey(a) + SanitizeKey(b)
    ensures SanitizeKey([c]) == (if KeyChar(ToLowerChar(c)) then [ToLowerChar(c)] else [])
  {
    if a != [] {
      assert (a + b)[0] == a[0];
      assert (a + b)[1..] == a[1..] + b;
      SanitizeKeyByCharacter(a[1..], b, c);
    } else {
      assert a + b == b;
    }
    assert [c][1..] == [];
  }

  /** A key already made of key characters is kept as it is. */
  lemma {:induction false} SanitizeKeyOfClean(k: string)
    requires forall i :: 0 <= i < |k| ==> KeyChar(k[i])
    ensures SanitizeKey(k) == k
  {
    if k != [] {
      SanitizeKeyOfClean(k[1..]);
    }
  }

  /** Sanitising twice is sanitising once. */
  lemma SanitizeKeyIdempotent(k: string)
    ensures SanitizeKey(SanitizeKey(k)) == SanitizeKey(k)
  {
    SanitizeKeyOfClean(SanitizeKey(k));
  }

  /** Capitals are lowered and other characters dropped, so distinct keys can become one, or nothing. */
  lemma SanitizeKeyExamples()
    ensures SanitizeKey("Phone") == "phone"
    ensures SanitizeKey("!!") == ""
  {
    assert SanitizeKey("e") == "e";
    assert SanitizeKey("ne") == "ne";
    assert SanitizeKey("one") == "one";
    assert SanitizeKey("hone") == "hone";
    assert ToLowerChar('P') == 'p';
    assert SanitizeKey("!") == "";
  }

  /**
   * The postmeta table after `update_post_meta($id, $key, $v)`: WordPress
   * passes the id through `absint` and refuses id 0 and a falsy key ('' or '0').
   */
  function MetaWrite(meta: map<int, map<string, Value>>, id: int, key: string, v: Value): (r: map<int, map<string, Value>>)
    ensures id > 0 && !EmptyString(key) ==> r == meta[id := MetaIn(meta, id)[key := v]]
    ensures id == 0 || EmptyString(key) ==> r == meta
  {
    var target := if id < 0 then -id else id;
    if target == 0 || EmptyString(key) then meta else meta[target := MetaIn(meta, target)[key := v]]
  }

  /** A post with this id exists and has type `t`. */
  predicate IsPostOfType(posts: map<int, Post>, id: int, t: string) {
    id in posts && posts[id].postType == t
  }

  /** Writing a key into the meta of a real post replaces that post's map and no other. */
  lemma MetaWriteAt(meta: map<int, map<string, Value>>, id: int, m: map<string, Value>, key: string, v: Value)
    requires id > 0 && !EmptyString(key)
    ensures MetaWrite(meta[id := m], id, key, v) == meta[id := m[key := v]]
  {
  }

  ghost predicate PostsValid(posts: map<int, Post>, meta: map<int, map<string, Value>>, nextPostId: int) {
    0 < nextPostId && forall id :: id in posts ==> 0 < id < nextPostId && id in meta
  }

  ghost predicate QrRowsValid(rows: seq<QrRow>, nextQrId: int) {
    && 0 < nextQrId
    && (forall i :: 0 <= i < |rows| ==> 0 < rows[i].id < nextQrId)
    && (forall i, j :: 0 <= i < j < |rows| ==> rows[i].id < rows[j].id)
  }

  class Database {
    var posts: map<int, Post>
    var meta: map<int, map<string, Value>>
    var options: map<string, Value>
    var messages: seq<MessageRow>
    var listContacts: seq<ListContactRow>
    var contactFields: seq<FieldRow>
    var qrCodes: seq<QrRow>
    var events: seq<Event>
    var nextPostId: int
    var nextQrId: int

    /**
     * Post ids and QR ids are positive and below the next AUTO_INCREMENT value,
     * QR rows are kept in increasing id order (so their ids are distinct, as
     * the primary key demands), and every post has an entry (possibly empty)
     * in the postmeta table.
     */
    ghost predicate Valid()
      reads this`posts, this`meta, this`nextPostId, this`qrCodes, this`nextQrId
    {
      PostsValid(posts, meta, nextPostId) && QrRowsValid(qrCodes, nextQrId)
    }

    constructor ()
      ensures Valid()
      ensures posts == map[] && meta == map[] && options == map[]
      ensures messages == [] && listContacts == [] && contactFields == [] && qrCodes == [] && events == []
    {
      posts, meta, options := map[], map[], map[];
      messages, listContacts, contactFields, qrCodes, events := [], [], [], [], [];
      nextPostId, nextQrId := 1, 1;
    }

    function MetaOf(id: int): map<string, Value>
      reads this`meta
    {
      MetaIn(meta, id)
    }

    /** `get_post_meta($id, $key, true)`: '' when the key is absent. */
    function GetMeta(id: int, key: string): Value
      reads this`meta
    {
      MetaValue(meta, id, key)
    }

    /** `get_post($id)` finds a post and `get_post_type($id)` is `t`. */
    predicate HasPostOfType(id: int, t: string)
      reads this`posts
    {
      IsPostOfType(posts, id, t)
    }

    /** `get_option($key, $default)`. */
    function GetOption(key: string, default: Value): Value
      reads this`options
    {
      if key in options then options[key] else default
    }

    method UpdatePostMeta(id: int, key: string, v: Value)
      modifies this`meta
      ensures meta == MetaWrite(old(meta), id, key, v)
      ensures old(Valid()) ==> Valid()
    {
      meta := MetaWrite(meta, id, key, v);
    }

    /**
     * `wp_insert_post`: the new post gets the next id; meta rows already
     * stored under that id (nothing prevents them) now belong to it.
     */
    method InsertPost(p: Post) returns (id: int)
      requires Valid()
      modifies this`posts, this`meta, this`nextPostId
      ensures Valid()
      ensures id == old(nextPostId) && id > 0 && id !in old(posts) && nextPostId == old(nextPostId) + 1
      ensures forall j :: j in old(posts) ==> j < id
      ensures posts == old(posts)[id := p]
      ensures meta == old(meta)[id := MetaIn(old(meta), id)]
    {
      id := nextPostId;
      posts := posts[id := p];
      meta := meta[id := MetaIn(meta, id)];
      nextPostId := nextPostId + 1;
    }

    /** `wp_update_post`: replaces an existing post, does nothing for an unknown id. */
    method UpdatePost(id: int, p: Post)
      modifies this`posts
      ensures posts == if id in old(posts) then old(posts)[id := p] else old(posts)
      ensures old(Valid()) ==> Valid()
    {
      if id in posts {
        posts := posts[id := p];
      }
    }

    /**
     * `wp_delete_post($id, true)`: removes the post and all its meta; for an
     * id that names no post it returns before touching anything.
     */
    method DeletePost(id: int)
      modifies this`posts, this`meta
      ensures id in old(posts) ==> posts == old(posts) - {id} && meta == old(meta) - {id}
      ensures id !in old(posts) ==> posts == old(posts) && meta == old(meta)
      ensures old(Valid()) ==> Valid()
    {
      if id in posts {
        posts := posts - {id};
        meta := meta - {id};
      }
    }

    /** `update_option`. */
    method UpdateOption(key: string, v: Value)
      modifies this`options
      ensures options == old(options)[key := v]
    {
      options := options[key := v];
    }

    /** `do_action`: observers are outside the model, so firing is recorded. */
    method DoAction(e: Event)
      modifies this`events
      ensures events == old(events) + [e]
    {
      events := events + [e];
    }
  }
}

=== FILE: wrappers.dfy ===
/** Small failure-compatible datatypes shared by every module. */
module Wrappers {

  datatype Option<+T> = None | Some(value: T) {
    function GetOr(default: T): T {
      match this
      case Some(v) => v
      case None => default
    }
  }

  datatype Result<+T, +E> = Success(value: T) | Failure(error: E)
}
